=== FILE: README.md ===
# Riservi reservation bot: a verified model of its core

The bot lets restaurant guests check availability, book, change and cancel reservations
by chatting on WhatsApp or on a web chat. Every user message goes to an OpenAI assistant
("the agent"). When the agent's reply carries a machine-readable command, the bot acts on
it. Commands are JSON objects whose `type` is `#DISPONIBLE#`, `#RESERVA#`, `#MODIFICAR#`,
`#CANCELAR#` or `#CONFIRMAR#`. They arrive either in tagged blocks such as
`[JSON-RESERVA]...[/JSON-RESERVA]` and `[API]...[/API]`, or as loose `{...}` blocks.

The bot calls the Riservi reservation backend for the command and reports the outcome to
the agent. It then handles the agent's answer in turn. A reply without a command is
cleaned of its blocks and sent to the user in chunks.

The model covers these parts, one Dafny module each:

- `JsonBlockFinder`: the command search over free text and over reply objects.
- `Cleaning`: block removal and chunking.
- `Dates`: date correction and the future check.
- `Riservi`: the backend client.
- `ApiQueue`: the serial request queue.
- `ResponseProcessor`: the response processor.
- `MessageHandler`: the user-message handler of `app.ts`.
- `AgentGateway`: the retrying agent call and the per-user timeout table.
- `UserQueues`: the per-user message queues.
- `WebChatSession`: the web-chat session.

`Json`, `Text` and `Wrappers` hold the value model:

- JSON values with member order, JavaScript truthiness and `typeof`.
- String searching, trimming, splitting and padding.
- `Option` and `Result`.

Everything the code cannot see or control is an input:

- the agent's replies, the HTTP outcomes and the clock;
- `JSON.parse`, `JSON.stringify` and the moment/Date parsers.

Code that updates state step by step is modelled with classes whose methods update
fields. These are the queue, the timeout table, the user queues, the web-chat session,
and the two handlers with their logs of messages sent, agent requests and backend calls.
Loops are kept as loops, each proved against a specification function.

## Model

| member | source | states |
|---|---|---|
| Json.Lookup | src/Api-Riservi/riservi.ts:43-89 | a member is found exactly when some member has that key, and the value found belongs to such a member |
| Json.Put | src/Api-Riservi/riservi.ts:54-89 | assigning a member makes it read back as the new value and leaves every other key's value unchanged |
| Json.Without | src/app.ts:62 | deleting a key makes it absent and leaves every other key unchanged |
| Json.Or | src/Api-Riservi/riservi.ts:108 | `a \|\| b` is truthy exactly when one operand is, and is `a` whenever `a` is truthy |
| Text.IndexOf | src/Api-Riservi/JsonBlockFinder.ts:15-17 | the search returns the first occurrence at or after the start position, and nothing only when there is no occurrence |
| Text.Split | src/app.ts:422-423 | `split` yields at least one piece, and no piece holds the separator |
| Text.JoinSplit | src/app.ts:422-423 | joining the pieces of `split` with the separator gives back the text |
| Text.Trim | src/utils/AssistantResponseProcessor.ts:89 | `trim` removes exactly the leading and trailing white space, and the result neither starts nor ends with white space |
| Text.TrimEmpty | src/utils/AssistantResponseProcessor.ts:486 | a text trims to nothing exactly when it is all white space |
| Text.PadStart | src/app.ts:428 | `padStart` pads on the left to the width with the fill character and keeps the text as its suffix |
| Text.PaddedShow | src/app.ts:428 | a number printed and zero-padded to any width is all digits and reads back as the number |
| Text.Contains | src/app.ts:44 | `includes` holds exactly when the pattern occurs at some position of the text |
| Text.ReplaceFirst | src/app.ts:433 | `replace` with a one-character string pattern changes only the first occurrence, which no earlier character matches; a text without the character is unchanged |
| Text.ReplaceFirstAt | src/app.ts:433 | when the character first occurs right after a prefix without it, exactly that occurrence is replaced and the rest is kept |
| JsonBlockFinder.NextMatch | src/Api-Riservi/JsonBlockFinder.ts:15-17 | the lazy block regex matches at the leftmost opening delimiter, closes at the first closing delimiter after it, and matches nothing only when no opening delimiter is followed by a closing one |
| JsonBlockFinder.AllMatches | src/Api-Riservi/JsonBlockFinder.ts:29 | every match of the global search lies inside the text and starts at or after the search start |
| JsonBlockFinder.LooseBlockShape | src/Api-Riservi/JsonBlockFinder.ts:29 | each loose candidate is a `{`, text without `}`, then the first `}` after it |
| JsonBlockFinder.FirstOfKinds | src/Api-Riservi/JsonBlockFinder.ts:17-26 | a candidate list yields nothing exactly when no candidate parses to an object of an accepted type, and what it yields has an accepted type |
| JsonBlockFinder.FirstAcceptedWins | src/Api-Riservi/JsonBlockFinder.ts:17-26 | the first acceptable candidate is returned, whatever follows it; unparsable candidates are skipped |
| JsonBlockFinder.TagCandidates | src/Api-Riservi/JsonBlockFinder.ts:6-15 | there is one candidate list per tag, in the fixed tag order, holding the contents of that tag's blocks |
| JsonBlockFinder.TaggedPass | src/Api-Riservi/JsonBlockFinder.ts:13-27 | the tagged pass only returns objects; which object it returns is stated by EarliestTagWins and TaggedPassNone |
| JsonBlockFinder.TaggedPassNone | src/Api-Riservi/JsonBlockFinder.ts:13-27 | the tagged pass finds nothing exactly when no tag yields a block of its own type |
| JsonBlockFinder.TaggedPassKind | src/Api-Riservi/JsonBlockFinder.ts:20 | the tagged pass only returns objects whose `type` is one of the five kinds |
| JsonBlockFinder.EarliestTagWins | src/Api-Riservi/JsonBlockFinder.ts:13-27 | the earliest tag in the fixed order that yields a command decides |
| JsonBlockFinder.FirstCommand | src/Api-Riservi/JsonBlockFinder.ts:4-41 | the text search returns only objects; when it finds nothing is stated by NothingFound, and which block it finds by EarliestTagWins and LooseOnlyAsFallback |
| JsonBlockFinder.FirstCommandInText | src/Api-Riservi/JsonBlockFinder.ts:4-41 | `buscarBloquesJSONEnTexto` on the text returns only objects; FindInText proves the loops equal to it, and NothingFound, EarliestTagWins and LooseOnlyAsFallback state which block it returns |
| JsonBlockFinder.FirstCommandInTextKind | src/Api-Riservi/JsonBlockFinder.ts:20-33 | whatever the text search returns has one of the five command kinds as its `type` |
| JsonBlockFinder.LooseOnlyAsFallback | src/Api-Riservi/JsonBlockFinder.ts:28-39 | the loose pass is used only when no tag yields a command, and then its first acceptable block decides |
| JsonBlockFinder.TaggedBeforeLoose | src/Api-Riservi/JsonBlockFinder.ts:13-39 | an acceptable tagged block wins over every loose block when no earlier tag yields a command |
| JsonBlockFinder.NothingFound | src/Api-Riservi/JsonBlockFinder.ts:40 | the result is null exactly when no tagged block carries its tag's type and no loose block carries a known type |
| JsonBlockFinder.FindInText | src/Api-Riservi/JsonBlockFinder.ts:4-41 | the loops over the tags, their `exec` matches and the loose blocks return exactly the specified first command |
| JsonBlockFinder.ReservationBlockFound | src/Api-Riservi/JsonBlockFinder.ts:7-21 | a reply whose first reservation block parses to a `#RESERVA#` object yields exactly that object |
| JsonBlockFinder.FirstReservaBlock | src/Api-Riservi/JsonBlockFinder.ts:15-17 | the first reservation candidate is the text between the first opening tag and the first closing tag after it |
| JsonBlockFinder.DeepFind | src/Api-Riservi/JsonBlockFinder.ts:43-55 | the deep search returns only objects, and nothing for a falsy value |
| JsonBlockFinder.DeepFindFrom | src/Api-Riservi/JsonBlockFinder.ts:48-53 | the search over the remaining members returns only objects; the order in which members are searched is stated by DeepFindIsFirstLeaf |
| JsonBlockFinder.DeepFindIsFirstLeaf | src/Api-Riservi/JsonBlockFinder.ts:43-55 | the deep search is the text search applied to the value's strings in depth-first key order; the first string holding a command decides |
| Cleaning.AllMatchesOrdered | src/app.ts:413-415 | the matches of a global replace follow each other without overlapping |
| Cleaning.Gaps | src/app.ts:413-415 | there is one kept piece more than there are removed blocks |
| Cleaning.GapsWeave | src/app.ts:413-415 | putting the removed blocks back between the kept pieces gives the original text |
| Cleaning.StripBlocksRemovesOnlyBlocks | src/utils/AssistantResponseProcessor.ts:34-36 | block removal keeps exactly the text around whole `open...close` matches; nothing else is removed and the order is kept |
| Cleaning.StripBlocksNoBlock | src/app.ts:413-415 | a text without a complete block is left unchanged |
| Cleaning.StripApiBlocks | src/utils/AssistantResponseProcessor.ts:34-36 | the reply loses exactly its whole `[API]...[/API]` matches: the kept pieces, with the matches put back between them, are the reply |
| Cleaning.StripJsonBlocks | src/app.ts:413-415 | the `[JSON-DISPONIBLE]` blocks are removed as whole matches, then the `[JSON-RESERVA]` blocks from what is left |
| Cleaning.SplitRuns | src/utils/AssistantResponseProcessor.ts:484 | `split(/\n\n+/)` yields at least one piece, starts with a prefix of the text, and no piece holds a blank line |
| Cleaning.SplitRunsNone | src/utils/AssistantResponseProcessor.ts:484 | a text without a blank line is a single piece |
| Cleaning.SplitRunsAfter | src/utils/AssistantResponseProcessor.ts:484 | a run of two or more line feeds separates the piece before it from the pieces after it |
| Cleaning.KeepTrimmedMembers | src/utils/AssistantResponseProcessor.ts:485-496 | a message is kept exactly when it is the non-empty trimmed text of some piece |
| Cleaning.Chunks | src/utils/AssistantResponseProcessor.ts:483-496 | the messages are exactly the non-empty trimmed pieces of the text cut at its blank lines |
| Cleaning.ChunksShape | src/utils/AssistantResponseProcessor.ts:483-496 | every message sent is non-empty, is trimmed and holds no blank line |
| Cleaning.BlankSendsNothing | src/utils/AssistantResponseProcessor.ts:483 | a blank text sends nothing, so the length guard before splitting changes nothing |
| Cleaning.SendChunks | src/utils/AssistantResponseProcessor.ts:483-496 | the sending loop sends exactly the chunks of the text |
| Cleaning.SendPieces | src/utils/AssistantResponseProcessor.ts:485-496 | each piece whose trimmed text is non-empty is sent trimmed, in order |
| Dates.ReadDate | src/app.ts:422-423 | the date reading splits off the time at the first space, so the time never holds a space; the values of the fields read from a date `Y-M-D time` are stated by ReadRender and CorrectYear |
| Dates.ToNumberBlank | src/app.ts:423 | `Number` of a blank field is 0 |
| Dates.ToNumberDigits | src/app.ts:423 | `Number` of a field of decimal digits is their value, leading zeros included |
| Dates.ToNumberZeroFraction | src/app.ts:423 | digits followed by a point and only zeros (`15.0`, `15.`) read as the value of the digits |
| Dates.ToNumberPlus | src/app.ts:423 | a leading `+` before a decimal numeral changes nothing |
| Dates.ToNumberPrefixed | src/app.ts:423 | a `0x`, `0o` or `0b` numeral reads as the value of its digits in base 16, 8 or 2 |
| Dates.ReadPadded | src/app.ts:423-428 | a field printed and zero-padded to any width reads back as the same value, NaN included |
| Dates.RenderSplits | src/app.ts:428 | the rendered date is the three padded fields joined by "-", a space and the time, and it splits back into exactly those pieces |
| Dates.ReadRender | src/app.ts:422-428 | reading a rendered date gives back its fields (year, month, day and time) |
| Dates.Raise | src/app.ts:424-427 | a past year becomes the current year, any other year is kept, and NaN stays NaN |
| Dates.CorrectYear | src/app.ts:418-429 | the correction succeeds exactly when the date has a reading; the corrected date reads back with its year raised and every other field kept |
| Dates.CorrectYearIdempotent | src/utils/AssistantResponseProcessor.ts:38-46 | correcting a corrected date changes nothing |
| Dates.CorrectYearLayout | src/app.ts:428 | the corrected date is the year, month and day zero-padded to four, two and two characters and joined by "-", then a space and the input's time part unchanged, or "undefined" when it has none |
| Dates.IsFutureOfCorrected | src/app.ts:431-435 | `esFechaFutura` (`IsFuture`) of a corrected date parses its date part and time part joined by "T", and holds exactly when that instant is now or later |
| Dates.WithYear | src/Api-Riservi/riservi.ts:48 | moment's year setter keeps a valid date valid and changes only the year, turning 29 February into the 28th in a common year |
| Dates.RaiseYear | src/Api-Riservi/riservi.ts:46-49 | the year is raised to the current one when it is earlier; otherwise the date is unchanged |
| Dates.BeforeTotal | src/Api-Riservi/riservi.ts:191 | chronological order is a strict total order, and `isSameOrBefore` is its complement |
| Dates.LaterYearIsLater | src/Api-Riservi/riservi.ts:186-193 | moving a date to a later year moves it later in time |
| Dates.FormatMinuteFields | src/Api-Riservi/riservi.ts:56 | the "YYYY-MM-DD HH:mm" text of any date has that layout: a year zero-filled to at least four digits (exactly four up to 9999, with no sign above it), then month, day, hour and minute in two digits each, and every field reads back as the date's value |
| Riservi.ErrorValue | src/Api-Riservi/riservi.ts:117 | `{ error: text }` carries the text as its `error` |
| Riservi.Settle | src/Api-Riservi/riservi.ts:143-149 | a failed request returns the backend's body, or `{ error }` when there is none; it never throws |
| Riservi.TruthyOnly | src/Api-Riservi/riservi.ts:61-67 | a member is copied exactly when its value is truthy, and then unchanged |
| Riservi.DateField | src/Api-Riservi/riservi.ts:43-59 | the request has a date exactly when the input's date is truthy; an unparsable date is sent as it is |
| Riservi.CopyTruthy | src/Api-Riservi/riservi.ts:61-79 | the copying sets each listed member whose input value is truthy and leaves every other member as it was |
| Riservi.CopyDefined | src/Api-Riservi/riservi.ts:82-89 | the `extraKeys` loop copies a defined member only when the request does not already have it |
| Riservi.DateMember | src/Api-Riservi/riservi.ts:43-59 | the date steps compute the specified request date |
| Riservi.NotesAndArea | src/Api-Riservi/riservi.ts:67-73 | a truthy `preferredArea` that is not text throws; otherwise notes and area are set as specified and nothing else changes |
| Riservi.StagesGiveExpected | src/Api-Riservi/riservi.ts:54-89 | the payload stages, member by member, give the expected request |
| Riservi.FirstMembers | src/Api-Riservi/riservi.ts:55-60 | the request starts with only `date` and `partySize` |
| Riservi.BuildPayload | src/Api-Riservi/riservi.ts:36-89 | the request fails exactly when the party size is not a positive number (with that error) or the area is not text; otherwise every member is the expected one |
| Riservi.FirstTruthy | src/Api-Riservi/riservi.ts:107-111 | the first truthy candidate, which is nothing exactly when no candidate is truthy |
| Riservi.IdChains | src/Api-Riservi/riservi.ts:108-111 | the two `\|\|` chains give the first truthy id, looking inside `response` only when the top-level chain is falsy |
| Riservi.ReservaId | src/Api-Riservi/riservi.ts:107-111 | the id is truthy exactly when some candidate field is, and then it is the first truthy one |
| Riservi.WithReservaId | src/Api-Riservi/riservi.ts:112 | `{ ...data, reservaId }` keeps every other member of an object answer and adds the id |
| Riservi.CreateAnswer | src/Api-Riservi/riservi.ts:93-119 | a 2xx answer gets its id, a 2xx answer of null becomes the `{ error }` of the TypeError thrown by reading its `id`, an error response is returned as is, and a failure without a response becomes `{ error }` |
| Riservi.CreateReservation | src/Api-Riservi/riservi.ts:32-120 | a request is sent only when the payload could be built; it is exactly the expected request, and the result is its mapped answer |
| Riservi.SendEmailField | src/Api-Riservi/riservi.ts:201 | a boolean `sendEmailToDiner` is kept; anything else becomes true |
| Riservi.UpdateBody | src/Api-Riservi/riservi.ts:194-202 | the update request holds the formatted date, the new party size, the phone, the notes, the shift, the area and the e-mail flag, and nothing else |
| Riservi.UpdatePayload | src/Api-Riservi/riservi.ts:180-202 | the update fails when the booking is missing, and when the new date is invalid or not strictly after now once its year is raised; otherwise it builds the update body for that date |
| Riservi.UpdateReservation | src/Api-Riservi/riservi.ts:172-224 | the update fails exactly when its checks fail, and otherwise returns the settled answer to the update request |
| Riservi.UpdateIsInFuture | src/Api-Riservi/riservi.ts:186-193 | an update that is sent is never for a moment at or before now |
| Riservi.NonSmokingGoesToNotes | src/Api-Riservi/riservi.ts:69-73 | a non-smoking area is never sent as `preferredArea`; it ends the notes instead |
| Riservi.TopLevelIdFirst | src/Api-Riservi/riservi.ts:108-111 | with a truthy top-level id, the id is the top-level `\|\|` chain |
| ApiQueue.SettleWith | src/utils/ApiQueue.ts:33-37 | a request resolves exactly when the endpoint succeeds, with its response and thread id; otherwise it is rejected with the error |
| ApiQueue.ApiQueue.constructor | src/utils/ApiQueue.ts:13-20 | a new queue is empty and idle |
| ApiQueue.ApiQueue.Enqueue | src/utils/ApiQueue.ts:22-27 | the request gets the next ticket; an idle queue starts it at once, otherwise it waits at the back |
| ApiQueue.ApiQueue.ProcessNext | src/utils/ApiQueue.ts:29-32 | nothing happens while busy or empty; otherwise the front request is started |
| ApiQueue.ApiQueue.Complete | src/utils/ApiQueue.ts:33-41 | the running request settles with its outcome, and the next one, if any, starts |
| ApiQueue.SettledInEnqueueOrder | src/utils/ApiQueue.ts:22-41 | requests settle in the order they were enqueued, each resolved with its own thread id |
| ApiQueue.SettledOnce | src/utils/ApiQueue.ts:29-41 | no request settles twice |
| ApiQueue.WaitingAfterStarted | src/utils/ApiQueue.ts:29-32 | every waiting request was enqueued after every started one |
| ResponseProcessor.ApiBlockFound | src/utils/AssistantResponseProcessor.ts:85-99 | an `[API]` block exists exactly when an opening tag is followed by a closing tag, in any letter case; the block is the trimmed text between them |
| ResponseProcessor.AsCommand | src/utils/AssistantResponseProcessor.ts:111-129 | a value is a command exactly when it is truthy with a text `type`; the kind is the trimmed type |
| ResponseProcessor.ApiBlockFirst | src/utils/AssistantResponseProcessor.ts:85-108 | for the command extraction (`ExtractCommand`): a truthy parsed `[API]` block decides; the block finder is consulted only otherwise |
| ResponseProcessor.FallbackCommandsAreKnown | src/utils/AssistantResponseProcessor.ts:103-108 | without an `[API]` block, every command is an object of one of the five kinds |
| ResponseProcessor.DeepFindKnown | src/Api-Riservi/JsonBlockFinder.ts:43-55 | what the deep search finds has one of the five kinds |
| ResponseProcessor.AvailableTimes | src/utils/AssistantResponseProcessor.ts:186-205 | the listed times are exactly the formatted times of the available slots |
| ResponseProcessor.AvailabilityOutcome | src/utils/AssistantResponseProcessor.ts:186-205 | the classification throws exactly when the availability list is truthy and cannot be iterated or holds a null slot; without a list there is neither an exact time nor an alternative |
| ResponseProcessor.ExactIsAvailable | src/utils/AssistantResponseProcessor.ts:195-203 | an exactly available time is also among the available times |
| ResponseProcessor.ClassifySlots | src/utils/AssistantResponseProcessor.ts:186-205 | the slot loop throws exactly on a null slot; otherwise it gives the exact flag and the available times |
| ResponseProcessor.ErrorSummary | src/utils/AssistantResponseProcessor.ts:244-245 | there is an error summary exactly when the answer is truthy with a truthy `error` or `errors`; `error` wins |
| ResponseProcessor.Classify | src/utils/AssistantResponseProcessor.ts:207-263 | exact first, then the alternatives when some time is free, otherwise no availability, reported with the API error when there is one |
| ResponseProcessor.ClassifyAvailability | src/utils/AssistantResponseProcessor.ts:186-263 | the branch computes the specified availability outcome |
| ResponseProcessor.AvailabilityThreeWay | src/utils/AssistantResponseProcessor.ts:186-240 | the classification follows the slots: exact when an available slot has the queried time, otherwise the alternatives in response order |
| ResponseProcessor.ResponseId | src/utils/AssistantResponseProcessor.ts:302 | the id is the first truthy one of `reservaId`, `id`, `bookingId` and `reservationId`, and there is none exactly when the answer is falsy or none of them is truthy |
| ResponseProcessor.CreatedIdIsRead | src/utils/AssistantResponseProcessor.ts:302 | the id read off a created booking's answer is the id the backend client extracted |
| ResponseProcessor.AnswerKeepsIds | src/Api-Riservi/riservi.ts:107-112 | the created answer keeps the backend's id fields and adds the extracted id |
| ResponseProcessor.AnswerKeeps | src/Api-Riservi/riservi.ts:112 | the created answer keeps every member of the body except `reservaId` |
| ResponseProcessor.ConfirmedWithExtractedId | src/utils/AssistantResponseProcessor.ts:348-350 | an accepted booking with an id and no error is reported as confirmed with the extracted id |
| ResponseProcessor.ConfirmedAsk | src/utils/AssistantResponseProcessor.ts:329-350 | for the report of a booking (`ReserveAsk`): an answer without an error and with an id is reported as confirmed with that id |
| ResponseProcessor.HandledAreKinds | src/utils/AssistantResponseProcessor.ts:131-456 | the processor has a branch for exactly the five kinds the block finder accepts |
| ResponseProcessor.Processor.constructor | src/utils/AssistantResponseProcessor.ts:24 | no sender is blocked, no reservation is in progress, and the logs are empty |
| ResponseProcessor.Processor.Analyze | src/utils/AssistantResponseProcessor.ts:55-498 | a blocked WhatsApp sender is ignored with nothing done; a reply without a command takes the plain-text path; with the corrected `#RESERVA#` branch, the reservation guard ends as it started |
| ResponseProcessor.Processor.Route | src/utils/AssistantResponseProcessor.ts:110-460 | without a command, the reply takes the plain-text path |
| ResponseProcessor.Processor.Dispatch | src/utils/AssistantResponseProcessor.ts:111-129 | a command blocks a WhatsApp sender that has a number; an unknown kind asks and calls nothing and sends the plain text |
| ResponseProcessor.Processor.OtherKinds | src/utils/AssistantResponseProcessor.ts:266-460 | an unknown kind takes the plain-text path; `#RESERVA#` goes to the corrected branch |
| ResponseProcessor.Processor.SendPlain | src/utils/AssistantResponseProcessor.ts:459-497 | the reply without its `[API]` blocks is sent in chunks, unless it announces the wait-and-poll phase |
| ResponseProcessor.Processor.AskAndAnalyze | src/utils/AssistantResponseProcessor.ts:152-164 | the agent is asked the report; a rejected request rejects the analysis |
| ResponseProcessor.Processor.Continue | src/utils/AssistantResponseProcessor.ts:153-164 | a falsy answer of the agent ends the round with nothing more done |
| ResponseProcessor.Processor.Available | src/utils/AssistantResponseProcessor.ts:131-264 | a malformed date throws before any query; otherwise the availability is queried, classified and reported |
| ResponseProcessor.Processor.CheckAndReport | src/utils/AssistantResponseProcessor.ts:138-263 | the query is logged, and its classification either throws or is reported to the agent |
| ResponseProcessor.Processor.Book | src/utils/AssistantResponseProcessor.ts:294-305 | the booking through the queue fails exactly when the party size is missing or the area is not text |
| ResponseProcessor.Processor.CreateAndReport | src/utils/AssistantResponseProcessor.ts:294-366 | the booking call is made with the command, and its outcome is reported to the agent |
| ResponseProcessor.Processor.Reserve | src/utils/AssistantResponseProcessor.ts:266-367 | the corrected branch: while a reservation is in progress only the wait message is sent; otherwise the booking is made and reported, and the guard is released on every way out, which the source does on each exit only after the report to the agent returns |
| ResponseProcessor.Processor.ReserveAsWritten | src/utils/AssistantResponseProcessor.ts:283-366 | as written, a rejected report leaves the reservation guard set |
| ResponseProcessor.Processor.Operate | src/utils/AssistantResponseProcessor.ts:369-456 | update, cancel and confirm call the backend once and report its answer, as text, to the agent |
| ResponseProcessor.StuckGuardAsWritten | src/utils/AssistantResponseProcessor.ts:294-366 | after a rejected report, as written, the next reservation is refused |
| ResponseProcessor.GuardReleased | src/utils/AssistantResponseProcessor.ts:294-366 | with the guard released on every way out, the next reservation is processed |
| MessageHandler.TagPassNoTag | src/app.ts:139-171 | the tagged pass (`TagPass`) finds nothing exactly when no tag has a block |
| MessageHandler.TagPassFirst | src/app.ts:139-171 | the first tag with a block decides; a malformed block does not fall through to the next tag |
| MessageHandler.TaggedBlockDecides | src/app.ts:127-183 | for the extraction (`Extract`): a tagged block that does not parse ends the handling; a truthy parsed value is the data; only a falsy one leaves it to the block finder |
| MessageHandler.UntaggedUsesFinder | src/app.ts:173-183 | without a tagged block, the data is what the block finder finds |
| MessageHandler.FoundHasKind | src/app.ts:173-183 | the finder's result (`Found`) is an object of one of the five kinds; the deep search is used only for a reply of object type |
| MessageHandler.BranchesAreKinds | src/app.ts:185-331 | every branch is for an object of a known kind; `#CONFIRMAR#` has no branch and its reply is sent as text |
| MessageHandler.CheckDate | src/app.ts:187-197 | a command that goes on past the date check is an object |
| MessageHandler.UpcomingCommand | src/app.ts:187-197 | the command that goes on carries the original date with its year corrected; that date is not in the past; no other member changed |
| MessageHandler.UpcomingDateTruthy | src/app.ts:187-197 | after the date check, the date is truthy and the party size is the original one |
| MessageHandler.UpcomingKeeps | src/app.ts:190-193 | the date check writes no member other than `date` |
| MessageHandler.FreeSlotTimes | src/app.ts:207-212 | there are no more times than slots |
| MessageHandler.FreeSlotTimesAppend | src/app.ts:207-212 | the times of two lists are the times of the first followed by those of the second |
| MessageHandler.FreeSlotTimesMembers | src/app.ts:207-212 | a time is listed exactly when some available slot has it |
| MessageHandler.FreeTimes | src/app.ts:207-212 | listing the free times throws exactly when the list is truthy and is not an array or holds a null slot; otherwise a time is listed exactly when some available slot has it, and no list gives no times |
| MessageHandler.SummaryOnlyWithoutPartySize | src/app.ts:213-251 | after the date check, the summary of free times reaches the agent only when the party size is falsy; otherwise the agent is asked for the details |
| MessageHandler.PlainMessagesAreChunks | src/app.ts:332-342 | the blank-text guard changes nothing: the messages are the chunks of the cleaned text |
| MessageHandler.Conversation.constructor | src/app.ts:99-107 | all four logs start empty |
| MessageHandler.Conversation.ProcessUserMessage | src/app.ts:99-360 | the message is asked of the agent first; a rejected request is reported and the user goes to the welcome flow; otherwise the reply is handled |
| MessageHandler.Conversation.Fail | src/app.ts:343-359 | the error is reported and the user goes to the welcome flow for their message type |
| MessageHandler.Conversation.Respond | src/app.ts:125-183 | a malformed tagged block ends the handling; otherwise the extracted data is acted on |
| MessageHandler.Conversation.Act | src/app.ts:185-342 | the branch the command's exact type selects runs: availability, booking, update or cancel; anything else takes the plain-text path |
| MessageHandler.Conversation.CheckFirst | src/app.ts:185-264 | the availability and booking branches start with the date check on the command |
| MessageHandler.Conversation.SendPlain | src/app.ts:332-342 | the cleaned text, when not blank, is sent in chunks |
| MessageHandler.Conversation.DateFirst | src/app.ts:187-264 | a failed correction is caught; a past date is answered with the past-date message; otherwise the query or the booking follows |
| MessageHandler.Conversation.ReportBack | src/app.ts:213-251 | the agent is asked the report, and its truthy answer is sent to the user cleaned; a rejection is caught |
| MessageHandler.Conversation.Query | src/app.ts:199-251 | the availability query is logged and its free times reported |
| MessageHandler.Conversation.List | src/app.ts:207-251 | the query is logged; a slot list that throws is caught; otherwise the availability report is sent to the agent |
| MessageHandler.Conversation.Book | src/app.ts:266-283 | the booking call is logged; it fails exactly when the party size or the area check fails, and the throw is caught; otherwise its answer is `CreateAnswer` of the POST of a request whose every member is the expected one, and that answer is reported as text |
| MessageHandler.Conversation.Update | src/app.ts:284-306 | the update call is logged; a throw is caught, otherwise the answer is reported as text |
| MessageHandler.Conversation.CancelBooking | src/app.ts:307-327 | the cancel call is logged, and its answer is reported as text |
| AgentGateway.Retry | src/app.ts:37-56 | the retry loop makes at least as many attempts as it started with and never more than `maxRetries` |
| AgentGateway.ToAskWithRetry | src/app.ts:37-56 | the loop computes the specified retry result and attempt count |
| AgentGateway.IsBusy | src/app.ts:44-45 | an error is retried exactly when its status is 400 and its message holds "Can't add messages to thread" somewhere |
| AgentGateway.RetryOutcome | src/app.ts:37-56 | it gives up exactly when all `maxRetries` attempts fail as busy; otherwise the first attempt that is not a busy failure decides: its reply, or its error rethrown |
| AgentGateway.PromptIsJoin | src/app.ts:65-70 | the system prompt (`SystemPrompt`) is its lines joined by line feeds |
| AgentGateway.SystemPromptLines | src/app.ts:65-70 | the prompt's lines are the optional fallback, the date line, and the contact line only when a number is given |
| AgentGateway.AgentTimers.constructor | src/app.ts:34 | no timer is pending |
| AgentGateway.AgentTimers.Start | src/app.ts:58-63 | the user's previous timer is cleared and a fresh one is recorded |
| AgentGateway.AgentTimers.Fire | src/app.ts:75-79 | a firing timer deletes its user's record |
| AgentGateway.AgentTimers.AnsweredAsWritten | src/app.ts:84-89 | as written, the answer clears whatever timer is on record for the user |
| AgentGateway.AgentTimers.Answered | src/app.ts:84-89 | the answer clears its own call's timer and no other |
| AgentGateway.StaleAnswerClearsNewTimer | src/app.ts:84-89 | as written, a late answer of a timed-out call clears the timer of a newer call |
| AgentGateway.StaleAnswerKeepsNewTimer | src/app.ts:84-89 | with the intended handler, the newer call's timer stays pending |
| UserQueues.ThrowingExactly | src/app.ts:372-376 | the failed messages are exactly those whose handling throws |
| UserQueues.UserQueues.constructor | src/app.ts:21-22 | no queue and no lock |
| UserQueues.UserQueues.Push | src/app.ts:21 | the message is appended to its user's queue, which is created when missing, at any time, also during a drain; the account of pushed and processed messages is kept |
| UserQueues.UserQueues.Begin | src/app.ts:363-368 | a locked user, in particular one whose drain is suspended, is left alone; otherwise the lock is taken, and without a queue the call is rejected with the user left locked |
| UserQueues.UserQueues.Step | src/app.ts:370-380 | one loop turn processes the head of the queue and logs it if it throws; on an empty queue the lock is released and the queue deleted, and then every message pushed for the user, during the drain too, has been processed once and in order |
| UserQueues.PushAccounted | src/app.ts:363-381 | a push keeps the account: per user, the processed messages followed by the waiting ones are the pushed ones |
| UserQueues.ShiftAccounted | src/app.ts:370-374 | processing the head of a queue keeps the account |
| UserQueues.DeleteAccounted | src/app.ts:379-380 | deleting an empty queue keeps the account, and all the user's messages have then been processed |
| UserQueues.UserQueues.HandleQueue | src/app.ts:363-381 | a locked user is left alone; otherwise every queued message is processed in order, failures are logged, and the lock is released and the queue deleted |
| UserQueues.UserQueues.Drain | src/app.ts:370-380 | with nothing pushed meanwhile, the loop of steps processes the whole queue in order, logs the messages that throw, then releases the lock and deletes the queue |
| UserQueues.Tagged | src/app.ts:370-377 | each processed message is paired with its user, in order |
| WebChatSession.Appended | src/utils-web/WebChatSession.ts:6-16 | a message is appended unless the last entry has the same text, so no two consecutive entries repeat |
| WebChatSession.AppendedTwice | src/utils-web/WebChatSession.ts:6-16 | saying the same thing twice in a row, under any role, records it once |
| WebChatSession.WebChatSession.constructor | src/utils-web/WebChatSession.ts:1-4 | the history and the data start empty and the thread id null |
| WebChatSession.WebChatSession.AddUserMessage | src/utils-web/WebChatSession.ts:6-10 | the user's message is appended unless it repeats the last entry |
| WebChatSession.WebChatSession.AddAssistantMessage | src/utils-web/WebChatSession.ts:12-16 | the assistant's message is appended unless it repeats the last entry |
| WebChatSession.WebChatSession.Get | src/utils-web/WebChatSession.ts:18-22 | `history` and `thread_id` read the fields; any other key reads the data (Update and Clear state their effect through it) |
| WebChatSession.WebChatSession.Update | src/utils-web/WebChatSession.ts:24-29 | null rejects and changes nothing; a non-object changes nothing; otherwise a truthy thread id replaces the old one and every member is assigned, the last of a name winning; read through `get`, the history is unchanged, a key of the object reads its last value there and any other key what it read before |
| WebChatSession.WebChatSession.Clear | src/utils-web/WebChatSession.ts:31-35 | the history, the thread id and the data are reset: `get` then reads an empty history, a null thread id and every other key as undefined |
| WebChatSession.LastValue | src/utils-web/WebChatSession.ts:27 | the value of the last member with a given name is a member of the object, and it is absent only when no member has that name |

## Left out

- HTTP, the OpenAI SDK and WhatsApp or web delivery are not called: each call is an input outcome, so time-outs, retries inside axios and delivery failures are outside the model.
- The waits (`setTimeout` in the retry loop, the 30-second and 10-second waits, the one-second safety unblock) are not timed: whether the safety unblock fired before an answer is analysed is an input.
- `Promise.race` in `getAssistantResponse` is not modelled: the answer is an input, and only the bookkeeping of the timeout table is.
- `toArgentinaTime` is left out: its result is computed and never used.
- The wait-and-poll loop after "Voy a proceder a realizar la reserva." ends the model's run as an unmodelled outcome.
- The temporary file written and deleted after the availability query is left out: it has no effect on the flow.
- ResponseProcessor.Processor.Analyze: each re-entry into the analysis spends one unit of fuel; a run out of fuel is an unmodelled outcome rather than a further analysis.
- `JSON.parse`, `JSON.stringify`, `new Date`, moment's parser and `String()` of objects are uninterpreted parameters; only the properties the code relies on are stated. moment's `format("YYYY-MM-DD HH:mm")` is modelled (`Dates.FormatMinute`).
- `JSON.parse` keeps the last value of a key written twice in an object; the model's objects may list a key twice and a property read finds the first, so the parser passed in is taken to give each key once.
- Console output and the error reporter are not modelled: reports are kept as strings in a log.
- The typing indicator and the provider presence updates are left out.
- `confirmReservationById` is imported by the response processor but is not defined in `src/Api-Riservi/riservi.ts`. Under the configured TypeScript build that import is a compile-time error, so the bundle is not produced at all; the model describes a bundle built anyway, where the `#CONFIRMAR#` branch catches a `TypeError` and reports it to the agent.
- `checkAvailability` catches every failure of the request itself, but `encodeURIComponent(date)` (src/Api-Riservi/riservi.ts:131) runs before its `try` and throws a `URIError` when the date holds a lone UTF-16 surrogate. Only such a date reaches the `catch` of the availability branch in src/utils/AssistantResponseProcessor.ts:148-166, which asks the agent whether to retry, and the outer `catch` of `processUserMessage` (src/app.ts:343) from the availability branch of src/app.ts:199-203, which reports the error and goes to the welcome flow. Dafny strings hold Unicode scalar values and cannot represent a lone surrogate, so neither path is modelled: `CheckAndReport` and `MessageHandler.Conversation.Query` always settle the call.
- `src/app.ts` calls `createReservation` directly rather than through the queue; the model follows that.
- In the update branch of `src/app.ts`, an undefined `date` of the command is passed on as null; moment rejects both as invalid, so the outcome is the same.
- The texts of JavaScript's own `TypeError`s (a date that is not text, a missing field) are paraphrased: an error is a string, and only where it goes is stated.
- Dates.ToNumber: reads only numerals with an integer value: decimal digits with an optional `+` and an optional point followed by zeros, and `0x`, `0o` and `0b` numerals. A numeral with a non-zero fraction (`1.5`), with an exponent (`1e1`), or `Infinity` reads as NaN, where JavaScript reads a non-integer number, the exponent's value or Infinity. A date field holding one of these is printed as `NaN` by the model but as the number by the source. A field never holds a `-`, because the date is cut at each `-`.
- Dates.ReadDate: its fields are read with `Dates.ToNumber`, so a field written as a fraction, with an exponent or as `Infinity` reads as NaN, unlike in the source.
- Riservi.UpdatePayload: the source reads the clock twice, for the current year (src/Api-Riservi/riservi.ts:187) and for the not-after-now check (:191); the model uses one `now` for both, which differs only when a year boundary falls between the two reads.
- ResponseProcessor.Processor.Analyze: the analysis sends `#RESERVA#` to the corrected branch (`Reserve`, the corrected half of the Findings row), which releases the guard on every way out. Its `reservaEnCurso == old(reservaEnCurso)` clause, and the same clause of Route, Dispatch, OtherKinds, AskAndAnalyze, Continue, Available, CheckAndReport, CreateAndReport and Operate, hold of the corrected program only. The branch as written, where a rejected report leaves the guard set and the sender blocked, is `ReserveAsWritten`, and `StuckGuardAsWritten` states its effect on the next reservation.
- ResponseProcessor.Processor.Analyze: the contract states the blocked, plain-text and guard cases; the command branches are stated by the members they call.
- ResponseProcessor.Processor.AskAndAnalyze and ResponseProcessor.Processor.Continue: what the analysis of the agent's answer does is stated only through Analyze's contract, because the re-entry is recursive.
- ResponseProcessor.Processor.Book: the result of a successful booking is not stated here; Riservi.CreateReservation states it.
- Integer widths do not matter here: party sizes, years and counters are unbounded integers, and no source arithmetic wraps.
- JSON numbers are modelled as integers (`Json.JNum`). A fractional value from `JSON.parse`, such as a `partySize` of 2.5 (a number above 0, which the party-size check accepts and `JSON.stringify` prints as "2.5"), a fractional id, or a double that rounds above 2^53 is not represented.

## Findings

| source | as written | input that shows it | evidently intended | confidence | as-written member | corrected member |
|---|---|---|---|---|---|---|
| src/utils/AssistantResponseProcessor.ts:294-366 | on each of the branch's three exits (the caught error, the API error and success), `state.reservaEnCurso = false` runs only after the report to the agent returns | a `#RESERVA#` command whose report request is rejected (the agent call throws): the guard stays set, so every later reservation gets only the wait message | the guard is released on every way out, whether or not the report returns | not executed | ResponseProcessor.StuckGuardAsWritten | ResponseProcessor.GuardReleased |
| src/app.ts:84-89 | the answer handler clears whatever timer is on record for the user | a call times out, the same user's next call starts a timer, then the first call's answer arrives: it clears the second call's timer | an answer clears only the timer of its own call | not executed | AgentGateway.StaleAnswerClearsNewTimer | AgentGateway.StaleAnswerKeepsNewTimer |

=== FILE: agent_gateway.dfy ===
/**
 * The calls to the OpenAI assistant in `app.ts`: `toAskWithRetry`, which retries while the
 * thread still has an active run, the system prompt `getAssistantResponse` puts in front of
 * every message, and its per-user table of pending timeouts. The SDK call is the outcome of
 * each attempt, passed in; the waits between attempts and the race against the timeout are
 * not modelled.
 */
module AgentGateway {
  import opened Wrappers
  import opened Text
  import opened Json

  // ---------------------------------------------------------------- toAskWithRetry

  /** What a thrown SDK error exposes: `error?.status` and `error?.message`. */
  datatype AskError = AskError(status: Option<int>, message: Option<string>)

  /** How one `toAsk` attempt ends. */
  datatype AskOutcome = Answer(reply: Json) | Failure(error: AskError)

  /** How `toAskWithRetry` ends: the reply, the rethrown error, or the error thrown after the last attempt. */
  datatype RetryResult = Replied(reply: Json) | Threw(error: AskError) | GaveUp

  const BusyThread := "Can't add messages to thread"
  const GaveUpMessage := "No se pudo enviar el mensaje a OpenAI Assistant tras varios intentos."
  const DefaultMaxRetries := 5

  /** The only error worth retrying: status 400 and a message saying the thread is busy. */
  predicate IsBusy(e: AskError): (b: bool)
    ensures b <==> e.status == Some(400) && e.message.Some? && exists i :: OccursAt(e.message.value, BusyThread, i, false)
  {
    e.message.Some? && Contains(e.message.value, BusyThread) && e.status == Some(400)
  }

  /**
   * The retry loop from attempt `attempt` on: the result and the number of attempts made
   * in all. `ask(i)` is how attempt `i` ends.
   */
  function Retry(ask: nat -> AskOutcome, maxRetries: int, attempt: nat): (res: (RetryResult, nat))
    ensures attempt <= res.1
    ensures res.1 <= if maxRetries > attempt then maxRetries else attempt
    decreases maxRetries - attempt
  {
    if attempt >= maxRetries then (GaveUp, attempt)
    else
      match ask(attempt)
      case Answer(reply) => (Replied(reply), attempt + 1)
      case Failure(e) => if IsBusy(e) then Retry(ask, maxRetries, attempt + 1) else (Threw(e), attempt + 1)
  }

  /** `toAskWithRetry`: at most `maxRetries` attempts, stopping at the first that does not fail as busy. */
  method ToAskWithRetry(ask: nat -> AskOutcome, maxRetries: int) returns (r: RetryResult, attempts: nat)
    ensures (r, attempts) == Retry(ask, maxRetries, 0)
  {
    var attempt: nat := 0;
    while attempt < maxRetries
      invariant Retry(ask, maxRetries, 0) == Retry(ask, maxRetries, attempt)
      decreases maxRetries - attempt
    {
      match ask(attempt)
      case Answer(reply) =>
        return Replied(reply), attempt + 1;
      case Failure(e) =>
        if IsBusy(e) {
          attempt := attempt + 1;
        } else {
          return Threw(e), attempt + 1;
        }
    }
    return GaveUp, attempt;
  }

  /**
   * The outcome of the retry loop, read off the attempts: it gives up exactly when every
   * one of the `maxRetries` attempts failed as busy; otherwise the last attempt made is the
   * first one that did not, and it decides the result.
   */
  lemma {:induction false} RetryOutcome(ask: nat -> AskOutcome, maxRetries: int, attempt: nat)
    requires attempt <= maxRetries || attempt == 0
    requires forall i :: 0 <= i < attempt ==> ask(i).Failure? && IsBusy(ask(i).error)
    ensures var (r, n) := Retry(ask, maxRetries, attempt);
      (r.GaveUp? <==> forall i :: 0 <= i < maxRetries ==> ask(i).Failure? && IsBusy(ask(i).error)) &&
      (r.GaveUp? ==> n == (if maxRetries > 0 then maxRetries else 0)) &&
      (!r.GaveUp? ==> (0 < n <= maxRetries &&
        (forall i :: 0 <= i < n - 1 ==> ask(i).Failure? && IsBusy(ask(i).error)) &&
        (r.Replied? <==> ask(n - 1).Answer?) &&
        (r.Replied? ==> r.reply == ask(n - 1).reply) &&
        (r.Threw? ==> ask(n - 1) == Failure(r.error) && !IsBusy(r.error))))
    decreases maxRetries - attempt
  {
    if attempt < maxRetries {
      match ask(attempt)
      case Answer(_) =>
      case Failure(e) =>
        if IsBusy(e) {
          RetryOutcome(ask, maxRetries, attempt + 1);
        }
    }
  }

  // ---------------------------------------------------------------- the system prompt

  // The fixed beginnings of the date line and the contact line.
  const DatetimeLine := "Fecha y " + "hora " + "actual " + "de " + "referencia " + "para el " + "asistente: "
  const ContactLine := "Número " + "de " + "contacto " + "del " + "usuario: "

  /**
   * The context `getAssistantResponse` sends before the message: the fallback instruction
   * when there is one, the current date and time, and the user's number when known. An
   * empty string stands for a missing (falsy) value.
   */
  function SystemPrompt(fallback: string, now: string, userPhone: string): string
  {
    (if fallback != [] then fallback + "\n" else [])
    + DatetimeLine + now
    + (if userPhone != [] then "\n" + ContactLine + userPhone else [])
  }

  /** What the assistant receives for a message: the system prompt, a line feed, the message. */
  function AgentInput(fallback: string, now: string, userPhone: string, message: string): string
  {
    SystemPrompt(fallback, now, userPhone) + "\n" + message
  }

  lemma NoLineFeed(s: string)
    requires forall i :: 0 <= i < |s| ==> s[i] != '\n'
    ensures '\n' !in s
  {
  }

  lemma FixedLinesOneLine()
    ensures '\n' !in DatetimeLine && '\n' !in ContactLine
  {
  }

  /** Lines without line feeds, joined by line feeds, split back into the same lines. */
  lemma {:induction false} SplitJoin(lines: seq<string>)
    requires |lines| >= 1
    requires forall i :: 0 <= i < |lines| ==> '\n' !in lines[i]
    ensures Split(Join(lines, '\n'), '\n') == lines
  {
    if |lines| == 1 {
      SplitWithout(lines[0], '\n');
    } else {
      SplitJoin(lines[1..]);
      SplitAfter(lines[0], Join(lines[1..], '\n'), '\n');
      assert lines == [lines[0]] + lines[1..];
    }
  }

  /** The lines of the system prompt. */
  function PromptLines(fallback: string, now: string, userPhone: string): seq<string>
  {
    (if fallback != [] then [fallback] else [])
    + [DatetimeLine + now]
    + (if userPhone != [] then [ContactLine + userPhone] else [])
  }

  /** The date line and the optional contact line, joined. */
  lemma TailIsJoin(now: string, userPhone: string)
    ensures Join([DatetimeLine + now] + (if userPhone != [] then [ContactLine + userPhone] else []), '\n')
      == DatetimeLine + now + (if userPhone != [] then "\n" + ContactLine + userPhone else [])
  {
    var date := DatetimeLine + now;
    if userPhone != [] {
      var contact := ContactLine + userPhone;
      var ls := [date, contact];
      assert ls[1..] == [contact];
      assert Join(ls, '\n') == date + ['\n'] + contact;
    }
  }

  /** The system prompt is its lines joined by line feeds. */
  lemma PromptIsJoin(fallback: string, now: string, userPhone: string)
    ensures Join(PromptLines(fallback, now, userPhone), '\n') == SystemPrompt(fallback, now, userPhone)
  {
    var tailLines := [DatetimeLine + now] + (if userPhone != [] then [ContactLine + userPhone] else []);
    var tail := DatetimeLine + now + (if userPhone != [] then "\n" + ContactLine + userPhone else []);
    TailIsJoin(now, userPhone);
    var lines := PromptLines(fallback, now, userPhone);
    if fallback != [] {
      assert lines == [fallback] + tailLines;
      assert lines[1..] == tailLines;
      assert SystemPrompt(fallback, now, userPhone) == fallback + "\n" + tail;
    } else {
      assert lines == tailLines;
      var none: string := [];
      assert none + DatetimeLine == DatetimeLine;
      assert SystemPrompt(fallback, now, userPhone) == tail;
    }
  }

  /**
   * Line by line, the prompt is the optional fallback line, then the date line, then the
   * contact line only when a number is given (none of the parts spanning lines).
   */
  lemma SystemPromptLines(fallback: string, now: string, userPhone: string)
    requires '\n' !in fallback && '\n' !in now && '\n' !in userPhone
    ensures Split(SystemPrompt(fallback, now, userPhone), '\n') == PromptLines(fallback, now, userPhone)
  {
    FixedLinesOneLine();
    PromptIsJoin(fallback, now, userPhone);
    var lines := PromptLines(fallback, now, userPhone);
    forall i | 0 <= i < |lines|
      ensures '\n' !in lines[i]
    {
    }
    SplitJoin(lines);
  }

  // ---------------------------------------------------------------- the timeout table

  /**
   * `userTimeouts`: the pending control-message timer of each user. `live` are the timers
   * scheduled and neither cleared nor fired; `owner` says which user scheduled each one.
   */
  class AgentTimers {
    var timers: map<string, nat>
    var live: set<nat>
    var owner: map<nat, string>
    var nextId: nat

    /** Every live timer is the one on record for its user, and the record holds only live timers. */
    ghost predicate Valid()
      reads this
    {
      (forall u :: u in timers ==> timers[u] in live && timers[u] in owner && owner[timers[u]] == u) &&
      (forall t :: t in live ==> t < nextId && t in owner && owner[t] in timers && timers[owner[t]] == t)
    }

    constructor ()
      ensures Valid() && timers == map[] && live == {}
    {
      timers := map[];
      live := {};
      owner := map[];
      nextId := 0;
    }

    /**
     * The start of `getAssistantResponse`: a timer already on record for the user is
     * cleared and deleted, then a fresh one is scheduled and recorded.
     */
    method Start(user: string) returns (id: nat)
      requires Valid()
      modifies this
      ensures Valid()
      ensures id == old(nextId) && id !in old(live) && nextId == old(nextId) + 1
      ensures timers == old(timers)[user := id]
      ensures live == (if user in old(timers) then old(live) - {old(timers)[user]} else old(live)) + {id}
    {
      if user in timers {
        live := live - {timers[user]};
        timers := map u | u in timers && u != user :: timers[u];
      }
      id := nextId;
      nextId := nextId + 1;
      timers := timers[user := id];
      live := live + {id};
      owner := owner[id := user];
    }

    /** Timer `id` fires: it deletes the user's record, which is its own. */
    method Fire(id: nat)
      requires Valid() && id in live
      modifies this
      ensures Valid()
      ensures nextId == old(nextId)
      ensures live == old(live) - {id}
      ensures timers == map u | u in old(timers) && u != old(owner)[id] :: old(timers)[u]
    {
      var user := owner[id];
      live := live - {id};
      timers := map u | u in timers && u != user :: timers[u];
    }

    /**
     * The answer handler of the call that started timer `id`, as written: whatever timer is
     * on record for the user is cleared and deleted, even one a later call scheduled.
     */
    method AnsweredAsWritten(user: string, id: nat)
      requires Valid()
      modifies this
      ensures Valid()
      ensures nextId == old(nextId)
      ensures user in old(timers) ==> live == old(live) - {old(timers)[user]}
      ensures user !in old(timers) ==> live == old(live)
      ensures timers == map u | u in old(timers) && u != user :: old(timers)[u]
    {
      if user in timers {
        live := live - {timers[user]};
        timers := map u | u in timers && u != user :: timers[u];
      }
    }

    /** The answer handler as intended: it clears the timer of its own call and no other. */
    method Answered(user: string, id: nat)
      requires Valid()
      modifies this
      ensures Valid()
      ensures nextId == old(nextId)
      ensures live == if user in old(timers) && old(timers)[user] == id then old(live) - {id} else old(live)
      ensures user in old(timers) && old(timers)[user] == id ==> timers == map u | u in old(timers) && u != user :: old(timers)[u]
      ensures !(user in old(timers) && old(timers)[user] == id) ==> timers == old(timers)
    {
      if user in timers && timers[user] == id {
        live := live - {id};
        timers := map u | u in timers && u != user :: timers[u];
      }
    }
  }

  /**
   * The first call for a user times out, a second call starts, then the first call's answer
   * arrives: as written it clears the second call's timer, which is still waiting.
   */
  method StaleAnswerClearsNewTimer() returns (second: nat, cleared: bool)
    ensures cleared
  {
    var t := new AgentTimers();
    var first := t.Start("u");
    t.Fire(first);
    second := t.Start("u");
    t.AnsweredAsWritten("u", first);
    cleared := second !in t.live;
  }

  /** The same sequence with the intended handler: the second call's timer stays pending. */
  method StaleAnswerKeepsNewTimer() returns (second: nat, pending: bool)
    ensures pending
  {
    var t := new AgentTimers();
    var first := t.Start("u");
    t.Fire(first);
    second := t.Start("u");
    t.Answered("u", first);
    pending := second in t.live && t.timers["u"] == second;
  }
}

=== FILE: apiqueue.dfy ===
/**
 * `ApiQueue`: a per-endpoint queue that hands requests to the endpoint one at a time, in
 * the order they were enqueued. The asynchronous endpoint call is split in two steps: the
 * dispatch that starts it (`processNext`) and `Complete`, the moment its promise settles,
 * with the endpoint's outcome passed in. Each request carries the number of the promise
 * `enqueue` returned for it, so that its settlement can be traced back to it.
 */
module ApiQueue {
  import opened Wrappers

  /** A queued call: the number of its promise, its input and the thread it belongs to. */
  datatype Request<T> = Request(ticket: nat, data: T, threadId: string)

  /** How the promise of request `ticket` settles: `{ response, threadId }`, or the endpoint's error. */
  datatype Settlement<R> =
    | Resolved(ticket: nat, response: R, threadId: string)
    | Rejected(ticket: nat, error: string)

  /**
   * The `try`/`catch` around the endpoint call: a result resolves the request's own promise
   * with the request's own thread id, an error rejects it.
   */
  function SettleWith<T, R>(req: Request<T>, outcome: Result<R>): (s: Settlement<R>)
    ensures s.ticket == req.ticket
    ensures s.Resolved? <==> outcome.Ok?
    ensures s.Resolved? ==> s.response == outcome.value && s.threadId == req.threadId
    ensures s.Rejected? ==> s.error == outcome.error
  {
    match outcome
    case Ok(response) => Resolved(req.ticket, response, req.threadId)
    case Err(error) => Rejected(req.ticket, error)
  }

  class ApiQueue<T, R> {
    /** The requests waiting for the endpoint, head first. */
    var queue: seq<Request<T>>
    /** An endpoint call is in flight. */
    var processing: bool
    /** The request whose endpoint call is in flight. */
    var inFlight: Option<Request<T>>
    /** The promises settled so far, in the order they settled. */
    var settled: seq<Settlement<R>>
    /** The number the next enqueued request's promise gets. */
    var nextTicket: nat
    /** Every request ever enqueued, in order. */
    ghost var accepted: seq<Request<T>>
    /** Every request handed to the endpoint, in order. */
    ghost var started: seq<Request<T>>

    /**
     * The bookkeeping: the requests handed to the endpoint followed by those still queued
     * are exactly the enqueued ones, in order; every started request but the one in flight
     * has settled, once, in the order they started.
     */
    ghost predicate Consistent()
      reads this
    {
      (processing <==> inFlight.Some?) &&
      started + queue == accepted &&
      nextTicket == |accepted| &&
      (forall i :: 0 <= i < |accepted| ==> accepted[i].ticket == i) &&
      |settled| + (if processing then 1 else 0) == |started| &&
      (forall i :: 0 <= i < |settled| ==> settled[i].ticket == started[i].ticket) &&
      (forall i :: 0 <= i < |settled| && settled[i].Resolved? ==> settled[i].threadId == started[i].threadId) &&
      (processing ==> inFlight.value == started[|started| - 1])
    }

    /** Consistent, and never idle while a request waits: nothing can stall the queue. */
    ghost predicate Valid()
      reads this
    {
      Consistent() && (!processing ==> queue == [])
    }

    constructor ()
      ensures Valid()
      ensures queue == [] && !processing && settled == [] && accepted == []
    {
      queue := [];
      processing := false;
      inFlight := None;
      settled := [];
      nextTicket := 0;
      accepted := [];
      started := [];
    }

    /**
     * `enqueue`: the request goes to the tail, then `processNext` runs; it starts the request
     * at once only when no call is in flight.
     */
    method Enqueue(data: T, threadId: string) returns (ticket: nat)
      requires Valid()
      modifies this
      ensures Valid()
      ensures ticket == old(nextTicket)
      ensures accepted == old(accepted) + [Request(ticket, data, threadId)]
      ensures settled == old(settled)
      ensures old(processing) ==> queue == old(queue) + [Request(ticket, data, threadId)] && inFlight == old(inFlight)
      ensures !old(processing) ==> queue == [] && inFlight == Some(Request(ticket, data, threadId))
    {
      ticket := nextTicket;
      var req := Request(ticket, data, threadId);
      queue := queue + [req];
      accepted := accepted + [req];
      nextTicket := nextTicket + 1;
      ProcessNext();
    }

    /**
     * `processNext`: nothing while a call is in flight or the queue is empty; otherwise the
     * head request, and only it, leaves the queue and its endpoint call starts.
     */
    method ProcessNext()
      requires Consistent()
      modifies this
      ensures Valid()
      ensures accepted == old(accepted) && settled == old(settled) && nextTicket == old(nextTicket)
      ensures old(processing) || old(queue) == [] ==>
        queue == old(queue) && processing == old(processing) && inFlight == old(inFlight) && started == old(started)
      ensures !old(processing) && old(queue) != [] ==>
        queue == old(queue)[1..] && inFlight == Some(old(queue)[0]) && started == old(started) + [old(queue)[0]]
    {
      if processing || queue == [] {
        return;
      }
      processing := true;
      var next := queue[0];
      inFlight := Some(next);
      started := started + [next];
      assert started + queue[1..] == accepted by {
        assert old(started) + queue == accepted;
        assert queue == [next] + queue[1..];
      }
      queue := queue[1..];
    }

    /**
     * The in-flight call settles with `outcome`: its promise is resolved or rejected, the
     * `finally` clears `processing`, and the next request starts whether the call succeeded
     * or failed.
     */
    method Complete(outcome: Result<R>)
      requires Valid() && processing
      modifies this
      ensures Valid()
      ensures settled == old(settled) + [SettleWith(old(inFlight).value, outcome)]
      ensures accepted == old(accepted) && nextTicket == old(nextTicket)
      ensures old(queue) == [] ==> !processing && queue == []
      ensures old(queue) != [] ==> inFlight == Some(old(queue)[0]) && queue == old(queue)[1..]
    {
      settled := settled + [SettleWith(inFlight.value, outcome)];
      processing := false;
      inFlight := None;
      ProcessNext();
    }
  }

  /**
   * Promises settle in the order their requests were enqueued: the i-th settlement is for
   * the i-th request.
   */
  lemma SettledInEnqueueOrder<T, R>(q: ApiQueue<T, R>, i: nat)
    requires q.Valid() && i < |q.settled|
    ensures q.settled[i].ticket == i
    ensures q.settled[i].Resolved? ==> q.settled[i].threadId == q.accepted[i].threadId
  {
    assert q.started[i] == (q.started + q.queue)[i];
  }

  /** No promise settles twice. */
  lemma SettledOnce<T, R>(q: ApiQueue<T, R>, i: nat, j: nat)
    requires q.Valid() && i < j < |q.settled|
    ensures q.settled[i].ticket != q.settled[j].ticket
  {
    SettledInEnqueueOrder(q, i);
    SettledInEnqueueOrder(q, j);
  }

  /** A request still waiting is later than every request already handed to the endpoint. */
  lemma WaitingAfterStarted<T, R>(q: ApiQueue<T, R>, i: nat, j: nat)
    requires q.Valid() && i < |q.started| && j < |q.queue|
    ensures q.started[i].ticket < q.queue[j].ticket
  {
    assert q.started[i] == q.accepted[i];
    assert q.queue[j] == q.accepted[|q.started| + j];
  }
}

=== FILE: cleaning.dfy ===
/**
 * Preparing the agent's text for the user: removing the machine-readable blocks
 * (`limpiarBloquesJSON`, a global lazy RegExp replace by the empty string) and cutting the
 * rest into messages at blank lines (`split(/\n\n+/)`, each piece trimmed, empty ones dropped).
 */
module Cleaning {
  import opened Wrappers
  import opened Text
  import opened JsonBlockFinder

  // ---------------------------------------------------------------- removing blocks

  /** The matches follow each other from `from` on without overlapping. */
  predicate Ordered(ms: seq<Span>, from: nat)
  {
    (|ms| > 0 ==> from <= ms[0].start) &&
    forall k :: 0 <= k < |ms| - 1 ==> ms[k].end <= ms[k + 1].start
  }

  lemma {:induction false} AllMatchesOrdered(text: string, open: string, close: string, from: nat, ci: bool)
    requires |open| > 0 && |close| > 0
    ensures Ordered(AllMatches(text, open, close, from, ci), from)
    decreases |text| - from
  {
    match NextMatch(text, open, close, from, ci)
    case None =>
    case Some(m) =>
      AllMatchesOrdered(text, open, close, m.end, ci);
  }

  /** The text around the matches: before the first, between each two, after the last. */
  function Gaps(text: string, ms: seq<Span>, from: nat): (r: seq<string>)
    requires SpansIn(text, ms) && Ordered(ms, from) && from <= |text|
    ensures |r| == |ms| + 1
  {
    if ms == [] then [text[from..]]
    else [text[from..ms[0].start]] + Gaps(text, ms[1..], ms[0].end)
  }

  function Concat(parts: seq<string>): string
  {
    if parts == [] then [] else parts[0] + Concat(parts[1..])
  }

  /** The gaps and the matches alternate, starting and ending with a gap. */
  function Weave(gaps: seq<string>, blocks: seq<string>): string
    requires |gaps| == |blocks| + 1
  {
    if blocks == [] then gaps[0] else gaps[0] + blocks[0] + Weave(gaps[1..], blocks[1..])
  }

  /** Putting the removed blocks back between the gaps gives the text: nothing else is removed and the order is kept. */
  lemma {:induction false} GapsWeave(text: string, ms: seq<Span>, from: nat)
    requires SpansIn(text, ms) && Ordered(ms, from) && from <= |text|
    ensures Weave(Gaps(text, ms, from), Whole(text, ms)) == text[from..]
  {
    if ms != [] {
      GapsWeave(text, ms[1..], ms[0].end);
      assert Whole(text, ms)[1..] == Whole(text, ms[1..]);
      assert text[from..] == text[from..ms[0].start] + text[ms[0].start..ms[0].end] + text[ms[0].end..];
    }
  }

  /** `text.replace(/open[\s\S]*?close/g, "")`. */
  function StripBlocks(text: string, open: string, close: string, ci: bool): (r: string)
    requires |open| > 0 && |close| > 0
  {
    var ms := AllMatches(text, open, close, 0, ci);
    AllMatchesOrdered(text, open, close, 0, ci);
    Concat(Gaps(text, ms, 0))
  }

  /**
   * What `StripBlocks` keeps and what it removes: the text is its kept pieces with the
   * removed blocks, each a whole `open...close` match, put back in between.
   */
  lemma StripBlocksRemovesOnlyBlocks(text: string, open: string, close: string, ci: bool)
    requires |open| > 0 && |close| > 0
    ensures var ms := AllMatches(text, open, close, 0, ci);
      Ordered(ms, 0) &&
      StripBlocks(text, open, close, ci) == Concat(Gaps(text, ms, 0)) &&
      Weave(Gaps(text, ms, 0), Whole(text, ms)) == text
  {
    var ms := AllMatches(text, open, close, 0, ci);
    AllMatchesOrdered(text, open, close, 0, ci);
    GapsWeave(text, ms, 0);
    assert text[0..] == text;
  }

  /** A text with no complete block is left as it is. */
  lemma StripBlocksNoBlock(text: string, open: string, close: string, ci: bool)
    requires |open| > 0 && |close| > 0
    requires NextMatch(text, open, close, 0, ci).None?
    ensures StripBlocks(text, open, close, ci) == text
  {
    assert text[0..] == text;
    assert Concat([text]) == text + Concat([]);
  }

  /** `limpiarBloquesJSON` of `AssistantResponseProcessor`: every `[API]...[/API]` block goes. */
  function StripApiBlocks(text: string): (r: string)
    ensures Removes(text, r, "[API]", "[/API]")
  {
    StripBlocksRemovesOnlyBlocks(text, "[API]", "[/API]", false);
    StripBlocks(text, "[API]", "[/API]", false)
  }

  /** `limpiarBloquesJSON` of `app.ts`: the availability blocks go, then the reservation blocks. */
  function StripJsonBlocks(text: string): (r: string)
    ensures var once := StripBlocks(text, OpenTag("JSON-DISPONIBLE"), CloseTag("JSON-DISPONIBLE"), false);
      Removes(text, once, OpenTag("JSON-DISPONIBLE"), CloseTag("JSON-DISPONIBLE")) &&
      Removes(once, r, OpenTag("JSON-RESERVA"), CloseTag("JSON-RESERVA"))
  {
    var once := StripBlocks(text, OpenTag("JSON-DISPONIBLE"), CloseTag("JSON-DISPONIBLE"), false);
    StripBlocksRemovesOnlyBlocks(text, OpenTag("JSON-DISPONIBLE"), CloseTag("JSON-DISPONIBLE"), false);
    StripBlocksRemovesOnlyBlocks(once, OpenTag("JSON-RESERVA"), CloseTag("JSON-RESERVA"), false);
    StripBlocks(once, OpenTag("JSON-RESERVA"), CloseTag("JSON-RESERVA"), false)
  }

  /**
   * `r` is `text` with its matches of `open...close` (case-sensitive, left to right, without
   * overlap) taken out: `r` is the pieces between them, and the pieces with the matches put
   * back in between are `text`.
   */
  ghost predicate Removes(text: string, r: string, open: string, close: string)
    requires |open| > 0 && |close| > 0
  {
    var ms := AllMatches(text, open, close, 0, false);
    Ordered(ms, 0) && r == Concat(Gaps(text, ms, 0)) && Weave(Gaps(text, ms, 0), Whole(text, ms)) == text
  }

  // ---------------------------------------------------------------- cutting into messages

  /** `s` has no two consecutive line feeds. */
  predicate NoBlankLine(s: string)
  {
    forall k :: 0 <= k < |s| - 1 ==> !(s[k] == '\n' && s[k + 1] == '\n')
  }

  /** What is left after a run of line feeds. */
  function DropNewlines(s: string): (r: string)
    ensures |r| <= |s| && r == s[|s| - |r|..]
    ensures r != [] ==> r[0] != '\n'
    ensures forall i :: 0 <= i < |s| - |r| ==> s[i] == '\n'
  {
    if s != [] && s[0] == '\n' then DropNewlines(s[1..]) else s
  }

  /**
   * `s.split(/\n\n+/)`: the separators are the runs of two or more line feeds, each taken
   * whole; a single line feed stays inside its piece.
   */
  function SplitRuns(s: string): (parts: seq<string>)
    ensures |parts| >= 1
    ensures |parts[0]| <= |s| && parts[0] == s[..|parts[0]|]
    ensures forall i :: 0 <= i < |parts| ==> NoBlankLine(parts[i])
    decreases |s|
  {
    if s == [] then [[]]
    else if |s| >= 2 && s[0] == '\n' && s[1] == '\n' then
      [[]] + SplitRuns(DropNewlines(s))
    else
      var rest := SplitRuns(s[1..]);
      var first := [s[0]] + rest[0];
      assert first == s[..|first|];
      assert NoBlankLine(first) by {
        if |first| >= 2 {
          assert first[1] == s[1];
        }
      }
      assert forall i :: 1 <= i < |rest| ==> rest[i] == (rest[1..])[i - 1];
      [first] + rest[1..]
  }

  /** A text without a blank line is a single piece. */
  lemma {:induction false} SplitRunsNone(s: string)
    requires NoBlankLine(s)
    ensures SplitRuns(s) == [s]
    decreases |s|
  {
    if s != [] {
      NoBlankTail(s);
      SplitRunsNone(s[1..]);
      assert [s[0]] + s[1..] == s;
    }
  }

  /** A run of `n` line feeds. */
  function Newlines(n: nat): (r: string)
    ensures |r| == n && forall i :: 0 <= i < n ==> r[i] == '\n'
  {
    seq(n, _ => '\n')
  }

  /**
   * A piece that neither ends with a line feed nor holds a blank line, then a run of `n >= 2`
   * line feeds, then a text not starting with one: the piece comes first, then the pieces
   * of the rest.
   */
  lemma {:induction false} SplitRunsAfter(a: string, n: nat, b: string)
    requires NoBlankLine(a) && (a == [] || a[|a| - 1] != '\n')
    requires n >= 2 && (b == [] || b[0] != '\n')
    ensures SplitRuns(a + Newlines(n) + b) == [a] + SplitRuns(b)
    decreases |a|
  {
    var s := a + Newlines(n) + b;
    if a == [] {
      assert s == Newlines(n) + b;
      DropRun(n, b);
      assert SplitRuns(s) == [[]] + SplitRuns(DropNewlines(s));
    } else {
      NoBlankTail(a);
      SplitRunsAfter(a[1..], n, b);
      SplitRunsAfterCons(a, n, b);
    }
  }

  /** The step of `SplitRunsAfter`: the first character of `a` goes back in front of the first piece. */
  lemma SplitRunsAfterCons(a: string, n: nat, b: string)
    requires a != [] && NoBlankLine(a) && a[|a| - 1] != '\n'
    requires SplitRuns(a[1..] + Newlines(n) + b) == [a[1..]] + SplitRuns(b)
    ensures SplitRuns(a + Newlines(n) + b) == [a] + SplitRuns(b)
  {
    NoRunAtStart(a, n, b);
    DropFirst(a, Newlines(n), b);
    PieceCons(a + Newlines(n) + b, a, SplitRuns(b));
  }

  lemma DropFirst(a: string, x: string, y: string)
    requires a != []
    ensures (a + x + y)[1..] == a[1..] + x + y
  {
  }

  /** A text not starting with a blank line whose rest begins with the piece `p[1..]`: its first piece is `p`. */
  lemma PieceCons(s: string, p: string, tail: seq<string>)
    requires s != [] && p != [] && s[0] == p[0] && !(|s| >= 2 && s[0] == '\n' && s[1] == '\n')
    requires SplitRuns(s[1..]) == [p[1..]] + tail
    ensures SplitRuns(s) == [p] + tail
  {
    SplitRunsCons(s);
    assert ([p[1..]] + tail)[1..] == tail;
    assert [s[0]] + p[1..] == p;
  }

  /** A non-empty piece ending in a character other than a line feed does not start with a blank line. */
  lemma NoRunAtStart(a: string, n: nat, b: string)
    requires a != [] && NoBlankLine(a) && a[|a| - 1] != '\n'
    ensures var s := a + Newlines(n) + b;
      !(|s| >= 2 && s[0] == '\n' && s[1] == '\n')
  {
    var s := a + Newlines(n) + b;
    if |a| == 1 {
      assert s[0] == a[0];
    } else {
      assert s[0] == a[0] && s[1] == a[1];
    }
  }

  /** Dropping the first character keeps a text free of blank lines. */
  lemma NoBlankTail(a: string)
    requires NoBlankLine(a) && a != []
    ensures NoBlankLine(a[1..])
  {
    forall k | 0 <= k < |a[1..]| - 1 ensures !(a[1..][k] == '\n' && a[1..][k + 1] == '\n') {
      assert a[1..][k] == a[k + 1] && a[1..][k + 1] == a[k + 2];
    }
  }

  /** A text not starting with a blank line: its first character joins the first piece of the rest. */
  lemma SplitRunsCons(s: string)
    requires s != [] && !(|s| >= 2 && s[0] == '\n' && s[1] == '\n')
    ensures var rest := SplitRuns(s[1..]);
      SplitRuns(s) == [[s[0]] + rest[0]] + rest[1..]
  {
  }

  lemma {:induction false} DropRun(n: nat, b: string)
    requires b == [] || b[0] != '\n'
    ensures DropNewlines(Newlines(n) + b) == b
  {
    var s := Newlines(n) + b;
    if n > 0 {
      calc {
        DropNewlines(s);
      == { assert s[0] == '\n'; }
        DropNewlines(s[1..]);
      == { assert s[1..] == Newlines(n - 1) + b; }
        DropNewlines(Newlines(n - 1) + b);
      == { DropRun(n - 1, b); }
        b;
      }
    } else {
      assert Newlines(n) == [];
      assert s == b;
    }
  }

  /** The messages sent for the pieces: each trimmed, the empty ones dropped. */
  function KeepTrimmed(parts: seq<string>): seq<string>
  {
    if parts == [] then []
    else if Trim(parts[0]) == [] then KeepTrimmed(parts[1..])
    else [Trim(parts[0])] + KeepTrimmed(parts[1..])
  }

  /** The messages are exactly the non-empty trimmed texts of the pieces. */
  ghost predicate TrimmedPiecesOf(parts: seq<string>, msgs: seq<string>)
  {
    forall c :: c in msgs <==> c != [] && exists i :: 0 <= i < |parts| && Trim(parts[i]) == c
  }

  /** A message is kept exactly when it is the non-empty trimmed text of some piece. */
  lemma {:induction false} KeepTrimmedMembers(parts: seq<string>)
    ensures TrimmedPiecesOf(parts, KeepTrimmed(parts))
  {
    if parts != [] {
      KeepTrimmedMembers(parts[1..]);
      var rest := KeepTrimmed(parts[1..]);
      assert forall i :: 1 <= i < |parts| ==> parts[i] == parts[1..][i - 1];
      forall c | c != [] && exists i :: 1 <= i < |parts| && Trim(parts[i]) == c
        ensures c in rest
      {
        var i :| 1 <= i < |parts| && Trim(parts[i]) == c;
        assert Trim(parts[1..][i - 1]) == c;
      }
    }
  }

  lemma KeepTrimmedFirst(parts: seq<string>)
    requires parts != []
    ensures KeepTrimmed(parts) == (if Trim(parts[0]) == [] then [] else [Trim(parts[0])]) + KeepTrimmed(parts[1..])
  {
  }

  /** The messages a cleaned text is sent as. */
  function Chunks(text: string): (r: seq<string>)
    ensures TrimmedPiecesOf(SplitRuns(text), r)
  {
    var parts := SplitRuns(text);
    KeepTrimmedMembers(parts);
    KeepTrimmed(parts)
  }

  /** Not empty, and neither starting nor ending with white space. */
  predicate Trimmed(c: string)
  {
    c != [] && !IsSpace(c[0]) && !IsSpace(c[|c| - 1])
  }

  /** The kept pieces are trimmed, and a trimmed piece keeps the piece's lack of blank lines. */
  lemma {:induction false} KeepTrimmedShape(parts: seq<string>)
    requires forall i :: 0 <= i < |parts| ==> NoBlankLine(parts[i])
    ensures forall i :: 0 <= i < |KeepTrimmed(parts)| ==> Trimmed(KeepTrimmed(parts)[i]) && NoBlankLine(KeepTrimmed(parts)[i])
  {
    if parts != [] {
      KeepTrimmedShape(parts[1..]);
      var t := Trim(parts[0]);
      if t != [] {
        TrimShape(parts[0]);
        var rest := KeepTrimmed(parts[1..]);
        assert forall i :: 0 < i < |[t] + rest| ==> ([t] + rest)[i] == rest[i - 1];
      }
    }
  }

  /** A piece without blank lines trims to a trimmed piece without blank lines, or to nothing. */
  lemma TrimShape(p: string)
    requires NoBlankLine(p) && Trim(p) != []
    ensures Trimmed(Trim(p)) && NoBlankLine(Trim(p))
  {
    var t := Trim(p);
    forall k | 0 <= k < |t| - 1 ensures !(t[k] == '\n' && t[k + 1] == '\n') {
      assert t[k] == p[Lead(p) + k] && t[k + 1] == p[Lead(p) + k + 1];
    }
  }

  /** Every message is non-empty, starts and ends with a non-space and holds no blank line. */
  lemma ChunksShape(text: string)
    ensures forall i :: 0 <= i < |Chunks(text)| ==> Trimmed(Chunks(text)[i]) && NoBlankLine(Chunks(text)[i])
  {
    KeepTrimmedShape(SplitRuns(text));
  }

  /** Only white space. */
  predicate Blank(s: string)
  {
    forall k :: 0 <= k < |s| ==> IsSpace(s[k])
  }

  /** The pieces of a blank text are blank. */
  lemma {:induction false} SplitRunsBlank(s: string)
    requires Blank(s)
    ensures forall i :: 0 <= i < |SplitRuns(s)| ==> Blank(SplitRuns(s)[i])
    decreases |s|
  {
    if s == [] {
    } else if |s| >= 2 && s[0] == '\n' && s[1] == '\n' {
      var d := DropNewlines(s);
      assert forall k :: 0 <= k < |d| ==> d[k] == s[|s| - |d| + k];
      SplitRunsBlank(d);
      assert SplitRuns(s)[1..] == SplitRuns(d);
    } else {
      assert forall k :: 0 <= k < |s| - 1 ==> s[1..][k] == s[k + 1];
      SplitRunsBlank(s[1..]);
      var rest := SplitRuns(s[1..]);
      assert SplitRuns(s)[0] == [s[0]] + rest[0];
      assert SplitRuns(s)[1..] == rest[1..];
    }
  }

  /** A blank text sends nothing, so the `trim().length > 0` guard before splitting changes nothing. */
  lemma {:induction false} BlankSendsNothing(text: string)
    requires Trim(text) == []
    ensures Chunks(text) == []
  {
    TrimEmpty(text);
    var parts := SplitRuns(text);
    SplitRunsBlank(text);
    forall i | 0 <= i < |parts| ensures Trim(parts[i]) == [] {
      TrimEmpty(parts[i]);
    }
    AllBlank(parts);
  }

  lemma {:induction false} AllBlank(parts: seq<string>)
    requires forall i :: 0 <= i < |parts| ==> Trim(parts[i]) == []
    ensures KeepTrimmed(parts) == []
  {
    if parts != [] {
      AllBlank(parts[1..]);
    }
  }

  /**
   * The sending loop: every piece whose trimmed text is non-empty is sent trimmed, in
   * order. A failing send is caught and logged, so it does not stop the loop.
   */
  method SendChunks(text: string) returns (sent: seq<string>)
    ensures sent == Chunks(text)
  {
    sent := SendPieces(SplitRuns(text));
  }

  /** The loop over the pieces of the split. */
  method SendPieces(parts: seq<string>) returns (sent: seq<string>)
    ensures sent == KeepTrimmed(parts)
  {
    sent := [];
    assert parts[0..] == parts;
    for i := 0 to |parts|
      invariant sent + KeepTrimmed(parts[i..]) == KeepTrimmed(parts)
    {
      SendStep(parts, i, sent);
      var chunk := Trim(parts[i]);
      if |chunk| > 0 {
        sent := sent + [chunk];
      }
    }
    assert parts[|parts|..] == [];
  }

  /** One turn of the sending loop keeps what was sent plus what is left to send unchanged. */
  lemma SendStep(parts: seq<string>, i: nat, sent: seq<string>)
    requires i < |parts| && sent + KeepTrimmed(parts[i..]) == KeepTrimmed(parts)
    ensures (if Trim(parts[i]) == [] then sent else sent + [Trim(parts[i])]) + KeepTrimmed(parts[i + 1..]) == KeepTrimmed(parts)
  {
    KeepTrimmedAt(parts, i);
    var rest := KeepTrimmed(parts[i + 1..]);
    if Trim(parts[i]) != [] {
      assert sent + ([Trim(parts[i])] + rest) == (sent + [Trim(parts[i])]) + rest;
    }
  }

  /** The pieces from `i` on: the trimmed piece `i` when it is not blank, then the rest. */
  lemma KeepTrimmedAt(parts: seq<string>, i: nat)
    requires i < |parts|
    ensures KeepTrimmed(parts[i..]) == (if Trim(parts[i]) == [] then [] else [Trim(parts[i])]) + KeepTrimmed(parts[i + 1..])
  {
    assert parts[i..][0] == parts[i] && parts[i..][1..] == parts[i + 1..];
    KeepTrimmedFirst(parts[i..]);
  }
}

=== FILE: dates.dfy ===
/**
 * Date handling of the dispatcher and of the backend client.
 *
 * The dispatcher works on the agent's date text "YYYY-MM-DD HH:mm" with `split`, `Number`
 * and `padStart` (`corregirFechaAnioVigente`) and compares `new Date(...)` with now
 * (`esFechaFutura`). The backend client parses the date with `moment`, moves a past year to
 * the current one with moment's year setter and formats it back.
 *
 * Parsing a date (`new Date`, `moment(...)`) is a library call and is a parameter here; now
 * and the current year are inputs.
 */
module Dates {
  import opened Wrappers
  import opened Text

  // ---------------------------------------------------------------- Number(s) on date fields

  /**
   * A number read from a date field. Fields come from splitting on "-", so they never hold
   * a minus sign: the value is NaN or a non-negative number; this model keeps the integers.
   */
  datatype Num = NaN | Int(n: nat)

  /** A string without white space trims to itself. */
  lemma TrimNoSpace(s: string)
    requires forall i :: 0 <= i < |s| ==> !IsSpace(s[i])
    ensures Trim(s) == s
  {
    if |s| > 0 {
      assert !IsSpace(s[0]) && !IsSpace(s[|s| - 1]);
    }
  }

  /** The value of a digit in bases up to 16: `0`-`9`, then `a`-`f` in either case. */
  function RadixDigit(c: char): Option<nat>
  {
    if '0' <= c <= '9' then Some(c as int - '0' as int)
    else if 'a' <= c <= 'f' then Some(c as int - 'a' as int + 10)
    else if 'A' <= c <= 'F' then Some(c as int - 'A' as int + 10)
    else None
  }

  /** Every character of `s` is a digit of base `base`. */
  predicate InRadix(s: string, base: nat)
  {
    forall i :: 0 <= i < |s| ==> RadixDigit(s[i]).Some? && RadixDigit(s[i]).value < base
  }

  /** The number the digits `s` denote in base `base`. */
  function RadixValue(s: string, base: nat): nat
    requires InRadix(s, base)
  {
    if s == [] then 0 else RadixValue(s[..|s| - 1], base) * base + RadixDigit(s[|s| - 1]).value
  }

  /** The base the letter after a leading `0` selects: `x` for 16, `o` for 8, `b` for 2, in either case. */
  function PrefixBase(c: char): Option<nat>
  {
    if c == 'x' || c == 'X' then Some(16)
    else if c == 'o' || c == 'O' then Some(8)
    else if c == 'b' || c == 'B' then Some(2)
    else None
  }

  predicate AllZeros(s: string)
  {
    forall i :: 0 <= i < |s| ==> s[i] == '0'
  }

  /**
   * A decimal numeral without exponent whose fraction, if it has one, is all zeros (`15`,
   * `15.`, `15.00`, `.0`): the value of its integer part.
   */
  function WholeDecimal(u: string): Option<nat>
  {
    var parts := Split(u, '.');
    if |parts| == 1 then (if u != [] && AllDigits(u) then Some(ValueOf(u)) else None)
    else if |parts| == 2 && AllDigits(parts[0]) && AllZeros(parts[1]) && parts[0] + parts[1] != [] then
      Some(ValueOf(parts[0]))
    else None
  }

  /**
   * `Number(s)` as far as it yields integers: surrounding white space is ignored, the empty
   * string is 0, a `0x`, `0o` or `0b` numeral is read in its base, and a decimal numeral
   * with an optional `+` and a zero fraction is its integer part. Every other text is NaN
   * here, including the numerals JavaScript reads as a fraction, with an exponent or as
   * `Infinity`.
   */
  function ToNumber(s: string): Num
  {
    var t := Trim(s);
    if t == [] then Int(0) else Numeral(t)
  }

  /** The numeral `t`, already trimmed and not empty. */
  function Numeral(t: string): Num
    requires t != []
  {
    if |t| > 2 && t[0] == '0' && PrefixBase(t[1]).Some? then
      if InRadix(t[2..], PrefixBase(t[1]).value) then Int(RadixValue(t[2..], PrefixBase(t[1]).value)) else NaN
    else
      match WholeDecimal(if t[0] == '+' then t[1..] else t)
      case Some(n) => Int(n)
      case None => NaN
  }

  /** A text without white space is read as a numeral. */
  lemma ToNumberNoSpace(t: string)
    requires t != [] && forall i :: 0 <= i < |t| ==> !IsSpace(t[i])
    ensures ToNumber(t) == Numeral(t)
  {
    TrimNoSpace(t);
  }

  /** A blank field reads as 0. */
  lemma ToNumberBlank(s: string)
    ensures (forall i :: 0 <= i < |s| ==> IsSpace(s[i])) ==> ToNumber(s) == Int(0)
  {
    TrimEmpty(s);
  }

  /** Digits without a point are a whole decimal numeral. */
  lemma WholeDecimalDigits(ds: string)
    requires ds != [] && AllDigits(ds)
    ensures WholeDecimal(ds) == Some(ValueOf(ds))
  {
    assert '.' !in ds by {
      forall i | 0 <= i < |ds| ensures ds[i] != '.' { assert IsDigit(ds[i]); }
    }
    SplitWithout(ds, '.');
  }

  /** A field of decimal digits reads as their value. */
  lemma ToNumberDigits(s: string)
    ensures s != [] && AllDigits(s) ==> ToNumber(s) == Int(ValueOf(s))
  {
    if s != [] && AllDigits(s) {
      ToNumberNoSpace(s);
      assert IsDigit(s[0]);
      if |s| > 2 {
        assert IsDigit(s[1]);
      }
      WholeDecimalDigits(s);
    }
  }

  /** Digits, a point and zeros are a whole decimal numeral. */
  lemma WholeDecimalFraction(ds: string, zs: string)
    requires AllDigits(ds) && AllZeros(zs) && ds != []
    ensures WholeDecimal(ds + "." + zs) == Some(ValueOf(ds))
  {
    assert '.' !in ds by {
      forall i | 0 <= i < |ds| ensures ds[i] != '.' { assert IsDigit(ds[i]); }
    }
    assert '.' !in zs by {
      forall i | 0 <= i < |zs| ensures zs[i] != '.' { assert zs[i] == '0'; }
    }
    SplitTwo(ds, zs, '.');
  }

  /** Digits, a point and zeros (`15.0`, `15.`) read as the value of the digits. */
  lemma ToNumberZeroFraction(ds: string, zs: string)
    requires ds != [] && AllDigits(ds) && AllZeros(zs)
    ensures ToNumber(ds + "." + zs) == Int(ValueOf(ds))
  {
    var t := ds + "." + zs;
    WholeDecimalFraction(ds, zs);
    DecimalNoSpace(ds, zs);
    ToNumberNoSpace(t);
    NumeralDecimal(t, t);
  }

  /** A leading `+` before a decimal numeral changes nothing. */
  lemma ToNumberPlus(u: string)
    requires u != [] && (forall i :: 0 <= i < |u| ==> !IsSpace(u[i])) && WholeDecimal(u).Some?
    ensures ToNumber("+" + u) == Int(WholeDecimal(u).value)
  {
    var t := "+" + u;
    forall i | 0 <= i < |t|
      ensures !IsSpace(t[i])
    {
      if i > 0 { assert t[i] == u[i - 1]; }
    }
    ToNumberNoSpace(t);
    assert t[1..] == u;
    NumeralDecimal(t, u);
  }

  /** A numeral that is not prefixed is read as a decimal, after its `+`. */
  lemma NumeralDecimal(t: string, u: string)
    requires t != [] && u == (if t[0] == '+' then t[1..] else t)
    requires |t| > 2 && t[0] == '0' ==> PrefixBase(t[1]).None?
    ensures Numeral(t) == if WholeDecimal(u).Some? then Int(WholeDecimal(u).value) else NaN
  {
  }

  lemma DecimalNoSpace(ds: string, zs: string)
    requires ds != [] && AllDigits(ds) && AllZeros(zs)
    ensures var t := ds + "." + zs;
      t != [] && t[0] != '+' && (|t| > 2 && t[0] == '0' ==> PrefixBase(t[1]).None?) &&
      forall i :: 0 <= i < |t| ==> !IsSpace(t[i])
  {
    var t := ds + "." + zs;
    forall i | 0 <= i < |t|
      ensures t[i] == '.' || IsDigit(t[i])
    {
      if i < |ds| { assert t[i] == ds[i]; }
      else if i > |ds| { assert t[i] == zs[i - |ds| - 1]; }
    }
  }

  /** A `0x`, `0o` or `0b` numeral reads as the value of its digits in that base. */
  lemma ToNumberPrefixed(c: char, ds: string)
    requires PrefixBase(c).Some? && ds != [] && InRadix(ds, PrefixBase(c).value)
    ensures ToNumber("0" + [c] + ds) == Int(RadixValue(ds, PrefixBase(c).value))
  {
    var t := "0" + [c] + ds;
    forall i | 0 <= i < |t|
      ensures !IsSpace(t[i])
    {
      if i >= 2 { assert t[i] == ds[i - 2] && RadixDigit(ds[i - 2]).Some?; }
    }
    ToNumberNoSpace(t);
    assert t[2..] == ds;
  }

  /** `String(x)` of a field value. */
  function ShowNum(x: Num): (r: string)
    ensures x.Int? ==> AllDigits(r) && ValueOf(r) == x.n
    ensures x.NaN? ==> r == "NaN"
  {
    match x
    case NaN => "NaN"
    case Int(n) => ValueOfShow(n); Show(n)
  }

  /** A printed field, zero-padded to any width, reads back as the same value (NaN pads to "0NaN"). */
  lemma ReadPadded(x: Num, width: nat)
    ensures ToNumber(PadStart(ShowNum(x), width, '0')) == x
  {
    var p := PadStart(ShowNum(x), width, '0');
    match x
    case Int(n) =>
      PaddedShow(n, width);
      assert p != [] by { assert |Show(n)| >= 1; }
      ToNumberDigits(p);
    case NaN =>
      ReadPaddedNaN(width);
  }

  /** NaN printed and zero-padded reads back as NaN. */
  lemma ReadPaddedNaN(width: nat)
    ensures ToNumber(PadStart("NaN", width, '0')) == NaN
  {
    var p := PadStart("NaN", width, '0');
    PaddedNaNChars(width);
    ToNumberNoSpace(p);
    SplitWithout(p, '.');
    NumeralDecimal(p, p);
  }

  /** NaN padded with zeros: zeros, then `NaN`; no space, no point, not a numeral. */
  lemma PaddedNaNChars(width: nat)
    ensures var p := PadStart("NaN", width, '0');
      p != [] && p[0] != '+' && p[|p| - 1] == 'N' && '.' !in p && !AllDigits(p) &&
      (|p| > 2 ==> PrefixBase(p[1]).None?) &&
      forall i :: 0 <= i < |p| ==> !IsSpace(p[i])
  {
    var p := PadStart("NaN", width, '0');
    forall i | 0 <= i < |p|
      ensures p[i] == '0' || p[i] == 'N' || p[i] == 'a'
    {
      if i >= |p| - 3 { assert p[i] == "NaN"[i - (|p| - 3)]; }
    }
    assert p[|p| - 1] == 'N';
  }

  // ---------------------------------------------------------------- corregirFechaAnioVigente

  /** The fields `corregirFechaAnioVigente` reads: the three numbers of the date and the time text. */
  datatype DateParts = DateParts(year: Num, month: Num, day: Num, time: string)

  /**
   * Reading "fecha hora": the part before the first space is split on "-" into year, month
   * and day; the time is the second space-separated part, or "undefined" when there is none.
   * A date with fewer than three fields has no reading (reading `toString` of undefined throws).
   */
  function ReadDate(s: string): (r: Option<DateParts>)
    ensures r.Some? ==> ' ' !in r.value.time
  {
    var halves := Split(s, ' ');
    var time := if |halves| > 1 then halves[1] else "undefined";
    var fields := Split(halves[0], '-');
    if |fields| < 3 then None
    else Some(DateParts(ToNumber(fields[0]), ToNumber(fields[1]), ToNumber(fields[2]), time))
  }

  /** The template `${anio}-${mes}-${dia} ${hora}` with the year padded to 4 digits and month and day to 2. */
  function Render(p: DateParts): string
  {
    PadStart(ShowNum(p.year), 4, '0') + "-" + PadStart(ShowNum(p.month), 2, '0') + "-"
      + PadStart(ShowNum(p.day), 2, '0') + " " + p.time
  }

  lemma NoSepInPadded(x: Num, width: nat)
    ensures '-' !in PadStart(ShowNum(x), width, '0') && ' ' !in PadStart(ShowNum(x), width, '0')
  {
    var p := PadStart(ShowNum(x), width, '0');
    var k := |p| - |ShowNum(x)|;
    forall i | 0 <= i < |p|
      ensures p[i] != '-' && p[i] != ' '
    {
      if i >= k {
        assert p[i] == ShowNum(x)[i - k];
        if x.NaN? { assert ShowNum(x)[i - k] in "NaN"; }
      }
    }
  }

  lemma SplitTwo(a: string, b: string, sep: char)
    requires sep !in a && sep !in b
    ensures Split(a + [sep] + b, sep) == [a, b]
  {
    SplitAfter(a, b, sep);
    SplitWithout(b, sep);
  }

  lemma SplitThree(a: string, b: string, c: string, sep: char)
    requires sep !in a && sep !in b && sep !in c
    ensures Split(a + [sep] + b + [sep] + c, sep) == [a, b, c]
  {
    assert a + [sep] + b + [sep] + c == a + [sep] + (b + [sep] + c);
    SplitAfter(a, b + [sep] + c, sep);
    SplitTwo(b, c, sep);
  }

  /** The pieces of a rendered date: the padded fields joined by "-", a space, and the time. */
  lemma RenderSplits(p: DateParts)
    requires ' ' !in p.time
    ensures var y, m, d := PadStart(ShowNum(p.year), 4, '0'), PadStart(ShowNum(p.month), 2, '0'), PadStart(ShowNum(p.day), 2, '0');
      var halves := Split(Render(p), ' ');
      Render(p) == y + "-" + m + "-" + d + " " + p.time && ' ' !in y + "-" + m + "-" + d &&
      halves == [y + "-" + m + "-" + d, p.time] && Split(halves[0], '-') == [y, m, d]
  {
    var y := PadStart(ShowNum(p.year), 4, '0');
    var m := PadStart(ShowNum(p.month), 2, '0');
    var d := PadStart(ShowNum(p.day), 2, '0');
    NoSepInPadded(p.year, 4);
    NoSepInPadded(p.month, 2);
    NoSepInPadded(p.day, 2);
    var date := y + ['-'] + m + ['-'] + d;
    assert date == y + "-" + m + "-" + d;
    assert Render(p) == date + [' '] + p.time;
    SplitTwo(date, p.time, ' ');
    SplitThree(y, m, d, '-');
  }

  /** Reading a rendered date gives back its fields. */
  lemma ReadRender(p: DateParts)
    requires ' ' !in p.time
    ensures ReadDate(Render(p)) == Some(p)
  {
    var y := PadStart(ShowNum(p.year), 4, '0');
    var m := PadStart(ShowNum(p.month), 2, '0');
    var d := PadStart(ShowNum(p.day), 2, '0');
    RenderSplits(p);
    ReadPadded(p.year, 4);
    ReadPadded(p.month, 2);
    ReadPadded(p.day, 2);
    assert ReadDate(Render(p)) == Some(DateParts(ToNumber(y), ToNumber(m), ToNumber(d), p.time));
  }

  /** `t` is `shown` padded on the left with zeros to `width` characters, or `shown` itself when it is that long already. */
  predicate ZeroPadded(t: string, shown: string, width: nat)
  {
    |t| == (if |shown| < width then width else |shown|) &&
    t[|t| - |shown|..] == shown && forall i :: 0 <= i < |t| - |shown| ==> t[i] == '0'
  }

  /** `if (anio < vigente) anio = vigente`: a past year becomes the current one; NaN compares false. */
  function Raise(year: Num, current: nat): (r: Num)
    ensures year.NaN? ==> r.NaN?
    ensures year.Int? ==> r.Int? && r.n >= year.n && r.n >= current
    ensures year.Int? && year.n >= current ==> r == year
    ensures year.Int? && year.n < current ==> r == Int(current)
  {
    if year.Int? && year.n < current then Int(current) else year
  }

  /**
   * `corregirFechaAnioVigente`: the date rewritten with its year raised to at least the
   * current year; fails with the `TypeError` when the date has fewer than three fields.
   */
  function CorrectYear(s: string, current: nat): (r: Result<string>)
    ensures r.Ok? <==> ReadDate(s).Some?
    ensures r.Ok? ==> ReadDate(r.value) == Some(ReadDate(s).value.(year := Raise(ReadDate(s).value.year, current)))
  {
    match ReadDate(s)
    case None => Err("TypeError: Cannot read properties of undefined (reading 'toString')")
    case Some(p) =>
      var q := p.(year := Raise(p.year, current));
      ReadRender(q);
      Ok(Render(q))
  }

  /** Correcting an already corrected date changes nothing. */
  lemma CorrectYearIdempotent(s: string, current: nat)
    requires CorrectYear(s, current).Ok?
    ensures CorrectYear(CorrectYear(s, current).value, current) == CorrectYear(s, current)
  {
  }

  /**
   * The text of a corrected date: the year, month and day, printed and zero-padded to four,
   * two and two characters, joined by "-", then one space and the input's time part as it
   * was (the text after its first space, up to the next one), or "undefined" when it has none.
   */
  lemma CorrectYearLayout(s: string, current: nat)
    requires CorrectYear(s, current).Ok?
    ensures var p := ReadDate(s).value;
      var halves := Split(CorrectYear(s, current).value, ' ');
      |halves| == 2 && halves[1] == (if |Split(s, ' ')| > 1 then Split(s, ' ')[1] else "undefined") &&
      var fields := Split(halves[0], '-');
      |fields| == 3 && ZeroPadded(fields[0], ShowNum(Raise(p.year, current)), 4) &&
      ZeroPadded(fields[1], ShowNum(p.month), 2) && ZeroPadded(fields[2], ShowNum(p.day), 2)
  {
    var p := ReadDate(s).value;
    var q := p.(year := Raise(p.year, current));
    RenderSplits(q);
  }

  // ---------------------------------------------------------------- esFechaFutura

  /**
   * `esFechaFutura`: the first space becomes "T", the result is parsed as a date (`None` is
   * an Invalid Date, which compares false), and the instant is compared with now.
   */
  predicate IsFuture(s: string, now: int, parseDate: string -> Option<int>)
  {
    var t := parseDate(ReplaceFirst(s, ' ', 'T'));
    t.Some? && t.value >= now
  }

  /**
   * On a corrected date, `esFechaFutura` parses the date part and the time part joined by
   * "T" (an ISO 8601 date and time for a well-formed date): the space between them is the
   * first one, and only it changes.
   */
  lemma IsFutureOfCorrected(s: string, current: nat, now: int, parseDate: string -> Option<int>)
    requires CorrectYear(s, current).Ok?
    ensures var halves := Split(CorrectYear(s, current).value, ' ');
      |halves| == 2 &&
      (IsFuture(CorrectYear(s, current).value, now, parseDate) <==>
        parseDate(halves[0] + "T" + halves[1]).Some? && parseDate(halves[0] + "T" + halves[1]).value >= now)
  {
    var p := ReadDate(s).value;
    var q := p.(year := Raise(p.year, current));
    RenderSplits(q);
    var halves := Split(Render(q), ' ');
    assert Render(q) == halves[0] + [' '] + halves[1];
    ReplaceFirstAt(halves[0], halves[1], ' ', 'T');
    assert halves[0] + ['T'] + halves[1] == halves[0] + "T" + halves[1];
  }

  // ---------------------------------------------------------------- moment dates

  /** A calendar date and time as moment holds it; `month` runs from 1 to 12. */
  datatype DateTime = DateTime(year: nat, month: nat, day: nat, hour: nat, minute: nat, second: nat, milli: nat)

  predicate IsLeap(y: nat)
  {
    y % 4 == 0 && (y % 100 != 0 || y % 400 == 0)
  }

  function DaysIn(y: nat, m: nat): nat
  {
    if m == 2 then (if IsLeap(y) then 29 else 28)
    else if m == 4 || m == 6 || m == 9 || m == 11 then 30
    else 31
  }

  /** What a successful moment parse yields. */
  predicate ValidDateTime(d: DateTime)
  {
    1 <= d.month <= 12 && 1 <= d.day <= DaysIn(d.year, d.month)
    && d.hour < 24 && d.minute < 60 && d.second < 60 && d.milli < 1000
  }

  /** moment's `year(y)` setter: only the year changes, except that 29 February becomes the 28th in a common year. */
  function WithYear(d: DateTime, y: nat): (r: DateTime)
    requires ValidDateTime(d)
    ensures ValidDateTime(r)
    ensures r == d.(year := y, day := r.day)
    ensures r.day == d.day || (d.month == 2 && d.day == 29 && !IsLeap(y) && r.day == 28)
  {
    if d.month == 2 && d.day == 29 then d.(year := y, day := DaysIn(y, 2)) else d.(year := y)
  }

  /** `if (m.year() < vigente) m.year(vigente)`. */
  function RaiseYear(d: DateTime, current: nat): (r: DateTime)
    requires ValidDateTime(d)
    ensures ValidDateTime(r)
    ensures r.year == if d.year < current then current else d.year
    ensures d.year >= current ==> r == d
  {
    if d.year < current then WithYear(d, current) else d
  }

  /** Strict chronological order. */
  predicate Before(a: DateTime, b: DateTime)
  {
    a.year < b.year || (a.year == b.year &&
    (a.month < b.month || (a.month == b.month &&
    (a.day < b.day || (a.day == b.day &&
    (a.hour < b.hour || (a.hour == b.hour &&
    (a.minute < b.minute || (a.minute == b.minute &&
    (a.second < b.second || (a.second == b.second && a.milli < b.milli)))))))))))
  }

  /** `a.isSameOrBefore(b)`. */
  predicate SameOrBefore(a: DateTime, b: DateTime)
  {
    a == b || Before(a, b)
  }

  /** Chronological order is a strict total order. */
  lemma BeforeTotal(a: DateTime, b: DateTime, c: DateTime)
    ensures !Before(a, a)
    ensures Before(a, b) && Before(b, c) ==> Before(a, c)
    ensures a == b || Before(a, b) || Before(b, a)
    ensures !SameOrBefore(a, b) <==> Before(b, a)
  {
  }

  /** Moving a date to a later year moves it later in time. */
  lemma LaterYearIsLater(d: DateTime, y: nat)
    requires ValidDateTime(d) && d.year < y
    ensures Before(d, WithYear(d, y))
  {
  }

  /** moment's "YYYY" token: the year zero-filled to four digits; a longer year is printed in full, without a sign. */
  function FormatYear(y: nat): string
  {
    PadStart(Show(y), 4, '0')
  }

  /** `format("YYYY-MM-DD HH:mm")`. */
  function FormatMinute(d: DateTime): (r: string)
  {
    FormatYear(d.year) + "-" + PadStart(Show(d.month), 2, '0') + "-" + PadStart(Show(d.day), 2, '0')
      + " " + PadStart(Show(d.hour), 2, '0') + ":" + PadStart(Show(d.minute), 2, '0')
  }

  function Pow10(k: nat): nat
  {
    if k == 0 then 1 else 10 * Pow10(k - 1)
  }

  /** A number below 10^k prints in at most k digits. */
  lemma {:induction false} ShowLength(n: nat, k: nat)
    requires 1 <= k && n < Pow10(k)
    ensures |Show(n)| <= k
  {
    if n >= 10 {
      ShowLength(n / 10, k - 1);
    }
  }

  /** The layout "YYYY-MM-DD HH:mm" of five fields, the first of at least four characters and the rest of two. */
  lemma Layout(a: string, b: string, c: string, d: string, e: string)
    requires |a| >= 4 && |b| == 2 && |c| == 2 && |d| == 2 && |e| == 2
    ensures var f := a + "-" + b + "-" + c + " " + d + ":" + e; var k := |a|;
      |f| == k + 12 && f[k] == '-' && f[k + 3] == '-' && f[k + 6] == ' ' && f[k + 9] == ':'
      && f[..k] == a && f[k + 1..k + 3] == b && f[k + 4..k + 6] == c && f[k + 7..k + 9] == d && f[k + 10..k + 12] == e
  {
  }

  /** `s` is a numeral of decimal digits that denotes `v`. */
  predicate Denotes(s: string, v: nat)
  {
    AllDigits(s) && ValueOf(s) == v
  }

  /** Five digit fields in that layout read back as their values. */
  lemma ReadLayout(f: string, a: string, b: string, c: string, d: string, e: string, va: nat, vb: nat, vc: nat, vd: nat, ve: nat)
    requires f == a + "-" + b + "-" + c + " " + d + ":" + e
    requires |a| >= 4 && |b| == 2 && |c| == 2 && |d| == 2 && |e| == 2
    requires Denotes(a, va) && Denotes(b, vb) && Denotes(c, vc) && Denotes(d, vd) && Denotes(e, ve)
    ensures var k := |f| - 12;
      k == |a| && f[k] == '-' && f[k + 3] == '-' && f[k + 6] == ' ' && f[k + 9] == ':'
      && Denotes(f[..k], va)
      && Denotes(f[k + 1..k + 3], vb)
      && Denotes(f[k + 4..k + 6], vc)
      && Denotes(f[k + 7..k + 9], vd)
      && Denotes(f[k + 10..k + 12], ve)
  {
    Layout(a, b, c, d, e);
  }

  /** Each field of `format("YYYY-MM-DD HH:mm")` is its value printed and zero-padded. */
  lemma FormatPieces(d: DateTime)
    requires d.month < 100 && d.day < 100 && d.hour < 100 && d.minute < 100
    ensures var y := PadStart(Show(d.year), 4, '0');
      |y| >= 4 && (d.year <= 9999 ==> |y| == 4) && Denotes(y, d.year)
    ensures var p := PadStart(Show(d.month), 2, '0'); |p| == 2 && Denotes(p, d.month)
    ensures var p := PadStart(Show(d.day), 2, '0'); |p| == 2 && Denotes(p, d.day)
    ensures var p := PadStart(Show(d.hour), 2, '0'); |p| == 2 && Denotes(p, d.hour)
    ensures var p := PadStart(Show(d.minute), 2, '0'); |p| == 2 && Denotes(p, d.minute)
  {
    assert Pow10(4) == 10000 && Pow10(2) == 100;
    if d.year <= 9999 {
      ShowLength(d.year, 4);
    }
    ShowLength(d.month, 2); ShowLength(d.day, 2); ShowLength(d.hour, 2); ShowLength(d.minute, 2);
    PaddedShow(d.year, 4); PaddedShow(d.month, 2); PaddedShow(d.day, 2); PaddedShow(d.hour, 2); PaddedShow(d.minute, 2);
  }

  /**
   * The formatted text of a date has the layout "YYYY-MM-DD HH:mm": a year of at
   * least four digits (exactly four up to 9999), then four two-digit fields, and each
   * field reads back as the date's own value. Every valid date's month, day, hour and
   * minute are below 100.
   */
  lemma FormatMinuteFields(d: DateTime)
    requires d.month < 100 && d.day < 100 && d.hour < 100 && d.minute < 100
    ensures var f := FormatMinute(d); var k := |f| - 12;
      4 <= k && (d.year <= 9999 ==> k == 4)
      && f[k] == '-' && f[k + 3] == '-' && f[k + 6] == ' ' && f[k + 9] == ':'
      && Denotes(f[..k], d.year)
      && Denotes(f[k + 1..k + 3], d.month)
      && Denotes(f[k + 4..k + 6], d.day)
      && Denotes(f[k + 7..k + 9], d.hour)
      && Denotes(f[k + 10..k + 12], d.minute)
  {
    var y := PadStart(Show(d.year), 4, '0');
    var mo := PadStart(Show(d.month), 2, '0');
    var da := PadStart(Show(d.day), 2, '0');
    var h := PadStart(Show(d.hour), 2, '0');
    var mi := PadStart(Show(d.minute), 2, '0');
    FormatPieces(d);
    ReadLayout(FormatMinute(d), y, mo, da, h, mi, d.year, d.month, d.day, d.hour, d.minute);
  }
}

=== FILE: json.dfy ===
/**
 * The JavaScript values the core passes around: what `JSON.parse` returns and what the
 * agent and the backend reply with. An object keeps its members in `Object.keys` order.
 * Nothing here rules out a key listed twice; a property read then finds the first member,
 * whereas `JSON.parse` keeps the last, so the parser passed in is taken to list each key
 * once. Property reads, truthiness, `a || b` and `String(v)` follow JavaScript.
 */
module Json {
  import opened Wrappers
  import opened Text

  datatype Json =
    | JNull
    | JBool(b: bool)
    | JNum(n: int)                      // an integral number; fractions are not represented
    | JStr(s: string)
    | JArr(items: seq<Json>)
    | JObj(fields: seq<(string, Json)>)

  /** First member called `key`, or undefined. */
  function Lookup(fields: seq<(string, Json)>, key: string): (r: Option<Json>)
    ensures r.Some? <==> exists i :: 0 <= i < |fields| && fields[i].0 == key
    ensures r.Some? ==> exists i :: 0 <= i < |fields| && fields[i] == (key, r.value)
  {
    if fields == [] then None
    else if fields[0].0 == key then Some(fields[0].1)
    else Lookup(fields[1..], key)
  }

  /** Property read `v.key`: only objects have members; on anything else it is undefined. */
  function Get(v: Json, key: string): (r: Option<Json>)
    ensures r.Some? ==> v.JObj?
  {
    if v.JObj? then Lookup(v.fields, key) else None
  }

  /**
   * Member assignment `o[key] = value` on an object's member list: an existing member keeps
   * its place and takes the new value, a new member goes last.
   */
  function Put(fields: seq<(string, Json)>, key: string, value: Json): (r: seq<(string, Json)>)
    ensures Lookup(r, key) == Some(value)
    ensures forall k :: k != key ==> Lookup(r, k) == Lookup(fields, k)
  {
    if fields == [] then [(key, value)]
    else if fields[0].0 == key then [(key, value)] + fields[1..]
    else [fields[0]] + Put(fields[1..], key, value)
  }

  /** An object's member list with `key` reading as undefined. */
  function Without(fields: seq<(string, Json)>, key: string): (r: seq<(string, Json)>)
    ensures Lookup(r, key).None?
    ensures forall k :: k != key ==> Lookup(r, k) == Lookup(fields, k)
  {
    if fields == [] then []
    else if fields[0].0 == key then Without(fields[1..], key)
    else [fields[0]] + Without(fields[1..], key)
  }

  /**
   * The own enumerable members of a value, as `{...v}` and `Object.assign` copy them: an
   * object's members, an array's or a string's elements under their indexes, nothing otherwise.
   */
  function Spread(data: Json): seq<(string, Json)>
  {
    match data
    case JObj(fields) => fields
    case JArr(items) => seq(|items|, i requires 0 <= i < |items| => (Show(i), items[i]))
    case JStr(s) => seq(|s|, i requires 0 <= i < |s| => (Show(i), JStr([s[i]])))
    case _ => []
  }

  /** Optional chaining `o?.key`. */
  function GetOpt(o: Option<Json>, key: string): Option<Json>
  {
    if o.Some? then Get(o.value, key) else None
  }

  /** JavaScript truthiness; `None` is `undefined`. */
  predicate Truthy(o: Option<Json>)
  {
    match o
    case None => false
    case Some(JNull) => false
    case Some(JBool(b)) => b
    case Some(JNum(n)) => n != 0
    case Some(JStr(s)) => s != []
    case Some(_) => true
  }

  /** `a || b`: the first operand when it is truthy, otherwise the second. */
  function Or(a: Option<Json>, b: Option<Json>): (r: Option<Json>)
    ensures Truthy(r) <==> Truthy(a) || Truthy(b)
    ensures Truthy(a) ==> r == a
  {
    if Truthy(a) then a else b
  }

  /** `typeof v === "object"` (null, arrays and objects). */
  predicate IsObjectType(v: Json)
  {
    v.JNull? || v.JArr? || v.JObj?
  }

  /** `String(v)`. */
  function JsString(v: Json): string
    decreases v, 1, 0
  {
    match v
    case JNull => "null"
    case JBool(b) => if b then "true" else "false"
    case JNum(n) => if n < 0 then "-" + Show(-n) else Show(n)
    case JStr(s) => s
    case JArr(items) => JoinFrom(v, 0)
    case JObj(_) => "[object Object]"
  }

  /** `Array.prototype.join(",")` from index `i`; null elements print as the empty string. */
  function JoinFrom(v: Json, i: nat): string
    requires v.JArr?
    decreases v, 0, |v.items| - i
  {
    if i >= |v.items| then []
    else
      var item := v.items[i];
      var first := if item.JNull? then [] else JsString(item);
      if i + 1 == |v.items| then first else first + "," + JoinFrom(v, i + 1)
  }

  /** `String(x)` for a possibly undefined value. */
  function JsStringOpt(o: Option<Json>): string
  {
    if o.Some? then JsString(o.value) else "undefined"
  }
}

=== FILE: json_block_finder.dfy ===
/**
 * Command extraction from the agent's free text (`JsonBlockFinder`).
 *
 * The text search first tries the tagged blocks `[JSON-XXX]...[/JSON-XXX]` tag by tag in a
 * fixed order, scanning each tag's occurrences left to right, and accepts a block only when
 * its parsed `type` is the one paired with the tag. When no tagged block is accepted it tries
 * every loose `{...}` block (each ends at the first `}` after its `{`) and accepts the first
 * whose `type` is one of the five command kinds. The deep search walks a reply object
 * depth-first and runs the text search on its strings.
 *
 * `JSON.parse` is the parameter `parse`: `None` stands for a thrown `SyntaxError`.
 */
module JsonBlockFinder {
  import opened Wrappers
  import opened Text
  import opened Json

  // ---------------------------------------------------------------- lazy delimited matches

  /** One match of `open([\s\S]*?)close`: the whole match is text[start..end], the group text[innerStart..innerEnd]. */
  datatype Span = Span(start: nat, innerStart: nat, innerEnd: nat, end: nat)

  predicate SpanIn(text: string, m: Span)
  {
    m.start < m.innerStart <= m.innerEnd < m.end <= |text|
  }

  /** Every span lies inside the text. */
  predicate SpansIn(text: string, ms: seq<Span>)
  {
    forall k :: 0 <= k < |ms| ==> ms[k].start < ms[k].innerStart <= ms[k].innerEnd < ms[k].end <= |text|
  }

  /**
   * `regex.exec(text)` with `lastIndex == from` for the pattern `open([\s\S]*?)close`
   * (case-insensitive when `ci`): the leftmost opening delimiter, closed by the first
   * closing delimiter after it.
   */
  function NextMatch(text: string, open: string, close: string, from: nat, ci: bool): (r: Option<Span>)
    requires |open| > 0 && |close| > 0
    ensures r.Some? ==> SpanIn(text, r.value) && from <= r.value.start
    ensures r.Some? ==> r.value.innerStart == r.value.start + |open| && r.value.end == r.value.innerEnd + |close|
    ensures r.Some? ==> OccursAt(text, open, r.value.start, ci) && OccursAt(text, close, r.value.innerEnd, ci)
    ensures r.Some? ==> forall p :: from <= p < r.value.start ==> !OccursAt(text, open, p, ci)
    ensures r.Some? ==> forall q :: r.value.innerStart <= q < r.value.innerEnd ==> !OccursAt(text, close, q, ci)
    ensures r.None? ==> forall p, q :: from <= p && p + |open| <= q && OccursAt(text, open, p, ci) ==> !OccursAt(text, close, q, ci)
  {
    match IndexOf(text, open, from, ci)
    case None => None
    case Some(i) =>
      match IndexOf(text, close, i + |open|, ci)
      case None => None
      case Some(j) => Some(Span(i, i + |open|, j, j + |close|))
  }

  /** Every match from `from` on, in text order, each search resuming where the previous match ended. */
  function AllMatches(text: string, open: string, close: string, from: nat, ci: bool): (ms: seq<Span>)
    requires |open| > 0 && |close| > 0
    ensures SpansIn(text, ms)
    ensures forall k :: 0 <= k < |ms| ==> from <= ms[k].start
    decreases |text| - from
  {
    match NextMatch(text, open, close, from, ci)
    case None => []
    case Some(m) => [m] + AllMatches(text, open, close, m.end, ci)
  }

  /** The captured groups of the matches. */
  function Inner(text: string, ms: seq<Span>): (r: seq<string>)
    requires SpansIn(text, ms)
    ensures |r| == |ms|
  {
    if ms == [] then [] else [text[ms[0].innerStart..ms[0].innerEnd]] + Inner(text, ms[1..])
  }

  /** The whole matched texts. */
  function Whole(text: string, ms: seq<Span>): (r: seq<string>)
    requires SpansIn(text, ms)
    ensures |r| == |ms|
    ensures forall k :: 0 <= k < |ms| ==> r[k] == text[ms[k].start..ms[k].end]
  {
    if ms == [] then [] else [text[ms[0].start..ms[0].end]] + Whole(text, ms[1..])
  }

  // ---------------------------------------------------------------- command kinds

  /** The tags, in the order the tagged pass tries them; `Kinds[t]` is the type paired with `TagNames[t]`. */
  const TagNames: seq<string> := ["JSON-RESERVA", "JSON-DISPONIBLE", "JSON-MODIFICAR", "JSON-CANCELAR", "JSON-CONFIRMAR"]

  /** The command kinds; the loose pass accepts any of them. */
  const Kinds: seq<string> := ["#RESERVA#", "#DISPONIBLE#", "#MODIFICAR#", "#CANCELAR#", "#CONFIRMAR#"]

  function OpenTag(tag: string): string { "[" + tag + "]" }
  function CloseTag(tag: string): string { "[/" + tag + "]" }

  /** `parsed.type` is a string among `kinds` (reading `type` of null throws and is skipped alike). */
  predicate HasKind(v: Json, kinds: seq<string>)
  {
    exists i :: 0 <= i < |kinds| && Get(v, "type") == Some(JStr(kinds[i]))
  }

  predicate Accepts(parse: string -> Option<Json>, kinds: seq<string>, c: string)
  {
    parse(c).Some? && HasKind(parse(c).value, kinds)
  }

  /** The parse of the first candidate that parses and carries one of `kinds`; unparsable ones are skipped. */
  function FirstOfKinds(cands: seq<string>, parse: string -> Option<Json>, kinds: seq<string>): (r: Option<Json>)
    ensures r.None? <==> forall i :: 0 <= i < |cands| ==> !Accepts(parse, kinds, cands[i])
    ensures r.Some? ==> HasKind(r.value, kinds)
  {
    if cands == [] then None
    else if Accepts(parse, kinds, cands[0]) then parse(cands[0])
    else
      var r := FirstOfKinds(cands[1..], parse, kinds);
      assert forall i :: 1 <= i < |cands| ==> cands[i] == cands[1..][i - 1];
      r
  }

  /** The first acceptable candidate wins, whatever follows it. */
  lemma {:induction false} FirstAcceptedWins(cands: seq<string>, parse: string -> Option<Json>, kinds: seq<string>, i: nat)
    requires i < |cands| && Accepts(parse, kinds, cands[i])
    requires forall j :: 0 <= j < i ==> !Accepts(parse, kinds, cands[j])
    ensures FirstOfKinds(cands, parse, kinds) == parse(cands[i])
  {
    if i > 0 {
      FirstAcceptedWins(cands[1..], parse, kinds, i - 1);
    }
  }

  /** The candidates of one tag: the contents of its blocks, left to right. */
  function TagBlocks(text: string, tag: string): seq<string>
  {
    Inner(text, AllMatches(text, OpenTag(tag), CloseTag(tag), 0, false))
  }

  /** The candidates of every tag, in tag order. */
  function TagCandidates(text: string): (c: seq<seq<string>>)
    ensures |c| == |TagNames|
    ensures forall t :: 0 <= t < |TagNames| ==> c[t] == TagBlocks(text, TagNames[t])
  {
    seq(|TagNames|, t requires 0 <= t < |TagNames| => TagBlocks(text, TagNames[t]))
  }

  /** What tag `t` contributes: its first candidate whose `type` is the tag's own type. */
  function TagResult(tagged: seq<seq<string>>, parse: string -> Option<Json>, t: nat): Option<Json>
    requires t < |tagged| <= |Kinds|
  {
    FirstOfKinds(tagged[t], parse, [Kinds[t]])
  }

  /** A tag only ever yields a command of its own kind, which is one of the five. */
  lemma TagResultKind(tagged: seq<seq<string>>, parse: string -> Option<Json>, t: nat)
    requires t < |tagged| <= |Kinds|
    ensures TagResult(tagged, parse, t).Some? ==>
      TagResult(tagged, parse, t).value.JObj? && HasKind(TagResult(tagged, parse, t).value, Kinds)
  {
    assert Kinds[t] in Kinds;
  }

  /** The tagged pass from tag `t` on: the first tag that yields a command decides. */
  function TaggedPass(tagged: seq<seq<string>>, parse: string -> Option<Json>, t: nat): (r: Option<Json>)
    requires |tagged| <= |Kinds|
    ensures r.Some? ==> r.value.JObj?
    decreases |tagged| - t
  {
    if t >= |tagged| then None
    else
      var first := TagResult(tagged, parse, t);
      TagResultKind(tagged, parse, t);
      if first.Some? then first else TaggedPass(tagged, parse, t + 1)
  }

  /** The tagged pass finds nothing exactly when no tag from `t` on yields a command. */
  lemma {:induction false} TaggedPassNone(tagged: seq<seq<string>>, parse: string -> Option<Json>, t: nat)
    requires |tagged| <= |Kinds|
    ensures TaggedPass(tagged, parse, t).None? <==> forall u :: t <= u < |tagged| ==> TagResult(tagged, parse, u).None?
    decreases |tagged| - t
  {
    if t < |tagged| {
      TaggedPassNone(tagged, parse, t + 1);
    }
  }

  /** The tagged pass only ever yields a command of one of the five kinds. */
  lemma {:induction false} TaggedPassKind(tagged: seq<seq<string>>, parse: string -> Option<Json>, t: nat)
    requires |tagged| <= |Kinds|
    ensures TaggedPass(tagged, parse, t).Some? ==> HasKind(TaggedPass(tagged, parse, t).value, Kinds)
    decreases |tagged| - t
  {
    if t < |tagged| {
      TagResultKind(tagged, parse, t);
      TaggedPassKind(tagged, parse, t + 1);
    }
  }

  /** The earliest tag that yields a command decides the tagged pass. */
  lemma {:induction false} EarliestTagWins(tagged: seq<seq<string>>, parse: string -> Option<Json>, from: nat, t: nat)
    requires |tagged| <= |Kinds|
    requires from <= t < |tagged| && TagResult(tagged, parse, t).Some?
    requires forall u :: from <= u < t ==> TagResult(tagged, parse, u).None?
    ensures TaggedPass(tagged, parse, from) == TagResult(tagged, parse, t)
    decreases t - from
  {
    if from < t {
      calc {
        TaggedPass(tagged, parse, from);
      == { assert TagResult(tagged, parse, from).None?; }
        TaggedPass(tagged, parse, from + 1);
      == { EarliestTagWins(tagged, parse, from + 1, t); }
        TagResult(tagged, parse, t);
      }
    }
  }

  /** The loose candidates: every `{...}` block, each ending at the first `}` after its `{`. */
  function LooseBlocks(text: string): seq<string>
  {
    Whole(text, AllMatches(text, "{", "}", 0, false))
  }

  /** The two passes over given candidates: tagged first, loose only when the tagged pass found nothing. */
  function FirstCommand(tagged: seq<seq<string>>, loose: seq<string>, parse: string -> Option<Json>): (r: Option<Json>)
    requires |tagged| <= |Kinds|
    ensures r.Some? ==> r.value.JObj?
  {
    var t := TaggedPass(tagged, parse, 0);
    if t.Some? then t
    else
      var l := FirstOfKinds(loose, parse, Kinds);
      LooseKind(l);
      l
  }

  lemma LooseKind(l: Option<Json>)
    requires l.Some? ==> HasKind(l.value, Kinds)
    ensures l.Some? ==> l.value.JObj?
  {
  }

  /** What `buscarBloquesJSONEnTexto` returns: an object, or nothing. */
  function FirstCommandInText(text: string, parse: string -> Option<Json>): (r: Option<Json>)
    ensures r.Some? ==> r.value.JObj?
  {
    FirstCommand(TagCandidates(text), LooseBlocks(text), parse)
  }

  /** Whatever the text search returns has one of the five command kinds as its `type`. */
  lemma FirstCommandInTextKind(text: string, parse: string -> Option<Json>)
    ensures FirstCommandInText(text, parse).Some? ==> HasKind(FirstCommandInText(text, parse).value, Kinds)
  {
    TaggedPassKind(TagCandidates(text), parse, 0);
  }

  /**
   * The loose pass is reached only when no tag yields a command, and then its first
   * acceptable block decides.
   */
  lemma LooseOnlyAsFallback(tagged: seq<seq<string>>, loose: seq<string>, parse: string -> Option<Json>, i: nat)
    requires |tagged| <= |Kinds|
    requires forall t :: 0 <= t < |tagged| ==> TagResult(tagged, parse, t).None?
    requires i < |loose| && Accepts(parse, Kinds, loose[i])
    requires forall j :: 0 <= j < i ==> !Accepts(parse, Kinds, loose[j])
    ensures FirstCommand(tagged, loose, parse) == parse(loose[i])
  {
    TaggedPassNone(tagged, parse, 0);
    FirstAcceptedWins(loose, parse, Kinds, i);
  }

  /** A tagged block that is acceptable, preceded by no acceptable block of an earlier tag, wins over every loose block. */
  lemma TaggedBeforeLoose(tagged: seq<seq<string>>, loose: seq<string>, parse: string -> Option<Json>, t: nat, i: nat)
    requires |tagged| <= |Kinds|
    requires t < |tagged| && i < |tagged[t]| && Accepts(parse, [Kinds[t]], tagged[t][i])
    requires forall j :: 0 <= j < i ==> !Accepts(parse, [Kinds[t]], tagged[t][j])
    requires forall u :: 0 <= u < t ==> TagResult(tagged, parse, u).None?
    ensures FirstCommand(tagged, loose, parse) == parse(tagged[t][i])
  {
    FirstAcceptedWins(tagged[t], parse, [Kinds[t]], i);
    EarliestTagWins(tagged, parse, 0, t);
  }

  /** Nothing is found exactly when no tagged candidate carries its tag's type and no loose candidate carries a known type. */
  lemma NothingFound(tagged: seq<seq<string>>, loose: seq<string>, parse: string -> Option<Json>)
    requires |tagged| <= |Kinds|
    ensures FirstCommand(tagged, loose, parse).None? <==>
      (forall t, c :: 0 <= t < |tagged| && c in tagged[t] ==> !Accepts(parse, [Kinds[t]], c)) &&
      (forall c :: c in loose ==> !Accepts(parse, Kinds, c))
  {
    TaggedPassNone(tagged, parse, 0);
    if FirstCommand(tagged, loose, parse).None? {
      forall t, c | 0 <= t < |tagged| && c in tagged[t]
        ensures !Accepts(parse, [Kinds[t]], c)
      {
        assert TagResult(tagged, parse, t).None?;
      }
    }
  }

  // ---------------------------------------------------------------- the scan as the source runs it

  /**
   * `buscarBloquesJSONEnTexto`: for each tag, `regex.exec` until it returns null, returning
   * the first block whose `type` matches; then the loose blocks collected by `matchAll`.
   */
  method FindInText(text: string, parse: string -> Option<Json>) returns (r: Option<Json>)
    ensures r == FirstCommandInText(text, parse)
  {
    ghost var tagged := TagCandidates(text);
    for t := 0 to |TagNames|
      invariant TaggedPass(tagged, parse, 0) == TaggedPass(tagged, parse, t)
    {
      var tag := TagNames[t];
      var kind := Kinds[t];
      var cursor := 0;
      var m := NextMatch(text, OpenTag(tag), CloseTag(tag), cursor, false);
      while m.Some?
        invariant m == NextMatch(text, OpenTag(tag), CloseTag(tag), cursor, false)
        invariant TagResult(tagged, parse, t)
          == FirstOfKinds(Inner(text, AllMatches(text, OpenTag(tag), CloseTag(tag), cursor, false)), parse, [kind])
        decreases |text| - cursor
      {
        var parsed := parse(text[m.value.innerStart..m.value.innerEnd]);
        if parsed.Some? && HasKind(parsed.value, [kind]) {
          return parsed;
        }
        cursor := m.value.end;
        m := NextMatch(text, OpenTag(tag), CloseTag(tag), cursor, false);
      }
    }
    var blocks := LooseBlocks(text);
    for i := 0 to |blocks|
      invariant FirstCommandInText(text, parse) == FirstOfKinds(blocks[i..], parse, Kinds)
    {
      var parsed := parse(blocks[i]);
      if parsed.Some? && HasKind(parsed.value, Kinds) {
        return parsed;
      }
      assert blocks[i..][1..] == blocks[i + 1..];
    }
    return None;
  }

  // ---------------------------------------------------------------- deep search

  /** The values `Object.keys` visits: array elements, or object member values, in order. */
  function Children(v: Json): (cs: seq<Json>)
    ensures forall i :: 0 <= i < |cs| ==> cs[i] < v
  {
    match v
    case JArr(items) => items
    case JObj(fields) => seq(|fields|, i requires 0 <= i < |fields| => fields[i].1)
    case _ => []
  }

  /**
   * `buscarBloquesJSONProfundo`: nothing for a falsy value, the text search for a string,
   * and for an object or array the first truthy result among its members in key order.
   */
  function DeepFind(v: Json, parse: string -> Option<Json>): (r: Option<Json>)
    ensures r.Some? ==> r.value.JObj?
    ensures !Truthy(Some(v)) ==> r.None?
    decreases v, 1, 0
  {
    if !Truthy(Some(v)) then None
    else if v.JStr? then FirstCommandInText(v.s, parse)
    else if v.JArr? || v.JObj? then DeepFindFrom(v, 0, parse)
    else None
  }

  function DeepFindFrom(v: Json, i: nat, parse: string -> Option<Json>): (r: Option<Json>)
    ensures r.Some? ==> r.value.JObj?
    decreases v, 0, |Children(v)| - i
  {
    if i >= |Children(v)| then None
    else
      var found := DeepFind(Children(v)[i], parse);
      if Truthy(found) then found else DeepFindFrom(v, i + 1, parse)
  }

  // ---------------------------------------------------------------- properties

  /** The strings inside a value, depth-first in key order. */
  function Leaves(v: Json): seq<string>
    decreases v, 1, 0
  {
    if v.JStr? then [v.s] else LeavesFrom(v, 0)
  }

  function LeavesFrom(v: Json, i: nat): seq<string>
    decreases v, 0, |Children(v)| - i
  {
    if i >= |Children(v)| then [] else Leaves(Children(v)[i]) + LeavesFrom(v, i + 1)
  }

  /** `find` applied to each string in turn; the first result found. */
  function FirstInTexts(ts: seq<string>, find: string -> Option<Json>): Option<Json>
  {
    if ts == [] then None
    else
      var f := find(ts[0]);
      if f.Some? then f else FirstInTexts(ts[1..], find)
  }

  lemma {:induction false} FirstInTextsAppend(a: seq<string>, b: seq<string>, find: string -> Option<Json>)
    ensures FirstInTexts(a + b, find)
      == if FirstInTexts(a, find).Some? then FirstInTexts(a, find) else FirstInTexts(b, find)
  {
    if a != [] {
      FirstInTextsAppend(a[1..], b, find);
      assert (a + b)[1..] == a[1..] + b;
    } else {
      assert a + b == b;
    }
  }

  /** The text search as a value. */
  function TextSearch(parse: string -> Option<Json>): string -> Option<Json>
  {
    s => FirstCommandInText(s, parse)
  }

  /** No block can be found in the empty string. */
  lemma NoCommandInEmpty(parse: string -> Option<Json>)
    ensures FirstCommandInText([], parse).None?
  {
    var tagged := TagCandidates([]);
    forall t | 0 <= t < |TagNames|
      ensures TagResult(tagged, parse, t).None?
    {
      assert AllMatches([], OpenTag(TagNames[t]), CloseTag(TagNames[t]), 0, false) == [];
    }
    assert AllMatches([], "{", "}", 0, false) == [];
  }

  /**
   * The deep search is the text search over the value's strings in depth-first key order:
   * the first string that holds a command decides.
   */
  lemma {:induction false} DeepFindIsFirstLeaf(v: Json, parse: string -> Option<Json>)
    ensures DeepFind(v, parse) == FirstInTexts(Leaves(v), TextSearch(parse))
    decreases v, 1, 0
  {
    if v.JStr? {
      if v.s == [] { NoCommandInEmpty(parse); }
    } else {
      DeepFindFromIsFirstLeaf(v, 0, parse);
    }
  }

  lemma {:induction false} DeepFindFromIsFirstLeaf(v: Json, i: nat, parse: string -> Option<Json>)
    requires !v.JStr?
    ensures DeepFindFrom(v, i, parse) == FirstInTexts(LeavesFrom(v, i), TextSearch(parse))
    decreases v, 0, |Children(v)| - i
  {
    if i < |Children(v)| {
      var c := Children(v)[i];
      var found := DeepFind(c, parse);
      var f := TextSearch(parse);
      calc {
        DeepFindFrom(v, i, parse);
      == { assert Truthy(found) <==> found.Some?; }
        if found.Some? then found else DeepFindFrom(v, i + 1, parse);
      == { DeepFindIsFirstLeaf(c, parse); DeepFindFromIsFirstLeaf(v, i + 1, parse); }
        if FirstInTexts(Leaves(c), f).Some? then FirstInTexts(Leaves(c), f) else FirstInTexts(LeavesFrom(v, i + 1), f);
      == { FirstInTextsAppend(Leaves(c), LeavesFrom(v, i + 1), f); }
        FirstInTexts(LeavesFrom(v, i), f);
      }
    }
  }

  /** A `{`, then text without `}`, then a `}`. */
  predicate BraceBlock(b: string)
  {
    |b| >= 2 && b[0] == '{' && b[|b| - 1] == '}' && '}' !in b[1..|b| - 1]
  }

  /** Each loose candidate is a `{`, then text without `}`, then the first `}` after it. */
  lemma LooseBlockShape(text: string, from: nat, k: nat)
    requires k < |AllMatches(text, "{", "}", from, false)|
    ensures var m := AllMatches(text, "{", "}", from, false)[k];
      BraceBlock(text[m.start..m.end])
  {
    var s := MatchFoundFrom(text, "{", "}", from, false, k);
    BraceMatchShape(text, s);
  }

  /** Each match in the list is the one a search started at some position finds. */
  lemma {:induction false} MatchFoundFrom(text: string, open: string, close: string, from: nat, ci: bool, k: nat)
    returns (s: nat)
    requires |open| > 0 && |close| > 0
    requires k < |AllMatches(text, open, close, from, ci)|
    ensures NextMatch(text, open, close, s, ci) == Some(AllMatches(text, open, close, from, ci)[k])
    decreases |text| - from
  {
    if k == 0 {
      AllMatchesFirst(text, open, close, from, ci);
      s := from;
    } else {
      AllMatchesLater(text, open, close, from, ci, k);
      s := MatchFoundFrom(text, open, close, NextMatch(text, open, close, from, ci).value.end, ci, k - 1);
    }
  }

  /** The first match is the one the search finds from `from`. */
  lemma AllMatchesFirst(text: string, open: string, close: string, from: nat, ci: bool)
    requires |open| > 0 && |close| > 0
    requires |AllMatches(text, open, close, from, ci)| > 0
    ensures NextMatch(text, open, close, from, ci) == Some(AllMatches(text, open, close, from, ci)[0])
  {
  }

  /** Past the first match, the matches are those of the search resumed at its end. */
  lemma AllMatchesLater(text: string, open: string, close: string, from: nat, ci: bool, k: nat)
    requires |open| > 0 && |close| > 0
    requires 0 < k < |AllMatches(text, open, close, from, ci)|
    ensures NextMatch(text, open, close, from, ci).Some?
    ensures var rest := AllMatches(text, open, close, NextMatch(text, open, close, from, ci).value.end, ci);
      k - 1 < |rest| && AllMatches(text, open, close, from, ci)[k] == rest[k - 1]
  {
  }

  /** The shape of one match of `{([\s\S]*?)}`. */
  lemma BraceMatchShape(text: string, from: nat)
    requires NextMatch(text, "{", "}", from, false).Some?
    ensures var m := NextMatch(text, "{", "}", from, false).value;
      BraceBlock(text[m.start..m.end])
  {
    var m0 := NextMatch(text, "{", "}", from, false).value;
    var b := text[m0.start..m0.end];
    assert CharEq(text[m0.start + 0], "{"[0], false);
    assert CharEq(text[m0.innerEnd + 0], "}"[0], false);
    forall q | 1 <= q < |b| - 1
      ensures b[q] != '}'
    {
      assert !OccursAt(text, "}", m0.start + q, false);
    }
  }

  /**
   * A reply holding one well-formed reservation block: the first `[JSON-RESERVA]` opens at
   * `p`, the first `[/JSON-RESERVA]` after it closes the block, and the block parses to an
   * object of type `#RESERVA#`. The text search returns exactly that object.
   */
  lemma ReservationBlockFound(text: string, parse: string -> Option<Json>, p: nat, q: nat)
    requires IndexOf(text, "[JSON-RESERVA]", 0, false) == Some(p)
    requires IndexOf(text, "[/JSON-RESERVA]", p + 14, false) == Some(q)
    requires Accepts(parse, ["#RESERVA#"], text[p + 14..q])
    ensures FirstCommandInText(text, parse) == parse(text[p + 14..q])
  {
    var tagged := TagCandidates(text);
    FirstReservaBlock(text, p, q);
    assert Kinds[0] == "#RESERVA#";
    TaggedBeforeLoose(tagged, LooseBlocks(text), parse, 0, 0);
  }

  /** The first `[JSON-RESERVA]` block is the text between the first opening tag and the first closing tag after it. */
  lemma FirstReservaBlock(text: string, p: nat, q: nat)
    requires IndexOf(text, "[JSON-RESERVA]", 0, false) == Some(p)
    requires IndexOf(text, "[/JSON-RESERVA]", p + 14, false) == Some(q)
    ensures |TagBlocks(text, TagNames[0])| > 0 && TagBlocks(text, TagNames[0])[0] == text[p + 14..q]
  {
    assert OpenTag(TagNames[0]) == "[JSON-RESERVA]";
    assert CloseTag(TagNames[0]) == "[/JSON-RESERVA]";
    var ms := AllMatches(text, "[JSON-RESERVA]", "[/JSON-RESERVA]", 0, false);
    assert ms[0] == Span(p, p + 14, q, q + 15);
  }
}

=== FILE: message_handler.dfy ===
/**
 * `processUserMessage` of `app.ts`: the user's message goes to the agent; a reply that
 * carries a reservation command (a tagged block first, then the block finder) has its date
 * checked, is sent to the reservation backend and its answer reported back to the agent,
 * whose answer reaches the user; any other reply is cleaned and sent to the user in chunks.
 * Whatever throws inside is reported and sends the user back to a welcome flow. The agent,
 * the backend, the clock and the library calls are inputs (`Env`).
 */
module MessageHandler {
  import opened Wrappers
  import opened Text
  import opened Json
  import opened JsonBlockFinder
  import opened Cleaning
  import opened Dates
  import opened Riservi
  import RP = ResponseProcessor

  // ---------------------------------------------------------------- the tagged blocks

  /** The tags in the order the handler tries them. */
  const TagPriority: seq<string> := ["JSON-DISPONIBLE", "JSON-RESERVA", "JSON-MODIFICAR", "JSON-CANCELAR"]

  /** `text.match(/\[tag\]([\s\S]*?)\[\/tag\]/)`: what the first block of the tag holds. */
  function TagContent(text: string, tag: string): Option<string>
  {
    match NextMatch(text, OpenTag(tag), CloseTag(tag), 0, false)
    case None => None
    case Some(m) => Some(text[m.innerStart..m.innerEnd])
  }

  /** The outcome of the tagged pass: no tag has a block, the chosen block does not parse, or its value. */
  datatype TagParse = NoTag | Malformed | Parsed(value: Json)

  /** The first tag that has a block decides; the later tags are not looked at. */
  function TagPass(text: string, parse: string -> Option<Json>, tags: seq<string>): TagParse
  {
    if tags == [] then NoTag
    else
      match TagContent(text, tags[0])
      case None => TagPass(text, parse, tags[1..])
      case Some(c) => if parse(c).Some? then Parsed(parse(c).value) else Malformed
  }

  /** The tagged pass finds nothing exactly when no tag has a block. */
  lemma {:induction false} TagPassNoTag(text: string, parse: string -> Option<Json>, tags: seq<string>)
    ensures TagPass(text, parse, tags).NoTag? <==> forall i :: 0 <= i < |tags| ==> TagContent(text, tags[i]).None?
  {
    if tags != [] {
      TagPassNoTag(text, parse, tags[1..]);
      assert forall i :: 1 <= i < |tags| ==> tags[i] == tags[1..][i - 1];
    }
  }

  /**
   * The first tag with a block decides, whatever the later tags hold: its content parsed,
   * or a malformed block, which does not fall through to the next tag.
   */
  lemma {:induction false} TagPassFirst(text: string, parse: string -> Option<Json>, tags: seq<string>, i: nat)
    requires i < |tags| && TagContent(text, tags[i]).Some?
    requires forall j :: 0 <= j < i ==> TagContent(text, tags[j]).None?
    ensures var c := TagContent(text, tags[i]).value;
      TagPass(text, parse, tags) == if parse(c).Some? then Parsed(parse(c).value) else Malformed
  {
    if i > 0 {
      assert TagContent(text, tags[0]).None?;
      assert forall j :: 0 <= j < i - 1 ==> tags[1..][j] == tags[j + 1];
      TagPassFirst(text, parse, tags[1..], i - 1);
    }
  }

  // ---------------------------------------------------------------- the command data

  /** `jsonData` once the tags and the block finder were consulted, or the early return on a malformed block. */
  datatype Extracted = Abandoned | Data(value: Option<Json>)

  /**
   * The block finder: the text search on `String(response)`, then, when it found nothing
   * and the reply is of object type, the deep search.
   */
  function Found(response: Json, parse: string -> Option<Json>): Option<Json>
  {
    var fromText := FirstCommandInText(JsString(response), parse);
    if !Truthy(fromText) && IsObjectType(response) then DeepFind(response, parse) else fromText
  }

  /** The tagged pass on `String(response)`; a falsy parsed value leaves the work to the block finder. */
  function Extract(response: Json, parse: string -> Option<Json>): Extracted
  {
    match TagPass(JsString(response), parse, TagPriority)
    case Malformed => Abandoned
    case Parsed(v) => if Truthy(Some(v)) then Data(Some(v)) else Data(Found(response, parse))
    case NoTag => Data(Found(response, parse))
  }

  /**
   * The first tag, in priority order, with a block in the reply decides: a block that does
   * not parse ends the handling, a truthy parsed value is the data and the block finder is
   * not consulted.
   */
  lemma TaggedBlockDecides(response: Json, parse: string -> Option<Json>, i: nat)
    requires i < |TagPriority| && TagContent(JsString(response), TagPriority[i]).Some?
    requires forall j :: 0 <= j < i ==> TagContent(JsString(response), TagPriority[j]).None?
    ensures var c := TagContent(JsString(response), TagPriority[i]).value;
      (parse(c).None? ==> Extract(response, parse) == Abandoned) &&
      (Truthy(parse(c)) ==> Extract(response, parse) == Data(parse(c))) &&
      (parse(c).Some? && !Truthy(parse(c)) ==> Extract(response, parse) == Data(Found(response, parse)))
  {
    TagPassFirst(JsString(response), parse, TagPriority, i);
  }

  /** With no tagged block in the reply, the data is whatever the block finder finds. */
  lemma UntaggedUsesFinder(response: Json, parse: string -> Option<Json>)
    requires forall i :: 0 <= i < |TagPriority| ==> TagContent(JsString(response), TagPriority[i]).None?
    ensures Extract(response, parse) == Data(Found(response, parse))
  {
    TagPassNoTag(JsString(response), parse, TagPriority);
  }

  /**
   * What the block finder finds is an object whose `type` is one of the five command kinds;
   * the deep search is consulted only for a reply of object type.
   */
  lemma FoundHasKind(response: Json, parse: string -> Option<Json>)
    requires Found(response, parse).Some?
    ensures var v := Found(response, parse).value;
      v.JObj? && Get(v, "type").Some? && Get(v, "type").value in RP.JStrs(Kinds)
    ensures Found(response, parse) != FirstCommandInText(JsString(response), parse) ==> IsObjectType(response)
  {
    var fromText := FirstCommandInText(JsString(response), parse);
    if !Truthy(fromText) && IsObjectType(response) {
      RP.DeepFindKnown(response, parse);
    } else {
      FirstCommandInTextKind(JsString(response), parse);
      RP.KnownKind(fromText.value);
    }
  }

  /** The branch `jsonData.type` selects. */
  datatype Branch = Availability | Booking | Modify | Cancel | PlainText

  /** `jsonData.type === "#DISPONIBLE#"` and so on: an exact comparison, without trimming. */
  function BranchOf(data: Option<Json>): Branch
  {
    if !Truthy(data) then PlainText
    else
      var t := Get(data.value, "type");
      if t == Some(JStr("#DISPONIBLE#")) then Availability
      else if t == Some(JStr("#RESERVA#")) then Booking
      else if t == Some(JStr("#MODIFICAR#")) then Modify
      else if t == Some(JStr("#CANCELAR#")) then Cancel
      else PlainText
  }

  /**
   * Every branch is for an object whose `type` is one of the command kinds; `#CONFIRMAR#`,
   * which the block finder accepts, has no branch and its reply is sent as text.
   */
  lemma BranchesAreKinds(data: Option<Json>)
    ensures BranchOf(data) != PlainText ==>
      (data.Some? && data.value.JObj? && Get(data.value, "type").Some? && Get(data.value, "type").value in RP.JStrs(Kinds))
    ensures Truthy(data) && Get(data.value, "type") == Some(JStr("#CONFIRMAR#")) ==> BranchOf(data) == PlainText
  {
    var ks := RP.JStrs(Kinds);
    assert ks[0] == JStr("#RESERVA#") && ks[1] == JStr("#DISPONIBLE#");
    assert ks[2] == JStr("#MODIFICAR#") && ks[3] == JStr("#CANCELAR#");
  }

  // ---------------------------------------------------------------- the date check

  /** The answer to a date in the past. */
  const PastDate := "La fecha debe ser igual o posterior a hoy. Por favor, elegí una fecha válida."

  /** The year correction and the future check: a throw, a date in the past, or the command that goes on. */
  datatype DateCheck = DateThrows(error: string) | InThePast | Upcoming(data: Json)

  /**
   * The start of the `#DISPONIBLE#` and `#RESERVA#` branches: `corregirFechaAnioVigente`
   * (which throws on a date that is not text or has fewer than three fields), the corrected
   * date written into the command when it differs, then `esFechaFutura` on it.
   */
  function CheckDate(data: Json, instant: int, year: nat, parseDate: string -> Option<int>): (r: DateCheck)
    requires data.JObj?
    ensures r.Upcoming? ==> r.data.JObj?
  {
    var original := Get(data, "date");
    match RP.CorrectedDate(original, year)
    case Err(e) => DateThrows(e)
    case Ok(c) =>
      var d := if original != Some(JStr(c)) then JObj(Put(data.fields, "date", JStr(c))) else data;
      if IsFuture(c, instant, parseDate) then Upcoming(d) else InThePast
  }

  /**
   * The command that goes on carries the original date with its year raised to at least
   * the current one, that date is not in the past, and no other member changed.
   */
  lemma UpcomingCommand(data: Json, instant: int, year: nat, parseDate: string -> Option<int>)
    requires data.JObj? && CheckDate(data, instant, year, parseDate).Upcoming?
    ensures var d := CheckDate(data, instant, year, parseDate).data;
      var original := Get(data, "date");
      original.Some? && original.value.JStr? && CorrectYear(original.value.s, year).Ok? &&
      d.JObj? && Get(d, "date") == Some(JStr(CorrectYear(original.value.s, year).value)) &&
      IsFuture(CorrectYear(original.value.s, year).value, instant, parseDate) &&
      (forall k :: k != "date" ==> Get(d, k) == Get(data, k))
  {
  }

  /** A date with a reading is not empty. */
  lemma ReadDateNotEmpty(s: string)
    requires ReadDate(s).Some?
    ensures s != []
  {
  }

  // ---------------------------------------------------------------- the availability branch

  /** `apiResponse?.response?.availability`. */
  function TimesList(api: Json): Option<Json>
  {
    GetOpt(Get(api, "response"), "availability")
  }

  /** `slot.time` of every slot whose `available` is truthy, in the order of the list. */
  function FreeSlotTimes(slots: seq<Json>): (r: seq<Option<Json>>)
    ensures |r| <= |slots|
  {
    if slots == [] then []
    else (if Truthy(Get(slots[0], "available")) then [Get(slots[0], "time")] else []) + FreeSlotTimes(slots[1..])
  }

  /** The times of two lists one after the other are the times of the first, then those of the second. */
  lemma {:induction false} FreeSlotTimesAppend(a: seq<Json>, b: seq<Json>)
    ensures FreeSlotTimes(a + b) == FreeSlotTimes(a) + FreeSlotTimes(b)
  {
    if a != [] {
      var s := a + b;
      assert s[0] == a[0] && s[1..] == a[1..] + b;
      FreeSlotTimesAppend(a[1..], b);
      var head := if Truthy(Get(a[0], "available")) then [Get(a[0], "time")] else [];
      assert FreeSlotTimes(s) == head + FreeSlotTimes(a[1..] + b);
      assert head + (FreeSlotTimes(a[1..]) + FreeSlotTimes(b)) == (head + FreeSlotTimes(a[1..])) + FreeSlotTimes(b);
    } else {
      assert a + b == b;
    }
  }

  /** A time is listed exactly when some available slot has it. */
  lemma {:induction false} FreeSlotTimesMembers(slots: seq<Json>, t: Option<Json>)
    ensures t in FreeSlotTimes(slots) <==>
      exists i :: 0 <= i < |slots| && Truthy(Get(slots[i], "available")) && Get(slots[i], "time") == t
  {
    if slots != [] {
      FreeSlotTimesMembers(slots[1..], t);
      assert forall i :: 1 <= i < |slots| ==> slots[i] == slots[1..][i - 1];
      if t in FreeSlotTimes(slots[1..]) {
        var i :| 0 <= i < |slots[1..]| && Truthy(Get(slots[1..][i], "available")) && Get(slots[1..][i], "time") == t;
        assert slots[i + 1] == slots[1..][i];
      }
    }
  }

  /**
   * `availability.filter(slot => slot.available).map(slot => slot.time)` when the list is
   * truthy: only an array has `filter`, and reading `available` of a null slot throws.
   */
  function FreeTimes(av: Option<Json>): (r: Result<seq<Option<Json>>>)
    ensures r.Err? <==> Truthy(av) && (!av.value.JArr? || JNull in av.value.items)
    ensures r.Ok? && Truthy(av) ==> forall t :: t in r.value <==>
      exists i :: 0 <= i < |av.value.items| && Truthy(Get(av.value.items[i], "available")) && Get(av.value.items[i], "time") == t
    ensures r.Ok? && !Truthy(av) ==> r.value == []
  {
    assert Truthy(av) && av.value.JArr? ==> forall t :: t in FreeSlotTimes(av.value.items) <==>
      exists i :: 0 <= i < |av.value.items| && Truthy(Get(av.value.items[i], "available")) && Get(av.value.items[i], "time") == t by {
      if Truthy(av) && av.value.JArr? {
        forall t {
          FreeSlotTimesMembers(av.value.items, t);
        }
      }
    }
    if !Truthy(av) then Ok([])
    else if !av.value.JArr? then Err("TypeError: availability.filter is not a function")
    else if JNull in av.value.items then Err("TypeError: Cannot read properties of null (reading 'available')")
    else Ok(FreeSlotTimes(av.value.items))
  }

  /** An element of `join(', ')`: null and undefined print as nothing. */
  function TimeText(t: Option<Json>): string
  {
    if t.None? || t.value.JNull? then [] else JsString(t.value)
  }

  const TimesPrefix := "Horarios disponibles para tu reserva: "
  const BriefFallback := "Por favor, responde aunque sea brevemente."

  /** `resumen`: the free times, or the message that there are none. */
  function Summary(times: seq<Option<Json>>): string
  {
    if |times| > 0 then TimesPrefix + RP.JoinComma(seq(|times|, i requires 0 <= i < |times| => TimeText(times[i])))
    else RP.NoTimes
  }

  /** `pedirDatos`. */
  function DetailsRequest(date: Option<Json>, partySize: Option<Json>): string
  {
    "Por favor, completa los datos restantes para la reserva del " + JsStringOpt(date) + " para " +
    JsStringOpt(partySize) + " personas (nombre, teléfono, email, etc)."
  }

  /** What the agent is asked after the availability query: the details request when date and party size are truthy, the summary otherwise. */
  function AvailabilityReport(data: Json, times: seq<Option<Json>>): RP.Ask
  {
    var date, size := Get(data, "date"), Get(data, "partySize");
    if Truthy(date) && Truthy(size) then RP.Ask(DetailsRequest(date, size), None)
    else RP.Ask(Summary(times), Some(BriefFallback))
  }

  /**
   * After the date check the date is always truthy, so the summary of free times reaches
   * the agent only when the party size is falsy; otherwise the agent is asked for the
   * remaining details and the times are not reported.
   */
  lemma SummaryOnlyWithoutPartySize(data: Json, instant: int, year: nat, parseDate: string -> Option<int>, times: seq<Option<Json>>)
    requires data.JObj? && CheckDate(data, instant, year, parseDate).Upcoming?
    ensures var d := CheckDate(data, instant, year, parseDate).data;
      AvailabilityReport(d, times) ==
        if Truthy(Get(data, "partySize")) then RP.Ask(DetailsRequest(Get(d, "date"), Get(data, "partySize")), None)
        else RP.Ask(Summary(times), Some(BriefFallback))
  {
    UpcomingDateTruthy(data, instant, year, parseDate);
  }

  /** The command that goes on has a truthy date and the original party size. */
  lemma UpcomingDateTruthy(data: Json, instant: int, year: nat, parseDate: string -> Option<int>)
    requires data.JObj? && CheckDate(data, instant, year, parseDate).Upcoming?
    ensures var d := CheckDate(data, instant, year, parseDate).data;
      Truthy(Get(d, "date")) && Get(d, "partySize") == Get(data, "partySize")
  {
    UpcomingCommand(data, instant, year, parseDate);
    ReadDateNotEmpty(CorrectYear(Get(data, "date").value.s, year).value);
    UpcomingKeeps(data, instant, year, parseDate, "partySize");
  }

  /** The date check writes no member other than `date`. */
  lemma UpcomingKeeps(data: Json, instant: int, year: nat, parseDate: string -> Option<int>, k: string)
    requires data.JObj? && CheckDate(data, instant, year, parseDate).Upcoming? && k != "date"
    ensures Get(CheckDate(data, instant, year, parseDate).data, k) == Get(data, k)
  {
    var c := RP.CorrectedDate(Get(data, "date"), year).value;
    if Get(data, "date") != Some(JStr(c)) {
      assert Lookup(Put(data.fields, "date", JStr(c)), k) == Lookup(data.fields, k);
    }
  }

  // ---------------------------------------------------------------- the other branches

  /** `updateReservationById(jsonData.id, jsonData.date, jsonData.partySize)`: its answer, or what it throws. */
  function UpdateOutcome(data: Json, env: Env): Result<Json>
  {
    var id, date := Get(data, "id"), Get(data, "date");
    UpdateReservation(if date.Some? then date.value else JNull, Get(data, "partySize"), env.now, env.parseMoment,
                      env.getBooking(id), p => env.put(id, p))
  }

  // ---------------------------------------------------------------- the handler

  /** The sender: `ctx.from`, `ctx.body`, and whether `ctx.type` is a voice note. */
  datatype Ctx = Ctx(from: string, body: string, voiceNote: bool)

  /** The welcome flows the `catch` sends the user back to. */
  datatype Flow = WelcomeTxt | WelcomeVoice

  /** How the handling ends: it returns the state, or it was caught and goes to a flow. */
  datatype Outcome = Returned | Redirected(flow: Flow)

  /** What the handler depends on and cannot see. */
  datatype Env = Env(
    parse: string -> Option<Json>,            // JSON.parse; None when it throws
    stringify: Json -> string,                // JSON.stringify
    now: DateTime,                            // the current moment
    instant: int,                             // `new Date()` as a time value
    parseDate: string -> Option<int>,         // `new Date(s)`; None is an Invalid Date
    parseMoment: Json -> Option<DateTime>,    // moment's parse of a date
    reply: nat -> Result<Json>,               // how the k-th call of getAssistantResponse settles
    checkAvailability: (Option<Json>, Option<Json>) -> HttpOutcome,
    post: Payload -> HttpOutcome,
    getBooking: Option<Json> -> HttpOutcome,
    put: (Option<Json>, Payload) -> HttpOutcome,
    cancel: Option<Json> -> HttpOutcome)

  const NoReply := "No se recibió respuesta del asistente."

  function FlowFor(ctx: Ctx): Flow
  {
    if ctx.voiceNote then WelcomeVoice else WelcomeTxt
  }

  /** What a reply without a command is sent as: the cleaned text in chunks, unless it is blank. */
  function PlainMessages(text: string): seq<string>
  {
    var clean := StripJsonBlocks(text);
    if |Trim(clean)| > 0 then Chunks(clean) else []
  }

  /** The blank-text guard changes nothing: the messages are the chunks of the cleaned text. */
  lemma PlainMessagesAreChunks(text: string)
    ensures PlainMessages(text) == Chunks(StripJsonBlocks(text))
  {
    if |Trim(StripJsonBlocks(text))| == 0 {
      BlankSendsNothing(StripJsonBlocks(text));
    }
  }

  /** What the agent's answer to a report is sent as, when it is truthy: one message, cleaned and trimmed. */
  function AnswerMessages(answer: Json): seq<string>
  {
    if Truthy(Some(answer)) then [Trim(StripJsonBlocks(JsString(answer)))] else []
  }

  /** The error a result carries, if any. */
  function ErrorOf<T>(r: Result<T>): Option<string>
  {
    if r.Err? then Some(r.error) else None
  }

  /** The four logs at one moment. */
  datatype Logs = Logs(sent: seq<string>, asked: seq<RP.Ask>, calls: seq<RP.Call>, reports: seq<string>)

  /** The report of a falsy reply. */
  function Noted(response: Json): seq<string>
  {
    if Truthy(Some(response)) then [] else [NoReply]
  }

  /**
   * What the handler has done in the conversation: the messages sent to the user, the
   * requests to the agent, the calls to the backend and the errors reported.
   */
  class Conversation {
    var sent: seq<string>
    var asked: seq<RP.Ask>
    var calls: seq<RP.Call>
    var reports: seq<string>

    constructor ()
      ensures sent == [] && asked == [] && calls == [] && reports == []
    {
      sent := [];
      asked := [];
      calls := [];
      reports := [];
    }

    function Snapshot(): Logs
      reads this
    {
      Logs(sent, asked, calls, reports)
    }

    /** The logs only grow. */
    twostate predicate Grown()
      reads this
    {
      old(sent) <= sent && old(asked) <= asked && old(calls) <= calls && old(reports) <= reports
    }

    /** The `catch`: the error was reported after the reports of `before`, and the user goes to the welcome flow. */
    predicate Caught(ctx: Ctx, error: string, before: Logs, out: Outcome)
      reads this
    {
      reports == before.reports + [error] && out == Redirected(FlowFor(ctx))
    }

    /**
     * After `before`: the agent was asked `ask`; a rejected request was caught, otherwise
     * the answer was sent on and the handling returned. Nothing was requested from the backend.
     */
    predicate ReportedBack(ask: RP.Ask, ctx: Ctx, env: Env, before: Logs, out: Outcome)
      reads this
    {
      var r := env.reply(|before.asked|);
      asked == before.asked + [ask] && calls == before.calls &&
      (r.Err? ==> sent == before.sent && Caught(ctx, r.error, before, out)) &&
      (r.Ok? ==> sent == before.sent + AnswerMessages(r.value) && reports == before.reports && out == Returned)
    }

    /**
     * After `before`, the backend call `call` was made; when what followed it threw `error`,
     * that was caught, otherwise its answer was reported to the agent as `ask`.
     */
    predicate Requested(call: RP.Call, error: Option<string>, ask: RP.Ask, ctx: Ctx, env: Env, before: Logs, out: Outcome)
      reads this
    {
      var b := before.(calls := before.calls + [call]);
      (error.Some? ==> calls == b.calls && asked == b.asked && sent == b.sent && Caught(ctx, error.value, b, out)) &&
      (error.None? ==> ReportedBack(ask, ctx, env, b, out))
    }

    /** After `before`, the availability query for `data` and its report. */
    predicate Queried(data: Json, ctx: Ctx, env: Env, before: Logs, out: Outcome)
      reads this
    {
      var date, size := Get(data, "date"), Get(data, "partySize");
      Listed(RP.Check(date, size), FreeTimes(TimesList(Settle(env.checkAvailability(date, size)))), data, ctx, env, before, out)
    }

    /** After `before`, the query `call` whose free times are `times`, and its report. */
    predicate Listed(call: RP.Call, times: Result<seq<Option<Json>>>, data: Json, ctx: Ctx, env: Env, before: Logs, out: Outcome)
      reads this
    {
      Requested(call, ErrorOf(times), AvailabilityReport(data, if times.Ok? then times.value else []), ctx, env, before, out)
    }

    /** After `before`, the booking of `data` and its report. */
    ghost predicate Booked(data: Json, ctx: Ctx, env: Env, before: Logs, out: Outcome)
      reads this
    {
      data.JObj? && |calls| > |before.calls| && calls[|before.calls|].Create? && calls[|before.calls|].data == data &&
      var created := calls[|before.calls|].result;
      (created.Err? <==> !PartySizeOk(data.fields) || AreaThrows(data.fields)) &&
      (created.Ok? ==> exists p :: IsExpected(p, data.fields, env.now, env.parseMoment) && created.value == CreateAnswer(env.post(p))) &&
      Requested(calls[|before.calls|], ErrorOf(created), RP.Ask(RP.AsText(if created.Ok? then created.value else JNull, env.stringify), None),
                ctx, env, before, out)
    }

    /** After `before`, the outcome `check` of the date check and, for a date that is not in the past, the query or the booking. */
    ghost predicate Dated(check: DateCheck, booking: bool, ctx: Ctx, env: Env, before: Logs, out: Outcome)
      reads this
    {
      match check
      case DateThrows(e) => sent == before.sent && asked == before.asked && calls == before.calls && Caught(ctx, e, before, out)
      case InThePast =>
        sent == before.sent + [PastDate] && asked == before.asked && calls == before.calls && reports == before.reports &&
        out == Returned
      case Upcoming(d) => if booking then Booked(d, ctx, env, before, out) else Queried(d, ctx, env, before, out)
    }

    /** After `before`, what the command data `data` of the reply whose text is `text` led to. */
    ghost predicate Acted(data: Option<Json>, text: string, ctx: Ctx, env: Env, before: Logs, out: Outcome)
      reads this
    {
      match BranchOf(data)
      case PlainText =>
        sent == before.sent + PlainMessages(text) && asked == before.asked && calls == before.calls &&
        reports == before.reports && out == Returned
      case Availability =>
        data.Some? && data.value.JObj? && Dated(CheckDate(data.value, env.instant, env.now.year, env.parseDate), false, ctx, env, before, out)
      case Booking =>
        data.Some? && data.value.JObj? && Dated(CheckDate(data.value, env.instant, env.now.year, env.parseDate), true, ctx, env, before, out)
      case Modify => data.Some? && Updated(data.value, ctx, env, before, out)
      case Cancel => data.Some? && Cancelled(data.value, ctx, env, before, out)
    }

    /** After `before`, the update that `data` asks for and its report. */
    predicate Updated(data: Json, ctx: Ctx, env: Env, before: Logs, out: Outcome)
      reads this
    {
      var u := UpdateOutcome(data, env);
      Requested(RP.Update(Get(data, "id"), Get(data, "date"), Get(data, "partySize")), ErrorOf(u),
                RP.Ask(RP.AsText(if u.Ok? then u.value else JNull, env.stringify), None), ctx, env, before, out)
    }

    /** After `before`, the cancellation that `data` asks for and its report. */
    predicate Cancelled(data: Json, ctx: Ctx, env: Env, before: Logs, out: Outcome)
      reads this
    {
      var api := Settle(env.cancel(Get(data, "id")));
      Requested(RP.Cancel(Get(data, "id")), None, RP.Ask(RP.AsText(api, env.stringify), None), ctx, env, before, out)
    }

    /** After `before`, what the reply `response` led to: nothing more for a malformed tagged block. */
    ghost predicate Responded(response: Json, ctx: Ctx, env: Env, before: Logs, out: Outcome)
      reads this
    {
      match Extract(response, env.parse)
      case Abandoned => Snapshot() == before && out == Returned
      case Data(data) => Acted(data, JsString(response), ctx, env, before, out)
    }

    /**
     * `processUserMessage`: the message goes to the agent, and a rejected request is
     * caught; a falsy reply is reported and handled all the same.
     */
    method ProcessUserMessage(ctx: Ctx, env: Env) returns (out: Outcome)
      modifies this
      ensures Grown()
      ensures |asked| > |old(asked)| && asked[|old(asked)|] == RP.Ask(ctx.body, None)
      ensures env.reply(|old(asked)|).Err? ==>
        sent == old(sent) && asked == old(asked) + [RP.Ask(ctx.body, None)] && calls == old(calls) &&
        reports == old(reports) + [env.reply(|old(asked)|).error] && out == Redirected(FlowFor(ctx))
      ensures env.reply(|old(asked)|).Ok? ==>
        var response := env.reply(|old(asked)|).value;
        Responded(response, ctx, env, Logs(old(sent), old(asked) + [RP.Ask(ctx.body, None)], old(calls), old(reports) + Noted(response)), out)
    {
      var k := |asked|;
      asked := asked + [RP.Ask(ctx.body, None)];
      var r := env.reply(k);
      if r.Err? {
        reports := reports + [r.error];
        return Redirected(FlowFor(ctx));
      }
      reports := reports + Noted(r.value);
      ghost var before := Snapshot();
      assert before == Logs(old(sent), old(asked) + [RP.Ask(ctx.body, None)], old(calls), old(reports) + Noted(r.value));
      out := Respond(r.value, ctx, env);
    }

    /** The `catch`. */
    method Fail(ctx: Ctx, error: string) returns (out: Outcome)
      modifies this`reports
      ensures reports == old(reports) + [error] && out == Redirected(FlowFor(ctx))
    {
      reports := reports + [error];
      out := Redirected(FlowFor(ctx));
    }

    /** The reply once it arrived: the early return on a malformed tagged block, or the command data it carries. */
    method Respond(response: Json, ctx: Ctx, env: Env) returns (out: Outcome)
      modifies this
      ensures Grown()
      ensures Responded(response, ctx, env, old(Snapshot()), out)
    {
      var extracted := Extract(response, env.parse);
      if extracted.Abandoned? {
        return Returned;
      }
      out := Act(extracted.value, JsString(response), ctx, env);
    }

    /** The branch the command data selects, or the plain-text path. */
    method Act(data: Option<Json>, text: string, ctx: Ctx, env: Env) returns (out: Outcome)
      modifies this
      ensures Grown()
      ensures Acted(data, text, ctx, env, old(Snapshot()), out)
    {
      var branch := BranchOf(data);
      if branch == PlainText {
        out := SendPlain(text);
      } else if branch == Availability || branch == Booking {
        BranchesAreKinds(data);
        out := CheckFirst(data.value, branch == Booking, ctx, env);
      } else {
        BranchesAreKinds(data);
        if branch == Modify {
          out := Update(data.value, ctx, env);
        } else {
          out := CancelBooking(data.value, ctx, env);
        }
      }
    }

    /** The two branches that start with the date check. */
    method CheckFirst(data: Json, booking: bool, ctx: Ctx, env: Env) returns (out: Outcome)
      requires data.JObj?
      modifies this
      ensures Grown()
      ensures Dated(CheckDate(data, env.instant, env.now.year, env.parseDate), booking, ctx, env, old(Snapshot()), out)
    {
      out := DateFirst(CheckDate(data, env.instant, env.now.year, env.parseDate), booking, ctx, env);
    }

    /** The plain-text path: the cleaned text, when not blank, in chunks. */
    method SendPlain(text: string) returns (out: Outcome)
      modifies this`sent
      ensures sent == old(sent) + PlainMessages(text) && out == Returned
    {
      var clean := StripJsonBlocks(text);
      if |Trim(clean)| > 0 {
        var chunks := SendChunks(clean);
        sent := sent + chunks;
      }
      return Returned;
    }

    /** After the date check: the answer to a date in the past, or the query or the booking. */
    method DateFirst(check: DateCheck, booking: bool, ctx: Ctx, env: Env) returns (out: Outcome)
      requires check.Upcoming? ==> check.data.JObj?
      modifies this
      ensures Grown()
      ensures Dated(check, booking, ctx, env, old(Snapshot()), out)
    {
      match check
      case DateThrows(e) =>
        out := Fail(ctx, e);
      case InThePast =>
        sent := sent + [PastDate];
        out := Returned;
      case Upcoming(d) =>
        if booking {
          out := Book(d, ctx, env);
        } else {
          out := Query(d, ctx, env);
        }
    }

    /** `getAssistantResponse` with a report, and its answer on to the user. */
    method ReportBack(ask: RP.Ask, ctx: Ctx, env: Env) returns (out: Outcome)
      modifies this`asked, this`sent, this`reports
      ensures Grown()
      ensures ReportedBack(ask, ctx, env, old(Snapshot()), out)
    {
      var k := |asked|;
      asked := asked + [ask];
      var r := env.reply(k);
      if r.Err? {
        out := Fail(ctx, r.error);
        return;
      }
      sent := sent + AnswerMessages(r.value);
      out := Returned;
    }

    /** `checkAvailability`, the free times of its answer, and the report. */
    method Query(data: Json, ctx: Ctx, env: Env) returns (out: Outcome)
      modifies this
      ensures Grown()
      ensures Queried(data, ctx, env, old(Snapshot()), out)
    {
      var date, size := Get(data, "date"), Get(data, "partySize");
      var times := FreeTimes(TimesList(Settle(env.checkAvailability(date, size))));
      out := List(RP.Check(date, size), times, data, ctx, env);
    }

    /** The query `call` made, whose free times are `times`: the throw, or the report. */
    method List(call: RP.Call, times: Result<seq<Option<Json>>>, data: Json, ctx: Ctx, env: Env) returns (out: Outcome)
      modifies this
      ensures Grown()
      ensures Listed(call, times, data, ctx, env, old(Snapshot()), out)
    {
      calls := calls + [call];
      if times.Err? {
        out := Fail(ctx, times.error);
        return;
      }
      out := ReportBack(AvailabilityReport(data, times.value), ctx, env);
    }

    /** `createReservation` and the report of its answer as text. */
    method Book(data: Json, ctx: Ctx, env: Env) returns (out: Outcome)
      requires data.JObj?
      modifies this
      ensures Grown()
      ensures Booked(data, ctx, env, old(Snapshot()), out)
    {
      var created, sent := CreateReservation(data.fields, env.now, env.parseMoment, env.post);
      calls := calls + [RP.Create(data, created)];
      if created.Err? {
        out := Fail(ctx, created.error);
        return;
      }
      assert IsExpected(sent.value, data.fields, env.now, env.parseMoment);
      out := ReportBack(RP.Ask(RP.AsText(created.value, env.stringify), None), ctx, env);
    }

    /** `updateReservationById` and the report of its answer as text. */
    method Update(data: Json, ctx: Ctx, env: Env) returns (out: Outcome)
      modifies this
      ensures Grown()
      ensures Updated(data, ctx, env, old(Snapshot()), out)
    {
      var u := UpdateOutcome(data, env);
      calls := calls + [RP.Update(Get(data, "id"), Get(data, "date"), Get(data, "partySize"))];
      if u.Err? {
        out := Fail(ctx, u.error);
        return;
      }
      out := ReportBack(RP.Ask(RP.AsText(u.value, env.stringify), None), ctx, env);
    }

    /** `cancelReservationById`, which never throws, and the report of its answer as text. */
    method CancelBooking(data: Json, ctx: Ctx, env: Env) returns (out: Outcome)
      modifies this
      ensures Grown()
      ensures Cancelled(data, ctx, env, old(Snapshot()), out)
    {
      var api := Settle(env.cancel(Get(data, "id")));
      calls := calls + [RP.Cancel(Get(data, "id"))];
      out := ReportBack(RP.Ask(RP.AsText(api, env.stringify), None), ctx, env);
    }
  }
}

=== FILE: response_processor.dfy ===
/**
 * `AssistantResponseProcessor.analizarYProcesarRespuestaAsistente`: what the bot does with
 * one reply of the agent. It finds the command the reply carries (an `[API]` block first,
 * then the block finder), calls the reservation backend for it, reports the outcome back to
 * the agent and analyses the agent's answer in turn; a reply without a command is cleaned
 * and sent to the user in chunks. The agent, the backend and the library calls are inputs
 * (`Env`); each re-entry into the analysis spends one unit of fuel.
 */
module ResponseProcessor {
  import opened Wrappers
  import opened Text
  import opened Json
  import opened JsonBlockFinder
  import opened Cleaning
  import opened Dates
  import opened Riservi

  // ---------------------------------------------------------------- finding the command

  /** `typeof response === "string" ? response : String(response || "")`. */
  function ResponseText(response: Json): string
  {
    if response.JStr? then response.s else if Truthy(Some(response)) then JsString(response) else ""
  }

  /**
   * `/\[API\](.*?)\[\/API\]/is`: the trimmed content of the first `[API]` block, in any
   * letter case, closed by the first closing tag after it.
   */
  function ApiBlock(text: string): Option<string>
  {
    match NextMatch(text, "[API]", "[/API]", 0, true)
    case None => None
    case Some(m) => Some(Trim(text[m.innerStart..m.innerEnd]))
  }

  /**
   * There is a block exactly when an opening tag is followed, at or after its end, by a
   * closing tag; the block is the trimmed text between two such tags.
   */
  lemma ApiBlockFound(text: string)
    ensures ApiBlock(text).None? <==>
      forall p, q :: p + 5 <= q && OccursAt(text, "[API]", p, true) ==> !OccursAt(text, "[/API]", q, true)
    ensures ApiBlock(text).Some? ==> exists p: nat, q: nat ::
      (p + 5 <= q <= |text| && OccursAt(text, "[API]", p, true) && OccursAt(text, "[/API]", q, true) &&
       ApiBlock(text).value == Trim(text[p + 5..q]))
  {
  }

  /** A command the processor acts on: the parsed object and its trimmed `type`. */
  datatype Command = Command(data: Json, kind: string)

  /** `jsonData && typeof jsonData.type === "string"`, with `tipo = jsonData.type.trim()`. */
  function AsCommand(jsonData: Option<Json>): (r: Option<Command>)
    ensures r.Some? <==> Truthy(jsonData) && Get(jsonData.value, "type").Some? && Get(jsonData.value, "type").value.JStr?
    ensures r.Some? ==> (r.value.data == jsonData.value && r.value.data.JObj? &&
      r.value.kind == Trim(Get(jsonData.value, "type").value.s))
  {
    if Truthy(jsonData) then
      var t := Get(jsonData.value, "type");
      if t.Some? && t.value.JStr? then Some(Command(jsonData.value, Trim(t.value.s))) else None
    else None
  }

  /**
   * The heuristic fallback: the block finder on the text, then, when the reply is of
   * object type, the deep search.
   */
  function Fallback(response: Json, parse: string -> Option<Json>): Option<Json>
  {
    Or(FirstCommandInText(ResponseText(response), parse), if IsObjectType(response) then DeepFind(response, parse) else None)
  }

  /**
   * Steps 1 and 2: the parsed `[API]` block when it is truthy (a parse error counts as
   * null), otherwise the fallback.
   */
  function ExtractCommand(response: Json, parse: string -> Option<Json>): Option<Command>
  {
    var block := ApiBlock(ResponseText(response));
    var fromBlock := if block.Some? then parse(block.value) else None;
    AsCommand(if Truthy(fromBlock) then fromBlock else Fallback(response, parse))
  }

  /**
   * The heuristic finder is consulted only when the `[API]` block is absent or does not
   * parse to a truthy value; a block that parses to an object with a text `type` decides.
   */
  lemma ApiBlockFirst(response: Json, parse: string -> Option<Json>)
    ensures var block := ApiBlock(ResponseText(response));
      (block.Some? && Truthy(parse(block.value)) ==> ExtractCommand(response, parse) == AsCommand(parse(block.value))) &&
      (block.None? || !Truthy(parse(block.value)) ==> ExtractCommand(response, parse) == AsCommand(Fallback(response, parse)))
  {
  }

  /**
   * Without an `[API]` block, every command comes from the finder: an object whose `type`
   * is one of the five command kinds.
   */
  lemma FallbackCommandsAreKnown(response: Json, parse: string -> Option<Json>)
    requires ApiBlock(ResponseText(response)).None?
    requires ExtractCommand(response, parse).Some?
    ensures var c := ExtractCommand(response, parse).value;
      c.data.JObj? && Get(c.data, "type").Some? && Get(c.data, "type").value in JStrs(Kinds)
  {
    var text := ResponseText(response);
    var found := Fallback(response, parse);
    if Truthy(FirstCommandInText(text, parse)) {
      FirstCommandInTextKind(text, parse);
      KnownKind(FirstCommandInText(text, parse).value);
    } else {
      assert IsObjectType(response);
      DeepFindKnown(response, parse);
    }
  }

  /** The kinds as JSON strings. */
  function JStrs(ks: seq<string>): (r: seq<Json>)
    ensures |r| == |ks| && forall i :: 0 <= i < |ks| ==> r[i] == JStr(ks[i])
  {
    seq(|ks|, i requires 0 <= i < |ks| => JStr(ks[i]))
  }

  lemma KnownKind(v: Json)
    requires v.JObj? && HasKind(v, Kinds)
    ensures Get(v, "type").Some? && Get(v, "type").value in JStrs(Kinds)
  {
    var i :| 0 <= i < |Kinds| && Get(v, "type") == Some(JStr(Kinds[i]));
    assert JStrs(Kinds)[i] == JStr(Kinds[i]);
  }

  /** Whatever the deep search finds, the text search found in some string inside the value. */
  lemma {:induction false} DeepFindKnown(v: Json, parse: string -> Option<Json>)
    requires DeepFind(v, parse).Some?
    ensures DeepFind(v, parse).value.JObj? && Get(DeepFind(v, parse).value, "type").Some?
    ensures Get(DeepFind(v, parse).value, "type").value in JStrs(Kinds)
    decreases v, 1
  {
    if v.JStr? {
      FirstCommandInTextKind(v.s, parse);
      KnownKind(DeepFind(v, parse).value);
    } else {
      DeepFindFromKnown(v, 0, parse);
    }
  }

  lemma {:induction false} DeepFindFromKnown(v: Json, i: nat, parse: string -> Option<Json>)
    requires DeepFindFrom(v, i, parse).Some?
    ensures Get(DeepFindFrom(v, i, parse).value, "type").Some?
    ensures Get(DeepFindFrom(v, i, parse).value, "type").value in JStrs(Kinds)
    decreases v, 0, |Children(v)| - i
  {
    var found := DeepFind(Children(v)[i], parse);
    if Truthy(found) {
      DeepFindKnown(Children(v)[i], parse);
    } else {
      DeepFindFromKnown(v, i + 1, parse);
    }
  }

  // ---------------------------------------------------------------- availability

  /** `apiResponse?.response?.response?.availability`. */
  function AvailabilityOf(api: Json): Option<Json>
  {
    GetOpt(GetOpt(Get(api, "response"), "response"), "availability")
  }

  /**
   * What `for (const slot of availability)` visits: an array's elements, a string's
   * characters; any other value is not iterable and the loop throws.
   */
  function Slots(av: Json): (r: Option<seq<Json>>)
    ensures r.Some? <==> av.JArr? || av.JStr?
  {
    match av
    case JArr(items) => Some(items)
    case JStr(s) => Some(seq(|s|, i requires 0 <= i < |s| => JStr([s[i]])))
    case _ => None
  }

  /** The formatted time of every slot whose `available` is truthy, in response order. */
  function AvailableTimes(slots: seq<Json>, format: Option<Json> -> string): (r: seq<string>)
    ensures |r| <= |slots|
    ensures forall t :: t in r <==> exists i :: 0 <= i < |slots| && Truthy(Get(slots[i], "available")) && format(Get(slots[i], "time")) == t
  {
    if slots == [] then []
    else
      var init := slots[..|slots| - 1];
      var last := slots[|slots| - 1];
      var rest := AvailableTimes(init, format);
      assert forall i :: 0 <= i < |init| ==> init[i] == slots[i];
      if Truthy(Get(last, "available")) then rest + [format(Get(last, "time"))] else rest
  }

  /** The slot has the queried time and is available. */
  predicate IsExact(slot: Json, queryTime: string, format: Option<Json> -> string)
  {
    format(Get(slot, "time")) == queryTime && Truthy(Get(slot, "available"))
  }

  /** Some slot has the queried time and is available. */
  predicate ExactSlot(slots: seq<Json>, queryTime: string, format: Option<Json> -> string)
    ensures ExactSlot(slots, queryTime, format) <==> exists i :: 0 <= i < |slots| && IsExact(slots[i], queryTime, format)
  {
    if slots == [] then false
    else
      var init := slots[..|slots| - 1];
      assert forall i :: 0 <= i < |init| ==> init[i] == slots[i];
      ExactSlot(init, queryTime, format) || IsExact(slots[|slots| - 1], queryTime, format)
  }

  /** An exactly available time is also among the available times. */
  lemma ExactIsAvailable(slots: seq<Json>, queryTime: string, format: Option<Json> -> string)
    requires ExactSlot(slots, queryTime, format)
    ensures queryTime in AvailableTimes(slots, format)
  {
  }

  const NullSlot := "TypeError: Cannot read properties of null (reading 'time')"

  /**
   * The loop over the slots: `disponibilidadExacta` and `horariosDisponibles`. Reading
   * `slot.time` on a null slot throws.
   */
  method ClassifySlots(slots: seq<Json>, queryTime: string, format: Option<Json> -> string)
    returns (r: Result<(bool, seq<string>)>)
    ensures r.Err? <==> JNull in slots
    ensures r.Err? ==> r.error == NullSlot
    ensures r.Ok? ==> r.value == (ExactSlot(slots, queryTime, format), AvailableTimes(slots, format))
  {
    var exact := false;
    var times: seq<string> := [];
    for i := 0 to |slots|
      invariant JNull !in slots[..i]
      invariant exact <==> ExactSlot(slots[..i], queryTime, format)
      invariant times == AvailableTimes(slots[..i], format)
    {
      var slot := slots[i];
      if slot.JNull? {
        return Err(NullSlot);
      }
      assert slots[..i + 1][..i] == slots[..i];
      var slotTime := format(Get(slot, "time"));
      if slotTime == queryTime && Truthy(Get(slot, "available")) {
        assert IsExact(slot, queryTime, format);
        exact := true;
      }
      if Truthy(Get(slot, "available")) {
        times := times + [slotTime];
      }
    }
    assert slots[..|slots|] == slots;
    return Ok((exact, times));
  }

  /** `list.join(", ")`. */
  function JoinComma(ts: seq<string>): string
  {
    if ts == [] then [] else if |ts| == 1 then ts[0] else ts[0] + ", " + JoinComma(ts[1..])
  }

  /** `${jsonData.date}` and the like. */
  function Field(data: Json, key: string): string
  {
    JsStringOpt(Get(data, key))
  }

  /**
   * The error summary: `apiResponse.error || JSON.stringify(apiResponse.errors)` when the
   * answer is truthy and has a truthy `error` or `errors`.
   */
  function ErrorSummary(api: Json, stringify: Json -> string): (r: Option<string>)
    ensures r.Some? <==> Truthy(Some(api)) && (Truthy(Get(api, "error")) || Truthy(Get(api, "errors")))
    ensures r.Some? && Truthy(Get(api, "error")) ==> r.value == JsString(Get(api, "error").value)
    ensures r.Some? && !Truthy(Get(api, "error")) ==> r.value == stringify(Get(api, "errors").value)
  {
    if Truthy(Some(api)) && (Truthy(Get(api, "error")) || Truthy(Get(api, "errors"))) then
      if Truthy(Get(api, "error")) then Some(JsString(Get(api, "error").value))
      else Some(stringify(Get(api, "errors").value))
    else None
  }

  /** A message for the agent, with the fallback instruction of its system prompt. */
  datatype Ask = Ask(message: string, fallback: Option<string>)

  const NoTimes := "No hay horarios disponibles para la fecha y cantidad de personas solicitadas."

  /** How the availability answer is classified. */
  datatype Availability = Exact | Alternatives(times: seq<string>) | NoneFree(summary: string)

  /**
   * The three-way decision: the exact slot first, then the alternatives, then no
   * availability, reported as the API's error when the answer carries one.
   */
  function Classify(exact: bool, times: seq<string>, api: Json, stringify: Json -> string): (r: Availability)
    ensures r.Exact? <==> exact
    ensures r.Alternatives? <==> !exact && times != []
    ensures r.Alternatives? ==> r.times == times
    ensures r.NoneFree? && ErrorSummary(api, stringify).Some? ==> r.summary == "Error de la API: " + ErrorSummary(api, stringify).value
    ensures r.NoneFree? && ErrorSummary(api, stringify).None? ==> r.summary == NoTimes
  {
    if exact then Exact
    else if times != [] then Alternatives(times)
    else
      match ErrorSummary(api, stringify)
      case Some(e) => NoneFree("Error de la API: " + e)
      case None => NoneFree(NoTimes)
  }

  /** The message the availability outcome is reported to the agent with. */
  function AvailabilityAsk(data: Json, a: Availability): Ask
  {
    match a
    case Exact => Ask("Disponibilidad confirmada para " + Field(data, "date") + " y " + Field(data, "partySize") +
      " personas. Por favor, procede con la reserva o confirma los datos restantes con el usuario.", None)
    case Alternatives(times) => Ask("No hay disponibilidad exacta para " + Field(data, "date") +
      ". Horarios alternativos disponibles: " + JoinComma(times), Some("Por favor, informa al usuario sobre las alternativas."))
    case NoneFree(summary) => Ask(summary, Some("Por favor, informa al usuario que no hay disponibilidad."))
  }

  /**
   * The classification of an availability answer for the command `data`, as the source
   * reaches it: no availability list means no slots; a list that cannot be iterated or
   * holds a null slot throws.
   */
  function AvailabilityOutcome(data: Json, api: Json, format: Option<Json> -> string, stringify: Json -> string): (r: Result<Availability>)
    ensures r.Err? <==> Truthy(AvailabilityOf(api)) && (Slots(AvailabilityOf(api).value).None? || JNull in Slots(AvailabilityOf(api).value).value)
    ensures !Truthy(AvailabilityOf(api)) ==> r.Ok? && !r.value.Exact? && !r.value.Alternatives?
  {
    var av := AvailabilityOf(api);
    if !Truthy(av) then Ok(Classify(false, [], api, stringify))
    else
      match Slots(av.value)
      case None => Err("TypeError: availability is not iterable")
      case Some(slots) =>
        if JNull in slots then Err(NullSlot)
        else
          var q := format(Get(data, "date"));
          Ok(Classify(ExactSlot(slots, q, format), AvailableTimes(slots, format), api, stringify))
  }

  /**
   * The classification as the branch computes it: no availability list leaves the flags
   * unset, otherwise the loop over the slots decides them.
   */
  method ClassifyAvailability(data: Json, api: Json, format: Option<Json> -> string, stringify: Json -> string)
    returns (r: Result<Availability>)
    ensures r == AvailabilityOutcome(data, api, format, stringify)
  {
    var av := AvailabilityOf(api);
    var exact, times := false, [];
    if Truthy(av) {
      var slots := Slots(av.value);
      if slots.None? {
        return Err("TypeError: availability is not iterable");
      }
      var c := ClassifySlots(slots.value, format(Get(data, "date")), format);
      if c.Err? {
        return Err(c.error);
      }
      exact, times := c.value.0, c.value.1;
    }
    return Ok(Classify(exact, times, api, stringify));
  }

  /**
   * The three-way classification read off the slots: the exact answer when some slot has the
   * queried time and is available; otherwise the alternatives, every available time in
   * response order, when there is one; otherwise no availability.
   */
  lemma AvailabilityThreeWay(data: Json, slots: seq<Json>, api: Json, format: Option<Json> -> string, stringify: Json -> string)
    requires AvailabilityOf(api) == Some(JArr(slots)) && JNull !in slots
    ensures var q := format(Get(data, "date"));
      var r := AvailabilityOutcome(data, api, format, stringify);
      r.Ok? &&
      (r.value.Exact? <==> ExactSlot(slots, q, format)) &&
      (r.value.Alternatives? <==> !ExactSlot(slots, q, format) && AvailableTimes(slots, format) != []) &&
      (r.value.Alternatives? ==> r.value.times == AvailableTimes(slots, format))
  {
  }

  // ---------------------------------------------------------------- the reservation outcome

  /**
   * `apiResponse && (apiResponse.reservaId || apiResponse.id || apiResponse.bookingId ||
   * apiResponse.reservationId)`, as far as its truthiness and value go.
   */
  function ResponseId(api: Json): (r: Option<Json>)
    ensures r.Some? ==> Truthy(r)
    ensures r.Some? <==> Truthy(Some(api)) && exists i :: 0 <= i < |IdKeys| && Truthy(Get(api, IdKeys[i]))
    ensures r.Some? ==>
      exists i :: 0 <= i < |IdKeys| && r == Get(api, IdKeys[i]) && forall j :: 0 <= j < i ==> !Truthy(Get(api, IdKeys[j]))
  {
    if Truthy(Some(api)) then
      var cands := [Get(api, "reservaId"), Get(api, "id"), Get(api, "bookingId"), Get(api, "reservationId")];
      assert forall i :: 0 <= i < |IdKeys| ==> cands[i] == Get(api, IdKeys[i]);
      FirstTruthy(cands)
    else None
  }

  /** The keys the processor reads a reservation id from, in the order it tries them. */
  const IdKeys: seq<string> := ["reservaId", "id", "bookingId", "reservationId"]

  /**
   * The id the processor reads off the answer `createReservation` builds from a 2xx body is
   * the id `createReservation` extracted, and there is none exactly when it found none.
   */
  lemma CreatedIdIsRead(data: Json)
    requires data.JObj?
    ensures ResponseId(CreateAnswer(Response(data))) == if Truthy(ReservaId(data)) then ReservaId(data) else None
  {
    var r := CreateAnswer(Response(data));
    AnswerKeepsIds(data);
    FirstOfFour(Get(r, "reservaId"), Get(r, "id"), Get(r, "bookingId"), Get(r, "reservationId"));
    if !Truthy(ReservaId(data)) {
      NoIdFields(data);
    }
  }

  lemma AnswerKeepsIds(data: Json)
    requires data.JObj?
    ensures var r := CreateAnswer(Response(data));
      r.JObj? && Get(r, "reservaId") == ReservaId(data) && Get(r, "id") == Get(data, "id") &&
      Get(r, "bookingId") == Get(data, "bookingId") && Get(r, "reservationId") == Get(data, "reservationId")
  {
    AnswerKeeps(data, "id");
    AnswerKeeps(data, "bookingId");
    AnswerKeeps(data, "reservationId");
  }

  /** The answer built from a 2xx object body keeps every member of the body but `reservaId`. */
  lemma AnswerKeeps(data: Json, k: string)
    requires data.JObj? && k != "reservaId"
    ensures var r := CreateAnswer(Response(data));
      r.JObj? && Get(r, "reservaId") == ReservaId(data) && Get(r, k) == Get(data, k)
  {
    assert CreateAnswer(Response(data)) == WithReservaId(data);
  }

  lemma NoIdFields(data: Json)
    requires !Truthy(ReservaId(data))
    ensures !Truthy(Get(data, "id")) && !Truthy(Get(data, "bookingId")) && !Truthy(Get(data, "reservationId"))
  {
    var c := IdCandidates(data);
    assert FirstTruthy(c).None?;
    assert !Truthy(c[0]) && !Truthy(c[1]) && !Truthy(c[2]);
  }

  lemma FirstOfFour(a: Option<Json>, b: Option<Json>, c: Option<Json>, d: Option<Json>)
    ensures Truthy(a) ==> FirstTruthy([a, b, c, d]) == a
    ensures !Truthy(a) && !Truthy(b) && !Truthy(c) && !Truthy(d) ==> FirstTruthy([a, b, c, d]) == None
  {
    var s := [a, b, c, d];
    assert s[1..] == [b, c, d];
  }

  const WaitMessage := "Ya estamos procesando una reserva. Espera la confirmación antes de solicitar otra."

  /** `typeof apiResponse === "string" ? apiResponse : JSON.stringify(apiResponse)`. */
  function AsText(api: Json, stringify: Json -> string): string
  {
    if api.JStr? then api.s else stringify(api)
  }

  /**
   * What the agent is told about a `createReservation` call: the thrown error, the error
   * the answer carries, the confirmed id, or the raw answer when no id came back.
   */
  function ReserveAsk(created: Result<Json>, stringify: Json -> string): (a: Ask)
  {
    match created
    case Err(e) => Ask("Error al crear la reserva: " + e + ". ¿Deseas volver a intentar la solicitud?", None)
    case Ok(api) =>
      match ErrorSummary(api, stringify)
      case Some(e) => Ask("La API devolvió un error al intentar crear la reserva: " + e, None)
      case None =>
        match ResponseId(api)
        case Some(id) => Ask("reserva confirmada con ID " + JsString(id), None)
        case None => Ask("No se recibió confirmación de la reserva. Respuesta API: " + stringify(api), None)
  }

  /**
   * A booking the backend accepted with an id and no error is reported to the agent as
   * confirmed with the id `createReservation` extracted.
   */
  lemma ConfirmedWithExtractedId(data: Json, stringify: Json -> string)
    requires data.JObj? && Truthy(ReservaId(data))
    requires !Truthy(Get(data, "error")) && !Truthy(Get(data, "errors"))
    ensures ReserveAsk(Ok(CreateAnswer(Response(data))), stringify).message ==
      "reserva confirmada con ID " + JsString(ReservaId(data).value)
  {
    CreatedIdIsRead(data);
    AnswerKeeps(data, "error");
    AnswerKeeps(data, "errors");
    ConfirmedAsk(CreateAnswer(Response(data)), stringify);
  }

  /** An answer without an error and with an id is reported as confirmed with that id. */
  lemma ConfirmedAsk(api: Json, stringify: Json -> string)
    requires !Truthy(Get(api, "error")) && !Truthy(Get(api, "errors")) && ResponseId(api).Some?
    ensures ReserveAsk(Ok(api), stringify).message == "reserva confirmada con ID " + JsString(ResponseId(api).value)
  {
  }

  // ---------------------------------------------------------------- the processor

  /** The sender: `ctx.type === 'webchat'` and `ctx.from`. */
  datatype Ctx = Ctx(webchat: bool, from: string)

  /** What the processor depends on and cannot see. */
  datatype Env = Env(
    parse: string -> Option<Json>,            // JSON.parse; None when it throws
    stringify: Json -> string,                // JSON.stringify
    formatTime: Option<Json> -> string,       // moment(v, formats).format("YYYY-MM-DD HH:mm")
    now: DateTime,                            // the current moment
    parseMoment: Json -> Option<DateTime>,    // moment's parse of a date
    reply: nat -> Result<Json>,               // how the k-th call of getAssistantResponse settles
    timerFired: nat -> bool,                  // the 1 s safety timer fired before the k-th answer is analysed
    checkAvailability: (Option<Json>, Option<Json>) -> HttpOutcome,
    post: Payload -> HttpOutcome,
    getBooking: Option<Json> -> HttpOutcome,
    put: (Option<Json>, Payload) -> HttpOutcome,
    cancel: Option<Json> -> HttpOutcome)

  /** A call to the backend. */
  datatype Call =
    | Check(date: Option<Json>, partySize: Option<Json>)
    | Create(data: Json, result: Result<Json>)
    | Update(id: Option<Json>, date: Option<Json>, partySize: Option<Json>)
    | Cancel(id: Option<Json>)
    | Confirm(id: Option<Json>)

  /**
   * How an analysis ends: it returns, its promise is rejected with an error, or it reaches
   * what this model does not follow (the fuel ran out, or the wait-and-poll phrase).
   */
  datatype Outcome = Done | Threw(error: string) | Unmodelled

  /** The announcement of the wait-and-poll phase. */
  const PollPhrase := "Voy a proceder a realizar la reserva."
  const ConfirmMissing := "confirmReservationById is not a function"

  /** The date correction of the availability branch; a date that is not text makes `split` throw. */
  function CorrectedDate(date: Option<Json>, year: nat): Result<string>
  {
    if date.Some? && date.value.JStr? then CorrectYear(date.value.s, year)
    else Err("TypeError: fechaReservaStr.split is not a function")
  }

  /** The answer an update, cancellation or confirmation is reported with. */
  function OperationAnswer(kind: string, data: Json, env: Env): Json
  {
    if kind == "#MODIFICAR#" then
      var date := Get(data, "date");
      match UpdateReservation(if date.Some? then date.value else JNull, Get(data, "partySize"),
                              env.now, env.parseMoment, env.getBooking(Get(data, "id")), p => env.put(Get(data, "id"), p))
      case Ok(v) => v
      case Err(e) => ErrorValue(e)
    else if kind == "#CANCELAR#" then Settle(env.cancel(Get(data, "id")))
    else ErrorValue(ConfirmMissing)
  }

  function OperationCall(kind: string, data: Json): Call
  {
    if kind == "#MODIFICAR#" then Update(Get(data, "id"), Get(data, "date"), Get(data, "partySize"))
    else if kind == "#CANCELAR#" then Cancel(Get(data, "id"))
    else Confirm(Get(data, "id"))
  }

  /** The kinds the processor has a branch for. */
  predicate Handled(kind: string)
  {
    kind == "#DISPONIBLE#" || kind == "#RESERVA#" || kind == "#MODIFICAR#" || kind == "#CANCELAR#" || kind == "#CONFIRMAR#"
  }

  /** The processor has a branch for exactly the kinds the block finder accepts. */
  lemma HandledAreKinds(kind: string)
    ensures Handled(kind) <==> kind in Kinds
  {
    assert Kinds == ["#RESERVA#", "#DISPONIBLE#", "#MODIFICAR#", "#CANCELAR#", "#CONFIRMAR#"];
  }

  /**
   * What the plain-text path sends: the reply without its `[API]` blocks, trimmed, in
   * chunks; `None` when it announces the wait-and-poll phase, which this model does not follow.
   */
  function PlainChunks(text: string): Option<seq<string>>
  {
    var clean := Trim(StripApiBlocks(text));
    if Contains(clean, PollPhrase) then None else Some(Chunks(clean))
  }

  /**
   * The plain-text path took the messages sent from `before` to `after` and ended with
   * `out`: the chunks were appended, or, for the wait-and-poll announcement, nothing was.
   */
  predicate PlainSent(text: string, before: seq<string>, after: seq<string>, out: Outcome)
  {
    match PlainChunks(text)
    case None => out == Unmodelled && after == before
    case Some(chunks) => out == Done && after == before + chunks
  }

  /**
   * The conversation state the processor works on: `userApiBlockMap`,
   * `state.reservaEnCurso`, and what has been sent to the user, asked of the agent and
   * requested from the backend.
   */
  class Processor {
    var blocked: set<string>
    var reservaEnCurso: bool
    var sent: seq<string>
    var asked: seq<Ask>
    var calls: seq<Call>

    constructor ()
      ensures blocked == {} && !reservaEnCurso && sent == [] && asked == [] && calls == []
    {
      blocked := {};
      reservaEnCurso := false;
      sent := [];
      asked := [];
      calls := [];
    }

    /** The logs only grow. */
    twostate predicate Grown()
      reads this
    {
      old(sent) <= sent && old(asked) <= asked && old(calls) <= calls
    }

    /**
     * The plain-text path ran on `text` and ended with `out`: the chunks were sent, and
     * nothing was asked, requested or blocked.
     */
    twostate predicate PlainPath(text: string, out: Outcome)
      reads this
    {
      asked == old(asked) && calls == old(calls) && blocked == old(blocked) && PlainSent(text, old(sent), sent, out)
    }

    /**
     * One reply of the agent. A blocked WhatsApp sender is ignored. A command blocks a
     * WhatsApp sender and runs its branch; an unknown kind, like a reply without a
     * command, ends in the plain-text path, which sends the cleaned reply in chunks.
     * Whatever happens, the reservation guard ends as it started.
     */
    method Analyze(response: Json, ctx: Ctx, env: Env, fuel: nat) returns (out: Outcome)
      modifies this
      decreases fuel, 7
      ensures Grown()
      ensures reservaEnCurso == old(reservaEnCurso)
      ensures !ctx.webchat && ctx.from in old(blocked) ==>
        out == Done && blocked == old(blocked) && sent == old(sent) && asked == old(asked) && calls == old(calls)
      ensures (ctx.webchat || ctx.from !in old(blocked)) && ExtractCommand(response, env.parse).None? ==>
        PlainPath(ResponseText(response), out)
    {
      if !ctx.webchat && ctx.from in blocked {
        return Done;
      }
      out := Route(ExtractCommand(response, env.parse), ResponseText(response), ctx, env, fuel);
    }

    /** The command found in the reply whose text is `text` runs; without one, the plain-text path. */
    method Route(cmd: Option<Command>, text: string, ctx: Ctx, env: Env, fuel: nat) returns (out: Outcome)
      requires cmd.Some? ==> cmd.value.data.JObj?
      modifies this
      decreases fuel, 6
      ensures Grown()
      ensures reservaEnCurso == old(reservaEnCurso)
      ensures cmd.None? ==> PlainPath(text, out)
    {
      if cmd.Some? {
        out := Dispatch(cmd.value, text, ctx, env, fuel);
      } else {
        out := SendPlain(text);
      }
    }

    /**
     * A command found in the reply whose text is `text`: the sender is blocked (a WhatsApp
     * sender with a non-empty number) and the branch of its kind runs; an unknown kind
     * takes the plain-text path.
     */
    method Dispatch(cmd: Command, text: string, ctx: Ctx, env: Env, fuel: nat) returns (out: Outcome)
      requires cmd.data.JObj?
      modifies this
      decreases fuel, 5
      ensures Grown()
      ensures reservaEnCurso == old(reservaEnCurso)
      ensures !Handled(cmd.kind) ==>
        asked == old(asked) && calls == old(calls) &&
        blocked == (if !ctx.webchat && ctx.from != "" then old(blocked) + {ctx.from} else old(blocked)) &&
        PlainSent(text, old(sent), sent, out)
    {
      var blocking := !ctx.webchat && ctx.from != "";
      if blocking {
        blocked := blocked + {ctx.from};
      }
      assert sent == old(sent) && asked == old(asked) && calls == old(calls);
      if cmd.kind == "#DISPONIBLE#" {
        out := Available(cmd.data, ctx, env, fuel);
      } else {
        out := OtherKinds(cmd, text, ctx, env, fuel, blocking);
      }
    }

    /** The branches after `#DISPONIBLE#`, and the plain-text path for an unknown kind. */
    method OtherKinds(cmd: Command, text: string, ctx: Ctx, env: Env, fuel: nat, blocking: bool) returns (out: Outcome)
      requires cmd.data.JObj?
      modifies this
      decreases fuel, 4
      ensures Grown()
      ensures reservaEnCurso == old(reservaEnCurso)
      ensures !Handled(cmd.kind) ==> PlainPath(text, out)
    {
      var kind := cmd.kind;
      if kind == "#RESERVA#" {
        out := Reserve(cmd.data, ctx, env, fuel, blocking);
      } else if kind == "#MODIFICAR#" || kind == "#CANCELAR#" || kind == "#CONFIRMAR#" {
        out := Operate(kind, cmd.data, ctx, env, fuel, blocking);
      } else {
        out := SendPlain(text);
      }
    }

    /** The plain-text path. */
    method SendPlain(text: string) returns (out: Outcome)
      modifies this`sent
      ensures Grown()
      ensures PlainPath(text, out)
    {
      var clean := Trim(StripApiBlocks(text));
      if Contains(clean, PollPhrase) {
        return Unmodelled;
      }
      var chunks := SendChunks(clean);
      sent := sent + chunks;
      return Done;
    }

    /**
     * `getAssistantResponse` with `ask`, then, when the agent answers with a truthy value,
     * the analysis of that answer. A rejected call rejects the analysis.
     */
    method AskAndAnalyze(ask: Ask, ctx: Ctx, env: Env, fuel: nat) returns (out: Outcome)
      modifies this
      decreases fuel, 1
      ensures Grown()
      ensures reservaEnCurso == old(reservaEnCurso)
      ensures |asked| > |old(asked)| && asked[|old(asked)|] == ask
      ensures env.reply(|old(asked)|).Err? ==> out == Threw(env.reply(|old(asked)|).error)
      ensures out.Threw? && env.reply(|old(asked)|).Ok? ==> fuel > 0
    {
      var k := |asked|;
      asked := asked + [ask];
      var reply := env.reply(k);
      if reply.Err? {
        return Threw(reply.error);
      }
      out := Continue(reply.value, k, ctx, env, fuel);
    }

    /**
     * The agent's answer to the `k`-th request: a falsy answer ends the round; otherwise
     * the safety timer may have unblocked the sender meanwhile, and the answer is analysed.
     */
    method Continue(answer: Json, k: nat, ctx: Ctx, env: Env, fuel: nat) returns (out: Outcome)
      modifies this
      decreases fuel, 0
      ensures Grown()
      ensures reservaEnCurso == old(reservaEnCurso)
      ensures !Truthy(Some(answer)) ==> out == Done && sent == old(sent) && asked == old(asked) && calls == old(calls)
      ensures out.Threw? ==> fuel > 0
    {
      if !Truthy(Some(answer)) {
        return Done;
      }
      if !ctx.webchat && env.timerFired(k) {
        blocked := blocked - {ctx.from};
      }
      if fuel == 0 {
        return Unmodelled;
      }
      out := Analyze(answer, ctx, env, fuel - 1);
    }

    /**
     * The `#DISPONIBLE#` branch: the date correction (which throws on a malformed date),
     * the availability query, its classification, and the report to the agent. The user
     * stays blocked until the safety timer fires.
     */
    method Available(data: Json, ctx: Ctx, env: Env, fuel: nat) returns (out: Outcome)
      modifies this
      decreases fuel, 3
      ensures Grown()
      ensures reservaEnCurso == old(reservaEnCurso)
      ensures CorrectedDate(Get(data, "date"), env.now.year).Err? ==>
        out.Threw? && calls == old(calls) && asked == old(asked)
      ensures CorrectedDate(Get(data, "date"), env.now.year).Ok? ==> CheckedAndReported(data, env, old(calls), old(asked), out)
    {
      var corrected := CorrectedDate(Get(data, "date"), env.now.year);
      if corrected.Err? {
        return Threw(corrected.error);
      }
      out := CheckAndReport(data, ctx, env, fuel);
    }

    /**
     * What the availability query and its report left behind, from the logs `calls0` and
     * `asked0`: the query was logged, and the classification either threw or was reported
     * to the agent.
     */
    twostate predicate CheckedAndReported(data: Json, env: Env, calls0: seq<Call>, asked0: seq<Ask>, out: Outcome)
      reads this
    {
      var date, partySize := Get(data, "date"), Get(data, "partySize");
      var a := AvailabilityOutcome(data, Settle(env.checkAvailability(date, partySize)), env.formatTime, env.stringify);
      |calls| > |calls0| && calls[|calls0|] == Check(date, partySize) &&
      (a.Err? ==> out == Threw(a.error) && asked == asked0) &&
      (a.Ok? ==> |asked| > |asked0| && asked[|asked0|] == AvailabilityAsk(data, a.value))
    }

    /** The query, the classification of its answer and the report to the agent. */
    method CheckAndReport(data: Json, ctx: Ctx, env: Env, fuel: nat) returns (out: Outcome)
      modifies this
      decreases fuel, 2
      ensures Grown()
      ensures reservaEnCurso == old(reservaEnCurso)
      ensures CheckedAndReported(data, env, old(calls), old(asked), out)
    {
      var date, partySize := Get(data, "date"), Get(data, "partySize");
      calls := calls + [Check(date, partySize)];
      var api := Settle(env.checkAvailability(date, partySize));
      var a := ClassifyAvailability(data, api, env.formatTime, env.stringify);
      if a.Err? {
        return Threw(a.error);
      }
      ghost var k := |calls| - 1;
      out := AskAndAnalyze(AvailabilityAsk(data, a.value), ctx, env, fuel);
      assert calls[k] == Check(date, partySize);
    }

    /**
     * `createReservationQueue.enqueue(...)`: the queue hands the command to
     * `createReservation` and settles with its outcome, a throw included.
     */
    method Book(data: Json, env: Env) returns (created: Result<Json>)
      requires data.JObj?
      ensures created.Err? <==> !PartySizeOk(data.fields) || AreaThrows(data.fields)
      ensures !PartySizeOk(data.fields) ==> created == Err(MissingPartySize)
    {
      var r, _ := CreateReservation(data.fields, env.now, env.parseMoment, env.post);
      created := r;
    }

    /**
     * The body of the `#RESERVA#` branch's `try`: the booking through the queue and the
     * report of its outcome to the agent.
     */
    method CreateAndReport(data: Json, ctx: Ctx, env: Env, fuel: nat) returns (out: Outcome)
      requires data.JObj?
      modifies this
      decreases fuel, 2
      ensures Grown()
      ensures reservaEnCurso == old(reservaEnCurso)
      ensures |calls| > |old(calls)| && calls[|old(calls)|].Create? && calls[|old(calls)|].data == data
      ensures |asked| > |old(asked)| && asked[|old(asked)|] == ReserveAsk(calls[|old(calls)|].result, env.stringify)
      ensures env.reply(|old(asked)|).Err? ==> out.Threw?
    {
      var created := Book(data, env);
      calls := calls + [Create(data, created)];
      out := AskAndAnalyze(ReserveAsk(created, env.stringify), ctx, env, fuel);
    }

    /**
     * The `#RESERVA#` branch with the guard released on every way out, a rejected report
     * included (a `finally`). While a reservation is in progress it only sends the wait
     * message: no backend call, nothing asked of the agent.
     */
    method Reserve(data: Json, ctx: Ctx, env: Env, fuel: nat, blocking: bool) returns (out: Outcome)
      requires data.JObj?
      modifies this
      decreases fuel, 3
      ensures Grown()
      ensures reservaEnCurso == old(reservaEnCurso)
      ensures old(reservaEnCurso) ==>
        out == Done && sent == old(sent) + [WaitMessage] && asked == old(asked) && calls == old(calls) && blocked == old(blocked)
      ensures !old(reservaEnCurso) ==>
        |calls| > |old(calls)| && calls[|old(calls)|].Create? && calls[|old(calls)|].data == data &&
        |asked| > |old(asked)| && asked[|old(asked)|] == ReserveAsk(calls[|old(calls)|].result, env.stringify)
    {
      if reservaEnCurso {
        sent := sent + [WaitMessage];
        return Done;
      }
      reservaEnCurso := true;
      out := CreateAndReport(data, ctx, env, fuel);
      reservaEnCurso := false;
      if blocking {
        blocked := blocked - {ctx.from};
      }
      if !out.Threw? {
        out := Done;
      }
    }

    /**
     * The `#RESERVA#` branch as written: the guard is released after the report returns,
     * so when the report is rejected it stays set.
     */
    method ReserveAsWritten(data: Json, ctx: Ctx, env: Env, fuel: nat, blocking: bool) returns (out: Outcome)
      requires data.JObj?
      modifies this
      ensures old(reservaEnCurso) ==> reservaEnCurso && out == Done && sent == old(sent) + [WaitMessage] && calls == old(calls)
      ensures !old(reservaEnCurso) && out.Threw? ==> reservaEnCurso
      ensures !old(reservaEnCurso) && !out.Threw? ==> !reservaEnCurso
      ensures !old(reservaEnCurso) && env.reply(|old(asked)|).Err? ==> out.Threw?
    {
      if reservaEnCurso {
        sent := sent + [WaitMessage];
        return Done;
      }
      reservaEnCurso := true;
      out := CreateAndReport(data, ctx, env, fuel);
      if out.Threw? {
        return;
      }
      reservaEnCurso := false;
      if blocking {
        blocked := blocked - {ctx.from};
      }
      out := Done;
    }

    /**
     * The `#MODIFICAR#`, `#CANCELAR#` and `#CONFIRMAR#` branches: the backend call (a thrown
     * error becomes `{ error }`), the unblocking in its `finally`, and the report of the
     * answer, as text, to the agent.
     */
    method Operate(kind: string, data: Json, ctx: Ctx, env: Env, fuel: nat, blocking: bool) returns (out: Outcome)
      modifies this
      decreases fuel, 2
      ensures Grown()
      ensures reservaEnCurso == old(reservaEnCurso)
      ensures |calls| > |old(calls)| && calls[|old(calls)|] == OperationCall(kind, data)
      ensures |asked| > |old(asked)| && asked[|old(asked)|] == Ask(AsText(OperationAnswer(kind, data, env), env.stringify), None)
    {
      var api := OperationAnswer(kind, data, env);
      calls := calls + [OperationCall(kind, data)];
      if blocking {
        blocked := blocked - {ctx.from};
      }
      out := AskAndAnalyze(Ask(AsText(api, env.stringify), None), ctx, env, fuel);
    }
  }

  // ---------------------------------------------------------------- the stuck guard

  /** An environment where the agent's first answer is rejected. */
  function RejectingAgent(): Env
  {
    Env(_ => None, _ => "", _ => "", DateTime(2025, 1, 1, 0, 0, 0, 0), _ => None,
        _ => Err("Timeout"), _ => false, (_, _) => NoResponse(""), _ => NoResponse("Network Error"),
        _ => NoResponse(""), (_, _) => NoResponse(""), _ => NoResponse(""))
  }

  /**
   * A reservation whose report to the agent is rejected: as written the guard stays set,
   * and the next reservation of the conversation gets only the wait message.
   */
  method StuckGuardAsWritten() returns (stuck: bool, refused: bool)
    ensures stuck && refused
  {
    var p := new Processor();
    var booking := JObj([("type", JStr("#RESERVA#")), ("partySize", JNum(2))]);
    var ctx := Ctx(false, "5491100000000");
    var out := p.ReserveAsWritten(booking, ctx, RejectingAgent(), 3, true);
    stuck := p.reservaEnCurso;
    var before := |p.calls|;
    var again := p.Reserve(booking, ctx, RejectingAgent(), 3, true);
    refused := |p.calls| == before && p.sent[|p.sent| - 1] == WaitMessage;
  }

  /** The same reservation with the guard released in a `finally`: the next one is processed. */
  method GuardReleased() returns (released: bool, processed: bool)
    ensures released && processed
  {
    var p := new Processor();
    var booking := JObj([("type", JStr("#RESERVA#")), ("partySize", JNum(2))]);
    var ctx := Ctx(false, "5491100000000");
    var out := p.Reserve(booking, ctx, RejectingAgent(), 3, true);
    released := !p.reservaEnCurso;
    var before := |p.calls|;
    var again := p.Reserve(booking, ctx, RejectingAgent(), 3, true);
    processed := |p.calls| > before;
  }
}

=== FILE: riservi.dfy ===
/**
 * The client of the reservation backend (`riservi.ts`) with the HTTP calls taken out: each
 * call is the outcome it ends with, passed in. What is modelled is the request a function
 * builds, the checks that throw before any request, and how the answer or the failure is
 * turned into the value the function returns.
 */
module Riservi {
  import opened Wrappers
  import opened Text
  import opened Json
  import opened Dates

  // ---------------------------------------------------------------- HTTP outcomes

  /** How an axios call ends. */
  datatype HttpOutcome =
    | Response(data: Json)          // a 2xx answer: `response.data`
    | ErrorResponse(data: Json)     // an error status: `error.response.data`
    | NoResponse(message: string)   // no answer at all; `String(error)`

  /** `{ error: text }`. */
  function ErrorValue(text: string): (r: Json)
    ensures Get(r, "error") == Some(JStr(text))
  {
    JObj([("error", JStr(text))])
  }

  /**
   * The `catch` every client function ends with: the backend's error body when there is
   * one, otherwise `{ error: String(error) }`. None of them throws on a failed request.
   */
  function Settle(o: HttpOutcome): (r: Json)
    ensures o.NoResponse? ==> Get(r, "error") == Some(JStr(o.message))
    ensures !o.NoResponse? ==> r == o.data
  {
    match o
    case Response(data) => data
    case ErrorResponse(data) => data
    case NoResponse(message) => ErrorValue(message)
  }

  /** A request body: JSON drops members whose value is undefined, so only present members are kept. */
  type Payload = map<string, Json>

  function MapGet(p: Payload, k: string): Option<Json>
  {
    if k in p then Some(p[k]) else None
  }

  // ---------------------------------------------------------------- createReservation: the payload

  // The messages of the errors `createReservation` throws (their `message` property).
  const MissingPartySize := "Faltan los siguientes datos para la reserva: partySize"
  const AreaNotText := "reserva.preferredArea.toLowerCase is not a function"

  /** `'partySize' in reserva && typeof reserva.partySize === 'number' && reserva.partySize > 0`. */
  predicate PartySizeOk(reserva: seq<(string, Json)>)
  {
    var p := Lookup(reserva, "partySize");
    p.Some? && p.value.JNum? && p.value.n > 0
  }

  /** The members copied when truthy before `notes`, in the order they are assigned. */
  const CopiedKeys: seq<string> := ["reserveName", "reserveLastname", "reserveEmail", "reservePhone", "reserveBirthday", "preferredLang"]

  /** The members copied when truthy after `preferredArea`. */
  const LaterKeys: seq<string> := ["utmParams", "promoCode", "eventTypeId", "eventSourceId", "tags"]

  /** The members of a suggested variant copied whenever they are defined. */
  const ExtraKeys: seq<string> := [
    "shift", "slotId", "turno", "turn", "availabilityId", "tableId", "area", "service", "serviceId",
    "time", "hour", "dateTime", "bookingToken"
  ]

  /** `if (x) payload.k = x`: the value when truthy, otherwise absent. */
  function TruthyOnly(v: Option<Json>): (r: Option<Json>)
    ensures r.Some? <==> Truthy(v)
    ensures r.Some? ==> r == v
  {
    if Truthy(v) then v else None
  }

  /** moment's parse followed by `isValid()`. */
  function ValidMoment(parseMoment: Json -> Option<DateTime>, v: Json): (r: Option<DateTime>)
    ensures r.Some? ==> ValidDateTime(r.value)
  {
    var m := parseMoment(v);
    if m.Some? && ValidDateTime(m.value) then m else None
  }

  /**
   * `payload.date`: a parsable date, its year raised to the current one, formatted
   * "YYYY-MM-DD HH:mm"; an unparsable truthy date verbatim; otherwise absent.
   */
  function DateField(date: Option<Json>, now: DateTime, parseMoment: Json -> Option<DateTime>): (r: Option<Json>)
    ensures r.Some? <==> Truthy(date)
    ensures Truthy(date) && ValidMoment(parseMoment, date.value).None? ==> r == date
  {
    if !Truthy(date) then None
    else
      match ValidMoment(parseMoment, date.value)
      case None => date
      case Some(m) => Some(JStr(FormatMinute(RaiseYear(m, now.year))))
  }

  /** `preferredArea` is truthy and not text, so `toLowerCase` is not a function. */
  predicate AreaThrows(reserva: seq<(string, Json)>)
  {
    var a := Lookup(reserva, "preferredArea");
    Truthy(a) && !a.value.JStr?
  }

  /** `preferredArea` is text whose lower-case form contains "no fumadores". */
  predicate NonSmoking(reserva: seq<(string, Json)>)
  {
    var a := Lookup(reserva, "preferredArea");
    Truthy(a) && a.value.JStr? && Contains(Lower(a.value.s), "no fumadores")
  }

  /** `payload.notes`: the truthy notes, with a non-smoking area appended after a space. */
  function NotesField(reserva: seq<(string, Json)>): Option<Json>
  {
    var notes := Lookup(reserva, "notes");
    if NonSmoking(reserva) then
      var prefix := if Truthy(notes) then JsString(notes.value) + " " else "";
      Some(JStr(prefix + Lookup(reserva, "preferredArea").value.s))
    else TruthyOnly(notes)
  }

  /** `payload.preferredArea`: a truthy area that is not a non-smoking one. */
  function AreaField(reserva: seq<(string, Json)>): Option<Json>
  {
    if NonSmoking(reserva) then None else TruthyOnly(Lookup(reserva, "preferredArea"))
  }

  /** The member `k` of the request `createReservation` sends for `reserva`. */
  function Expected(reserva: seq<(string, Json)>, now: DateTime, parseMoment: Json -> Option<DateTime>, k: string): Option<Json>
  {
    if k == "date" then DateField(Lookup(reserva, "date"), now, parseMoment)
    else if k == "partySize" then Lookup(reserva, "partySize")
    else if k == "notes" then NotesField(reserva)
    else if k == "preferredArea" then AreaField(reserva)
    else if k in CopiedKeys || k in LaterKeys then TruthyOnly(Lookup(reserva, k))
    else if k in ExtraKeys then Lookup(reserva, k)
    else None
  }

  /** No key is listed twice, and the three lists share no key with each other or with the special members. */
  lemma KeyListsDisjoint()
    ensures forall i, j :: 0 <= i < j < |ExtraKeys| ==> ExtraKeys[i] != ExtraKeys[j]
    ensures forall k :: k in ExtraKeys ==> k !in CopiedKeys && k !in LaterKeys
    ensures forall k :: k in CopiedKeys ==> k !in LaterKeys
    ensures forall k :: k in CopiedKeys || k in LaterKeys || k in ExtraKeys ==>
      k != "date" && k != "partySize" && k != "notes" && k != "preferredArea"
  {
    ExtraKeysDistinct();
    ExtraKeysApart();
    CopiedKeysApart();
    NoSpecialKey(CopiedKeys);
    NoSpecialKey(LaterKeys);
    NoSpecialKey(ExtraKeys);
  }

  lemma ExtraKeysDistinct()
    ensures forall i, j :: 0 <= i < j < |ExtraKeys| ==> ExtraKeys[i] != ExtraKeys[j]
  {
  }

  lemma ExtraKeysApart()
    ensures forall k :: k in ExtraKeys ==> k !in CopiedKeys && k !in LaterKeys
  {
  }

  lemma CopiedKeysApart()
    ensures forall k :: k in CopiedKeys ==> k !in LaterKeys
  {
  }

  lemma NoSpecialKey(keys: seq<string>)
    requires keys == CopiedKeys || keys == LaterKeys || keys == ExtraKeys
    ensures forall k :: k in keys ==> k != "date" && k != "partySize" && k != "notes" && k != "preferredArea"
  {
  }

  /** `for (const k of keys) if (reserva[k]) payload[k] = reserva[k]`. */
  method CopyTruthy(payload: Payload, reserva: seq<(string, Json)>, keys: seq<string>) returns (p: Payload)
    ensures forall k :: MapGet(p, k) == if k in keys && Truthy(Lookup(reserva, k)) then Lookup(reserva, k) else MapGet(payload, k)
  {
    p := payload;
    for i := 0 to |keys|
      invariant forall k :: MapGet(p, k) == if k in keys[..i] && Truthy(Lookup(reserva, k)) then Lookup(reserva, k) else MapGet(payload, k)
    {
      var v := Lookup(reserva, keys[i]);
      if Truthy(v) {
        p := p[keys[i] := v.value];
      }
      assert keys[..i + 1] == keys[..i] + [keys[i]];
    }
    assert keys[..|keys|] == keys;
  }

  /**
   * The `extraKeys` loop: a key defined on `reserva` (null included) is copied unless the
   * payload already has it; the keys are distinct, so that check sees the payload as it was
   * before the loop.
   */
  method CopyDefined(payload: Payload, reserva: seq<(string, Json)>, keys: seq<string>) returns (p: Payload)
    requires forall i, j :: 0 <= i < j < |keys| ==> keys[i] != keys[j]
    ensures forall k :: MapGet(p, k) == if k in keys && k !in payload && Lookup(reserva, k).Some? then Lookup(reserva, k) else MapGet(payload, k)
  {
    p := payload;
    for i := 0 to |keys|
      invariant forall k :: MapGet(p, k) == if k in keys[..i] && k !in payload && Lookup(reserva, k).Some? then Lookup(reserva, k) else MapGet(payload, k)
    {
      var key := keys[i];
      var v := Lookup(reserva, key);
      assert key !in keys[..i];
      assert key in p <==> key in payload;
      if v.Some? && key !in p {
        p := p[key := v.value];
      }
      assert keys[..i + 1] == keys[..i] + [keys[i]];
    }
    assert keys[..|keys|] == keys;
  }

  /** The `date` handling: parse, raise an earlier year to the current one, format; keep an unparsable date. */
  method DateMember(date: Option<Json>, now: DateTime, parseMoment: Json -> Option<DateTime>) returns (r: Option<Json>)
    ensures r == DateField(date, now, parseMoment)
  {
    if !Truthy(date) {
      return None;
    }
    var moment := ValidMoment(parseMoment, date.value);
    if moment.None? {
      return date;
    }
    var m := moment.value;
    if m.year < now.year {
      m := WithYear(m, now.year);
    }
    return Some(JStr(FormatMinute(m)));
  }

  /**
   * `notes`, then `preferredArea`: a non-text truthy area throws; a non-smoking one is
   * appended to the notes, any other truthy area is sent as is.
   */
  method NotesAndArea(payload: Payload, reserva: seq<(string, Json)>) returns (r: Result<Payload>)
    requires "notes" !in payload && "preferredArea" !in payload
    ensures r.Err? <==> AreaThrows(reserva)
    ensures r.Err? ==> r.error == AreaNotText
    ensures r.Ok? ==> forall k :: MapGet(r.value, k) == if k == "notes" then NotesField(reserva) else if k == "preferredArea" then AreaField(reserva) else MapGet(payload, k)
  {
    var p := payload;
    var notes := Lookup(reserva, "notes");
    if Truthy(notes) {
      p := p["notes" := notes.value];
    }
    var area := Lookup(reserva, "preferredArea");
    if Truthy(area) && !area.value.JStr? {
      return Err(AreaNotText);
    }
    if Truthy(area) && Contains(Lower(area.value.s), "no fumadores") {
      var prefix := if "notes" in p then JsString(p["notes"]) + " " else "";
      p := p["notes" := JStr(prefix + area.value.s)];
    } else if Truthy(area) {
      p := p["preferredArea" := area.value];
    }
    return Ok(p);
  }

  /** The stages of `createReservation`'s payload, member by member, add up to the expected request. */
  lemma StagesGiveExpected(reserva: seq<(string, Json)>, now: DateTime, parseMoment: Json -> Option<DateTime>,
                           first: Payload, copied: Payload, middle: Payload, late: Payload, last: Payload)
    requires forall k :: MapGet(first, k) == if k == "date" then DateField(Lookup(reserva, "date"), now, parseMoment) else if k == "partySize" then Lookup(reserva, k) else None
    requires forall k :: MapGet(copied, k) == if k in CopiedKeys && Truthy(Lookup(reserva, k)) then Lookup(reserva, k) else MapGet(first, k)
    requires forall k :: MapGet(middle, k) == if k == "notes" then NotesField(reserva) else if k == "preferredArea" then AreaField(reserva) else MapGet(copied, k)
    requires forall k :: MapGet(late, k) == if k in LaterKeys && Truthy(Lookup(reserva, k)) then Lookup(reserva, k) else MapGet(middle, k)
    requires forall k :: MapGet(last, k) == if k in ExtraKeys && k !in late && Lookup(reserva, k).Some? then Lookup(reserva, k) else MapGet(late, k)
    ensures forall k :: MapGet(last, k) == Expected(reserva, now, parseMoment, k)
  {
    forall k
      ensures MapGet(last, k) == Expected(reserva, now, parseMoment, k)
    {
      StageAt(reserva, now, parseMoment, MapGet(first, k), MapGet(copied, k), MapGet(middle, k), MapGet(late, k), MapGet(last, k), k);
    }
  }

  /** The stages of one member of the request. */
  lemma StageAt(reserva: seq<(string, Json)>, now: DateTime, parseMoment: Json -> Option<DateTime>,
                first: Option<Json>, copied: Option<Json>, middle: Option<Json>, late: Option<Json>, last: Option<Json>, k: string)
    requires first == if k == "date" then DateField(Lookup(reserva, "date"), now, parseMoment) else if k == "partySize" then Lookup(reserva, k) else None
    requires copied == if k in CopiedKeys && Truthy(Lookup(reserva, k)) then Lookup(reserva, k) else first
    requires middle == if k == "notes" then NotesField(reserva) else if k == "preferredArea" then AreaField(reserva) else copied
    requires late == if k in LaterKeys && Truthy(Lookup(reserva, k)) then Lookup(reserva, k) else middle
    requires last == if k in ExtraKeys && late.None? && Lookup(reserva, k).Some? then Lookup(reserva, k) else late
    ensures last == Expected(reserva, now, parseMoment, k)
  {
    KeyListsDisjoint();
  }

  /** The request's `date` and `partySize`, set before anything else. */
  method FirstMembers(reserva: seq<(string, Json)>, now: DateTime, parseMoment: Json -> Option<DateTime>) returns (first: Payload)
    requires PartySizeOk(reserva)
    ensures forall k :: MapGet(first, k) == (if k == "date" then DateField(Lookup(reserva, "date"), now, parseMoment)
                                             else if k == "partySize" then Lookup(reserva, k) else None)
  {
    var date := DateMember(Lookup(reserva, "date"), now, parseMoment);
    first := map[];
    if date.Some? {
      first := first["date" := date.value];
    }
    first := first["partySize" := Lookup(reserva, "partySize").value];
  }

  /**
   * The validation and field mapping of `createReservation`: it fails before building
   * anything when `partySize` is not a positive number, and with a `TypeError` when a truthy
   * `preferredArea` is not text; otherwise every member of the request is the expected one.
   */
  method BuildPayload(reserva: seq<(string, Json)>, now: DateTime, parseMoment: Json -> Option<DateTime>)
    returns (r: Result<Payload>)
    ensures r.Err? <==> !PartySizeOk(reserva) || AreaThrows(reserva)
    ensures !PartySizeOk(reserva) ==> r == Err(MissingPartySize)
    ensures r.Ok? ==> forall k :: MapGet(r.value, k) == Expected(reserva, now, parseMoment, k)
  {
    if !PartySizeOk(reserva) {
      return Err(MissingPartySize);
    }
    ExtraKeysDistinct();
    NoSpecialKey(CopiedKeys);
    var first := FirstMembers(reserva, now, parseMoment);
    var copied := CopyTruthy(first, reserva, CopiedKeys);
    assert MapGet(copied, "notes") == None && MapGet(copied, "preferredArea") == None;
    var middle := NotesAndArea(copied, reserva);
    if middle.Err? {
      return Err(middle.error);
    }
    var late := CopyTruthy(middle.value, reserva, LaterKeys);
    var last := CopyDefined(late, reserva, ExtraKeys);
    StagesGiveExpected(reserva, now, parseMoment, first, copied, middle.value, late, last);
    return Ok(last);
  }

  // ---------------------------------------------------------------- createReservation: the answer

  /** The reservation id fields, in the order they are tried: the answer's own, then those of `answer.response`. */
  function IdCandidates(data: Json): seq<Option<Json>>
  {
    var resp := Get(data, "response");
    [Get(data, "id"), Get(data, "bookingId"), Get(data, "reservationId"),
     GetOpt(resp, "id"), GetOpt(resp, "bookingId"), GetOpt(resp, "reservationId")]
  }

  /** The first truthy value of a list. */
  function FirstTruthy(cands: seq<Option<Json>>): (r: Option<Json>)
    ensures r.Some? ==> Truthy(r) && r in cands
    ensures r.None? <==> forall i :: 0 <= i < |cands| ==> !Truthy(cands[i])
    ensures r.Some? ==> exists i :: 0 <= i < |cands| && r == cands[i] && forall j :: 0 <= j < i ==> !Truthy(cands[j])
  {
    if cands == [] then None
    else if Truthy(cands[0]) then cands[0]
    else
      var r := FirstTruthy(cands[1..]);
      assert forall i :: 1 <= i < |cands| ==> cands[i] == cands[1..][i - 1];
      assert r.Some? ==> exists i :: 0 <= i < |cands| && r == cands[i] && forall j :: 0 <= j < i ==> !Truthy(cands[j]) by {
        if r.Some? {
          var k :| 0 <= k < |cands[1..]| && r == cands[1..][k] && forall j :: 0 <= j < k ==> !Truthy(cands[1..][j]);
          assert r == cands[k + 1];
        }
      }
      r
  }

  /** `a || b || c` is the first truthy of the three, if any, and is falsy otherwise. */
  lemma ChainOfThree(a: Option<Json>, b: Option<Json>, c: Option<Json>, rest: seq<Option<Json>>)
    ensures Truthy(Or(Or(a, b), c)) ==> FirstTruthy([a, b, c] + rest) == Or(Or(a, b), c)
    ensures !Truthy(Or(Or(a, b), c)) ==> FirstTruthy([a, b, c] + rest) == FirstTruthy(rest)
  {
    var s := [a, b, c] + rest;
    assert s[1..] == [b, c] + rest && s[1..][1..] == [c] + rest && s[1..][1..][1..] == rest;
    assert FirstTruthy(s) == if Truthy(a) then a else FirstTruthy([b, c] + rest);
    assert FirstTruthy([b, c] + rest) == if Truthy(b) then b else FirstTruthy([c] + rest);
    assert FirstTruthy([c] + rest) == if Truthy(c) then c else FirstTruthy(rest);
  }

  /** The candidates are the two chains of three, the second read on `data.response`. */
  lemma IdChains(data: Json)
    ensures var c := IdCandidates(data);
      var first := Or(Or(c[0], c[1]), c[2]);
      var second := Or(Or(c[3], c[4]), c[5]);
      (Truthy(first) ==> FirstTruthy(c) == first) &&
      (!Truthy(first) ==> FirstTruthy(c) == FirstTruthy([c[3], c[4], c[5]])) &&
      (Truthy(second) ==> FirstTruthy([c[3], c[4], c[5]]) == second) &&
      (!Truthy(second) ==> FirstTruthy([c[3], c[4], c[5]]) == None)
  {
    var c := IdCandidates(data);
    assert c == [c[0], c[1], c[2]] + [c[3], c[4], c[5]];
    ChainOfThree(c[0], c[1], c[2], [c[3], c[4], c[5]]);
    assert [c[3], c[4], c[5]] == [c[3], c[4], c[5]] + [];
    ChainOfThree(c[3], c[4], c[5], []);
  }

  /**
   * `data.id || data.bookingId || data.reservationId`, and when that is falsy and
   * `data.response` is truthy, the same chain on `data.response`. It is truthy exactly when
   * some candidate is, and then it is the first truthy candidate.
   */
  function ReservaId(data: Json): (r: Option<Json>)
    ensures Truthy(r) <==> Truthy(FirstTruthy(IdCandidates(data)))
    ensures Truthy(r) ==> r == FirstTruthy(IdCandidates(data))
  {
    var first := Or(Or(Get(data, "id"), Get(data, "bookingId")), Get(data, "reservationId"));
    var resp := Get(data, "response");
    IdChains(data);
    if !Truthy(first) && Truthy(resp) then
      Or(Or(GetOpt(resp, "id"), GetOpt(resp, "bookingId")), GetOpt(resp, "reservationId"))
    else first
  }

  /** `{ ...data, reservaId }`: the answer's members plus the id (undefined when none was found). */
  function WithReservaId(data: Json): (r: Json)
    ensures r.JObj? && Get(r, "reservaId") == ReservaId(data)
    ensures data.JObj? ==> forall k :: k != "reservaId" ==> Get(r, k) == Get(data, k)
  {
    var id := ReservaId(data);
    JObj(if id.Some? then Put(Spread(data), "reservaId", id.value) else Without(Spread(data), "reservaId"))
  }

  /** `String(error)` of the TypeError thrown by reading `id` from a null answer. */
  const NullAnswer := "TypeError: Cannot read properties of null (reading 'id')"

  /** `p` is the request `createReservation` builds from `reserva`: every member is the expected one. */
  ghost predicate IsExpected(p: Payload, reserva: seq<(string, Json)>, now: DateTime, parseMoment: Json -> Option<DateTime>)
  {
    forall k :: MapGet(p, k) == Expected(reserva, now, parseMoment, k)
  }

  /**
   * What `createReservation` returns for the outcome of its POST: a 2xx answer plus its id
   * (a null answer makes reading `id` throw, which the `catch` turns into an error value),
   * the backend's error body, or `{ error }`.
   */
  function CreateAnswer(o: HttpOutcome): (r: Json)
    ensures o.Response? && !o.data.JNull? ==> Get(r, "reservaId") == ReservaId(o.data)
    ensures o.Response? && o.data.JNull? ==> r == ErrorValue(NullAnswer)
    ensures o.ErrorResponse? ==> r == o.data
    ensures o.NoResponse? ==> Get(r, "error") == Some(JStr(o.message))
  {
    match o
    case Response(data) =>
      if data.JNull? then ErrorValue(NullAnswer)
      else WithReservaId(data)
    case ErrorResponse(data) => data
    case NoResponse(message) => ErrorValue(message)
  }

  /**
   * `createReservation`: a request is sent only when the payload could be built, and the
   * result is then the mapped answer to exactly that request.
   */
  method CreateReservation(reserva: seq<(string, Json)>, now: DateTime, parseMoment: Json -> Option<DateTime>,
                           post: Payload -> HttpOutcome)
    returns (r: Result<Json>, sent: Option<Payload>)
    ensures r.Err? <==> sent.None?
    ensures r.Err? <==> !PartySizeOk(reserva) || AreaThrows(reserva)
    ensures !PartySizeOk(reserva) ==> r == Err(MissingPartySize)
    ensures sent.Some? ==> forall k :: MapGet(sent.value, k) == Expected(reserva, now, parseMoment, k)
    ensures sent.Some? ==> r == Ok(CreateAnswer(post(sent.value)))
  {
    var payload := BuildPayload(reserva, now, parseMoment);
    if payload.Err? {
      return Err(payload.error), None;
    }
    return Ok(CreateAnswer(post(payload.value))), Some(payload.value);
  }

  // ---------------------------------------------------------------- updateReservationById

  const NotFoundForUpdate := "No se pudo obtener la reserva para modificar."
  const DateNotAfterNow := "La fecha de la reserva debe ser posterior a la fecha y hora actual."

  /** The members an update request may carry. */
  const UpdateKeys: set<string> := {"date", "partySize", "reservePhone", "notes", "shift", "preferredArea", "sendEmailToDiner"}

  /** `reserva.diner?.phone?.e164Format || reserva.reservePhone`. */
  function PhoneField(reserva: Json): Option<Json>
  {
    Or(GetOpt(GetOpt(Get(reserva, "diner"), "phone"), "e164Format"), Get(reserva, "reservePhone"))
  }

  /** `typeof reserva.sendEmailToDiner === 'boolean' ? reserva.sendEmailToDiner : true`. */
  function SendEmailField(reserva: Json): (r: Json)
    ensures r.JBool?
    ensures Get(reserva, "sendEmailToDiner").Some? && Get(reserva, "sendEmailToDiner").value.JBool? ==> Some(r) == Get(reserva, "sendEmailToDiner")
    ensures !(Get(reserva, "sendEmailToDiner").Some? && Get(reserva, "sendEmailToDiner").value.JBool?) ==> r == JBool(true)
  {
    var s := Get(reserva, "sendEmailToDiner");
    if s.Some? && s.value.JBool? then s.value else JBool(true)
  }

  /** The member `k` of an update request; undefined members are not sent. */
  function UpdateField(reserva: Json, d: DateTime, newPartySize: Option<Json>, k: string): Option<Json>
  {
    if k == "date" then Some(JStr(FormatMinute(d)))
    else if k == "partySize" then newPartySize
    else if k == "reservePhone" then PhoneField(reserva)
    else if k == "notes" then Or(Get(reserva, "eventNotes"), Get(reserva, "notes"))
    else if k == "shift" then Get(reserva, "shift")
    else if k == "preferredArea" then Get(reserva, "preferredArea")
    else if k == "sendEmailToDiner" then Some(SendEmailField(reserva))
    else None
  }

  /** The request `updateReservationById` sends for the booking `reserva` and the new moment `d`. */
  function UpdateBody(reserva: Json, d: DateTime, newPartySize: Option<Json>): (p: Payload)
    ensures MapGet(p, "date") == Some(JStr(FormatMinute(d)))
    ensures MapGet(p, "partySize") == newPartySize
    ensures MapGet(p, "reservePhone") == PhoneField(reserva)
    ensures MapGet(p, "notes") == Or(Get(reserva, "eventNotes"), Get(reserva, "notes"))
    ensures MapGet(p, "shift") == Get(reserva, "shift")
    ensures MapGet(p, "preferredArea") == Get(reserva, "preferredArea")
    ensures MapGet(p, "sendEmailToDiner") == Some(SendEmailField(reserva))
    ensures forall k :: k !in UpdateKeys ==> k !in p
  {
    map k | k in UpdateKeys && UpdateField(reserva, d, newPartySize, k).Some? :: UpdateField(reserva, d, newPartySize, k).value
  }

  /**
   * The checks and the request of `updateReservationById`, given the booking `current` that
   * was read first: it fails when the booking or its `response` is missing, and when the new
   * date, its year raised to the current one, is invalid or not strictly after now.
   */
  function UpdatePayload(current: Json, newDate: Json, newPartySize: Option<Json>, now: DateTime,
                         parseMoment: Json -> Option<DateTime>): (r: Result<Payload>)
    ensures !Truthy(Some(current)) || !Truthy(Get(current, "response")) ==> r == Err(NotFoundForUpdate)
    ensures r.Ok? ==> (ValidMoment(parseMoment, newDate).Some? &&
      Before(now, RaiseYear(ValidMoment(parseMoment, newDate).value, now.year)) &&
      MapGet(r.value, "date") == Some(JStr(FormatMinute(RaiseYear(ValidMoment(parseMoment, newDate).value, now.year)))))
    ensures Truthy(Some(current)) && Truthy(Get(current, "response")) ==>
      (r.Err? <==> (ValidMoment(parseMoment, newDate).None? ||
        SameOrBefore(RaiseYear(ValidMoment(parseMoment, newDate).value, now.year), now)))
    ensures r.Ok? ==> r.value == UpdateBody(Get(current, "response").value,
      RaiseYear(ValidMoment(parseMoment, newDate).value, now.year), newPartySize)
  {
    if !Truthy(Some(current)) || !Truthy(Get(current, "response")) then Err(NotFoundForUpdate)
    else
      var reserva := Get(current, "response").value;
      match ValidMoment(parseMoment, newDate)
      case None => Err(DateNotAfterNow)
      case Some(m) =>
        var d := RaiseYear(m, now.year);
        if SameOrBefore(d, now) then Err(DateNotAfterNow)
        else
          BeforeTotal(d, now, now);
          Ok(UpdateBody(reserva, d, newPartySize))
  }

  /**
   * `updateReservationById`: read the booking (a failed read is an error value, not a
   * throw), check and build the request, send it, and map the answer.
   */
  function UpdateReservation(newDate: Json, newPartySize: Option<Json>, now: DateTime,
                             parseMoment: Json -> Option<DateTime>, get: HttpOutcome, put: Payload -> HttpOutcome): (r: Result<Json>)
    ensures r.Err? <==> UpdatePayload(Settle(get), newDate, newPartySize, now, parseMoment).Err?
    ensures r.Ok? ==> r.value == Settle(put(UpdatePayload(Settle(get), newDate, newPartySize, now, parseMoment).value))
  {
    match UpdatePayload(Settle(get), newDate, newPartySize, now, parseMoment)
    case Err(e) => Err(e)
    case Ok(p) => Ok(Settle(put(p)))
  }

  // ---------------------------------------------------------------- properties

  /** A request the update sends is never for a moment at or before now. */
  lemma UpdateIsInFuture(current: Json, newDate: Json, newPartySize: Option<Json>, now: DateTime,
                         parseMoment: Json -> Option<DateTime>)
    requires UpdatePayload(current, newDate, newPartySize, now, parseMoment).Ok?
    ensures var d := RaiseYear(ValidMoment(parseMoment, newDate).value, now.year);
      !SameOrBefore(d, now) && d.year >= now.year
  {
    var d := RaiseYear(ValidMoment(parseMoment, newDate).value, now.year);
    BeforeTotal(now, d, d);
  }

  /** A non-smoking area is never sent as `preferredArea`; it ends the notes instead. */
  lemma NonSmokingGoesToNotes(reserva: seq<(string, Json)>, now: DateTime, parseMoment: Json -> Option<DateTime>)
    requires NonSmoking(reserva)
    ensures Expected(reserva, now, parseMoment, "preferredArea").None?
    ensures var n := Expected(reserva, now, parseMoment, "notes");
      var a := Lookup(reserva, "preferredArea").value.s;
      n.Some? && n.value.JStr? && |n.value.s| >= |a| && n.value.s[|n.value.s| - |a|..] == a
  {
  }

  /** The created booking's id is found at top level first, and inside `response` only when no top-level id is truthy. */
  lemma TopLevelIdFirst(data: Json)
    requires Truthy(Get(data, "id")) || Truthy(Get(data, "bookingId")) || Truthy(Get(data, "reservationId"))
    ensures ReservaId(data) == Or(Or(Get(data, "id"), Get(data, "bookingId")), Get(data, "reservationId"))
  {
  }
}

=== FILE: text.dfy ===
/**
 * String operations of the JavaScript standard library that the core relies on:
 * substring search (plain and ASCII case-insensitive, as a RegExp with the `i` flag
 * compares letters), `split` on one character, `trim`, decimal digits and `padStart`.
 * Strings are sequences of characters.
 */
module Text {
  import opened Wrappers

  // ---------------------------------------------------------------- characters

  predicate IsDigit(c: char) { '0' <= c <= '9' }

  predicate AllDigits(s: string) { forall i :: 0 <= i < |s| ==> IsDigit(s[i]) }

  /** ASCII lower-casing; every other character is left alone. */
  function LowerChar(c: char): char
  {
    if 'A' <= c <= 'Z' then (c as int + 32) as char else c
  }

  function Lower(s: string): (r: string)
    ensures |r| == |s|
    ensures forall i :: 0 <= i < |s| ==> r[i] == LowerChar(s[i])
  {
    seq(|s|, i requires 0 <= i < |s| => LowerChar(s[i]))
  }

  /** Character comparison of a RegExp, case-insensitive when `ci`. */
  predicate CharEq(a: char, b: char, ci: bool)
  {
    a == b || (ci && LowerChar(a) == LowerChar(b))
  }

  /**
   * The characters `String.prototype.trim` and the RegExp class `\s` treat as white space:
   * the ASCII blanks, the line terminators, NBSP, BOM and the Unicode space separators.
   */
  predicate IsSpace(c: char)
  {
    c == ' ' || c == '\t' || c == '\n' || c == '\r' || c == '\U{000B}' || c == '\U{000C}'
    || c == '\U{00A0}' || c == '\U{FEFF}' || c == '\U{1680}' || ('\U{2000}' <= c <= '\U{200A}')
    || c == '\U{2028}' || c == '\U{2029}' || c == '\U{202F}' || c == '\U{205F}' || c == '\U{3000}'
  }

  // ---------------------------------------------------------------- search

  /** `pat` occurs in `text` starting at index `i`. */
  predicate OccursAt(text: string, pat: string, i: nat, ci: bool)
  {
    i + |pat| <= |text| && forall k :: 0 <= k < |pat| ==> CharEq(text[i + k], pat[k], ci)
  }

  /** Leftmost occurrence of `pat` at or after `from` (`indexOf`, or a RegExp literal scan). */
  function IndexOf(text: string, pat: string, from: nat, ci: bool): (r: Option<nat>)
    ensures r.Some? ==> from <= r.value && OccursAt(text, pat, r.value, ci)
    ensures r.Some? ==> forall j :: from <= j < r.value ==> !OccursAt(text, pat, j, ci)
    ensures r.None? ==> forall j :: from <= j ==> !OccursAt(text, pat, j, ci)
    decreases |text| - from
  {
    if from + |pat| > |text| then None
    else if OccursAt(text, pat, from, ci) then Some(from)
    else IndexOf(text, pat, from + 1, ci)
  }

  /** `s.includes(pat)`: the pattern occurs at some position. */
  predicate Contains(s: string, pat: string)
    ensures Contains(s, pat) <==> exists i :: OccursAt(s, pat, i, false)
  {
    IndexOf(s, pat, 0, false).Some?
  }

  /**
   * `s.replace(a, b)` with a one-character string pattern: the first `a`, if there is one,
   * becomes `b`, and nothing else changes.
   */
  function ReplaceFirst(s: string, a: char, b: char): (r: string)
    ensures a !in s ==> r == s
    ensures a in s ==> exists i :: 0 <= i < |s| && s[i] == a && a !in s[..i] && r == s[..i] + [b] + s[i + 1..]
  {
    match IndexOf(s, [a], 0, false)
    case None =>
      NoneFound(s, a);
      s
    case Some(i) =>
      FirstFound(s, a, i);
      s[..i] + [b] + s[i + 1..]
  }

  lemma NoneFound(s: string, a: char)
    requires IndexOf(s, [a], 0, false).None?
    ensures a !in s
  {
    forall j | 0 <= j < |s| ensures s[j] != a {
      assert !OccursAt(s, [a], j, false);
    }
  }

  lemma FirstFound(s: string, a: char, i: nat)
    requires IndexOf(s, [a], 0, false) == Some(i)
    ensures i < |s| && s[i] == a && a !in s[..i]
  {
    assert CharEq(s[i + 0], [a][0], false);
    forall j | 0 <= j < i ensures s[..i][j] != a {
      assert !OccursAt(s, [a], j, false);
    }
  }

  /** The first `a` of a text is the one after the longest prefix without `a`. */
  lemma ReplaceFirstAt(x: string, y: string, a: char, b: char)
    requires a !in x
    ensures ReplaceFirst(x + [a] + y, a, b) == x + [b] + y
  {
    var s := x + [a] + y;
    assert s[|x|] == a;
    var i :| 0 <= i < |s| && s[i] == a && a !in s[..i] && ReplaceFirst(s, a, b) == s[..i] + [b] + s[i + 1..];
    assert s[..|x|] == x && s[|x| + 1..] == y;
  }

  // ---------------------------------------------------------------- split / join

  /** `s.split(sep)` for a one-character separator; never empty, as in JavaScript. */
  function Split(s: string, sep: char): (parts: seq<string>)
    ensures |parts| >= 1
    ensures forall i :: 0 <= i < |parts| ==> sep !in parts[i]
  {
    if s == [] then [[]]
    else if s[0] == sep then [[]] + Split(s[1..], sep)
    else
      var rest := Split(s[1..], sep);
      [[s[0]] + rest[0]] + rest[1..]
  }

  function Join(parts: seq<string>, sep: char): string
  {
    if parts == [] then []
    else if |parts| == 1 then parts[0]
    else parts[0] + [sep] + Join(parts[1..], sep)
  }

  /** `split` loses nothing: joining the parts with the separator gives back the string. */
  lemma {:induction false} JoinSplit(s: string, sep: char)
    ensures Join(Split(s, sep), sep) == s
  {
    if s == [] {
    } else if s[0] == sep {
      JoinSplit(s[1..], sep);
      assert s == [sep] + s[1..];
    } else {
      var rest := Split(s[1..], sep);
      JoinSplit(s[1..], sep);
      if |rest| == 1 {
      } else {
        calc {
          Join(Split(s, sep), sep);
          ([s[0]] + rest[0]) + [sep] + Join(rest[1..], sep);
          [s[0]] + (rest[0] + [sep] + Join(rest[1..], sep));
          [s[0]] + Join(rest, sep);
          s;
        }
      }
    }
  }

  /** A string without the separator splits into itself. */
  lemma {:induction false} SplitWithout(s: string, sep: char)
    requires sep !in s
    ensures Split(s, sep) == [s]
  {
    if s != [] {
      SplitWithout(s[1..], sep);
      assert [s[0]] + s[1..] == s;
    }
  }

  /** Splitting `a + sep + b`, where `a` holds no separator, yields `a` and then the parts of `b`. */
  lemma {:induction false} SplitAfter(a: string, b: string, sep: char)
    requires sep !in a
    ensures Split(a + [sep] + b, sep) == [a] + Split(b, sep)
  {
    if a == [] {
      assert a + [sep] + b == [sep] + b;
      assert ([sep] + b)[1..] == b;
    } else {
      SplitAfter(a[1..], b, sep);
      var s := a + [sep] + b;
      assert s[0] == a[0] && s[1..] == a[1..] + [sep] + b;
      assert [a[0]] + a[1..] == a;
    }
  }

  // ---------------------------------------------------------------- trim

  /** How many white-space characters run from index `i` on. */
  function SpacesFrom(s: string, i: nat): (n: nat)
    requires i <= |s|
    ensures i + n <= |s|
    ensures forall k :: i <= k < i + n ==> IsSpace(s[k])
    ensures i + n < |s| ==> !IsSpace(s[i + n])
    decreases |s| - i
  {
    if i < |s| && IsSpace(s[i]) then 1 + SpacesFrom(s, i + 1) else 0
  }

  /** How many white-space characters run back from just before index `j`. */
  function SpacesBefore(s: string, j: nat): (n: nat)
    requires j <= |s|
    ensures n <= j
    ensures forall k :: j - n <= k < j ==> IsSpace(s[k])
    ensures n < j ==> !IsSpace(s[j - n - 1])
  {
    if j > 0 && IsSpace(s[j - 1]) then 1 + SpacesBefore(s, j - 1) else 0
  }

  /** Number of white-space characters `trim` drops at the front of `s`. */
  function Lead(s: string): nat
  {
    SpacesFrom(s, 0)
  }

  /** `s.trim()`: the longest middle part that neither starts nor ends with white space. */
  function Trim(s: string): (r: string)
    ensures r == [] || (!IsSpace(r[0]) && !IsSpace(r[|r| - 1]))
    ensures Lead(s) + |r| <= |s| && r == s[Lead(s)..Lead(s) + |r|]
    ensures forall i :: 0 <= i < Lead(s) ==> IsSpace(s[i])
    ensures forall i :: Lead(s) + |r| <= i < |s| ==> IsSpace(s[i])
  {
    var a := Lead(s);
    if a == |s| then []
    else
      var b := |s| - SpacesBefore(s, |s|);
      assert a < b;
      s[a..b]
  }

  /** A string that is empty or all white space trims to the empty string, and only such a string does. */
  lemma TrimEmpty(s: string)
    ensures Trim(s) == [] <==> forall i :: 0 <= i < |s| ==> IsSpace(s[i])
  {
    if Trim(s) != [] {
      assert s[Lead(s)] == Trim(s)[0];
    }
  }

  // ---------------------------------------------------------------- numbers

  function DigitChar(d: nat): char
    requires d < 10
  {
    ('0' as int + d) as char
  }

  function DigitValue(c: char): nat
    requires IsDigit(c)
  {
    c as int - '0' as int
  }

  /** `n.toString()` for a non-negative integer. */
  function Show(n: nat): (r: string)
    ensures |r| >= 1 && AllDigits(r)
  {
    if n < 10 then [DigitChar(n)] else Show(n / 10) + [DigitChar(n % 10)]
  }

  /** The number a string of decimal digits denotes (leading zeros allowed). */
  function ValueOf(ds: string): nat
    requires AllDigits(ds)
  {
    if ds == [] then 0 else ValueOf(ds[..|ds| - 1]) * 10 + DigitValue(ds[|ds| - 1])
  }

  /** `s.padStart(width, c)`. */
  function PadStart(s: string, width: nat, c: char): (r: string)
    ensures |r| == if |s| < width then width else |s|
    ensures r[|r| - |s|..] == s
    ensures forall i :: 0 <= i < |r| - |s| ==> r[i] == c
  {
    if |s| < width then seq(width - |s|, _ => c) + s else s
  }

  /** Reading back a printed number gives the number. */
  lemma {:induction false} ValueOfShow(n: nat)
    ensures ValueOf(Show(n)) == n
  {
    if n >= 10 {
      ValueOfShow(n / 10);
      var s := Show(n / 10) + [DigitChar(n % 10)];
      assert s[..|s| - 1] == Show(n / 10);
    }
  }

  /** Leading zeros do not change the value of a digit string. */
  lemma {:induction false} ValueOfLeadingZeros(z: nat, ds: string)
    requires AllDigits(ds)
    ensures AllDigits(seq(z, _ => '0') + ds)
    ensures ValueOf(seq(z, _ => '0') + ds) == ValueOf(ds)
  {
    var zs: string := seq(z, _ => '0');
    if ds == [] {
      assert zs + ds == zs;
      ZerosValue(z);
    } else {
      var front := ds[..|ds| - 1];
      ValueOfLeadingZeros(z, front);
      var s := zs + ds;
      assert s[..|s| - 1] == zs + front;
    }
  }

  lemma {:induction false} ZerosValue(z: nat)
    ensures AllDigits(seq(z, _ => '0'))
    ensures ValueOf(seq(z, _ => '0')) == 0
  {
    if z > 0 {
      ZerosValue(z - 1);
      var s: string := seq(z, _ => '0');
      assert s[..|s| - 1] == seq(z - 1, _ => '0');
    }
  }

  /** A zero-padded printed number reads back as the number. */
  lemma PaddedShow(n: nat, width: nat)
    ensures AllDigits(PadStart(Show(n), width, '0'))
    ensures ValueOf(PadStart(Show(n), width, '0')) == n
  {
    ValueOfShow(n);
    if |Show(n)| < width {
      ValueOfLeadingZeros(width - |Show(n)|, Show(n));
    }
  }
}

=== FILE: user_queues.dfy ===
/**
 * The per-user serialisation of incoming messages in `app.ts`: `userQueues` holds the
 * messages waiting for each user, `userLocks` says whose queue is being drained, and
 * `handleQueue` drains one user's queue through `processUserMessage`. Processing a message
 * is an outcome passed in: whether it throws. The code that fills the queues is not part of
 * this model; `Push` stands for it.
 */
module UserQueues {

  /** The messages of `ms` whose processing throws, in order. */
  function Throwing<M>(ms: seq<M>, throws: M -> bool): (r: seq<M>)
    ensures |r| <= |ms|
  {
    if ms == [] then []
    else
      var last := ms[|ms| - 1];
      var rest := Throwing(ms[..|ms| - 1], throws);
      if throws(last) then rest + [last] else rest
  }

  /** The logged messages are exactly the queued messages whose processing throws. */
  lemma {:induction false} ThrowingExactly<M>(ms: seq<M>, throws: M -> bool)
    ensures forall m :: m in Throwing(ms, throws) <==> m in ms && throws(m)
  {
    if ms != [] {
      var last := ms[|ms| - 1];
      ThrowingExactly(ms[..|ms| - 1], throws);
      assert ms == ms[..|ms| - 1] + [last];
    }
  }

  /** How a `handleQueue` call starts. */
  datatype Start =
    | Skipped   // the user is locked: the call returns at once
    | Rejected  // no queue on record: the lock is taken, then reading its length throws
    | Draining  // the lock is taken and the loop begins

  /** The messages of `user` in a log, in log order. */
  function Of<M>(log: seq<(string, M)>, user: string): seq<M>
  {
    if log == [] then []
    else
      var last := log[|log| - 1];
      Of(log[..|log| - 1], user) + (if last.0 == user then [last.1] else [])
  }

  lemma {:induction false} OfAppend<M>(log: seq<(string, M)>, v: string, m: M, user: string)
    ensures Of(log + [(v, m)], user) == Of(log, user) + (if v == user then [m] else [])
  {
    assert (log + [(v, m)])[..|log|] == log;
  }

  /** The messages waiting for `user`. */
  function WaitingIn<M>(queues: map<string, seq<M>>, user: string): seq<M>
  {
    if user in queues then queues[user] else []
  }

  /** For every user, the messages processed followed by those waiting are the ones pushed. */
  ghost predicate Accounted<M>(processed: seq<(string, M)>, queues: map<string, seq<M>>, arrived: seq<(string, M)>)
  {
    forall u :: Of(processed, u) + WaitingIn(queues, u) == Of(arrived, u)
  }

  /** A push keeps the account. */
  lemma {:induction false} PushAccounted<M>(processed: seq<(string, M)>, queues: map<string, seq<M>>, arrived: seq<(string, M)>,
                         user: string, m: M)
    requires Accounted(processed, queues, arrived)
    ensures Accounted(processed, queues[user := WaitingIn(queues, user) + [m]], arrived + [(user, m)])
  {
    var after := queues[user := WaitingIn(queues, user) + [m]];
    forall u ensures Of(processed, u) + WaitingIn(after, u) == Of(arrived + [(user, m)], u) {
      OfAppend(arrived, user, m, u);
      var done, waiting := Of(processed, u), WaitingIn(queues, u);
      assert done + waiting == Of(arrived, u);
      if u == user {
        assert WaitingIn(after, u) == waiting + [m];
        assert done + (waiting + [m]) == (done + waiting) + [m];
      } else {
        assert WaitingIn(after, u) == waiting;
      }
    }
  }

  /** Processing the head of a user's queue keeps the account. */
  lemma {:induction false} ShiftAccounted<M>(processed: seq<(string, M)>, queues: map<string, seq<M>>, arrived: seq<(string, M)>, user: string)
    requires Accounted(processed, queues, arrived) && user in queues && queues[user] != []
    ensures Accounted(processed + [(user, queues[user][0])], queues[user := queues[user][1..]], arrived)
  {
    var q := queues[user];
    var after := queues[user := q[1..]];
    forall u ensures Of(processed + [(user, q[0])], u) + WaitingIn(after, u) == Of(arrived, u) {
      OfAppend(processed, user, q[0], u);
      var done := Of(processed, u);
      assert done + WaitingIn(queues, u) == Of(arrived, u);
      if u == user {
        assert WaitingIn(queues, u) == q && WaitingIn(after, u) == q[1..];
        assert (done + [q[0]]) + q[1..] == done + q;
      } else {
        assert WaitingIn(after, u) == WaitingIn(queues, u);
      }
    }
  }

  /** Deleting an empty queue keeps the account, and then all the user's messages are processed. */
  lemma {:induction false} DeleteAccounted<M>(processed: seq<(string, M)>, queues: map<string, seq<M>>, arrived: seq<(string, M)>, user: string)
    requires Accounted(processed, queues, arrived) && user in queues && queues[user] == []
    ensures Accounted(processed, queues - {user}, arrived)
    ensures Of(processed, user) == Of(arrived, user)
  {
    assert Of(processed, user) + WaitingIn(queues, user) == Of(arrived, user);
    assert Of(processed, user) + [] == Of(processed, user);
    forall u ensures Of(processed, u) + WaitingIn(queues - {user}, u) == Of(arrived, u) {
      assert Of(processed, u) + WaitingIn(queues, u) == Of(arrived, u);
    }
  }

  class UserQueues<M(==, !new)> {
    /** `userQueues`: the messages waiting for each user, oldest first. */
    var queues: map<string, seq<M>>
    /** `userLocks`. */
    var locks: map<string, bool>
    /** The messages handed to `processUserMessage`, in order, with their user. */
    var processed: seq<(string, M)>
    /** The messages whose processing threw (logged, then the drain went on). */
    var failed: seq<(string, M)>
    /** The users whose `handleQueue` call is inside its loop, suspended at an `await`. */
    var draining: set<string>
    /** Every message pushed so far, with its user, in order. */
    ghost var arrived: seq<(string, M)>

    /**
     * A draining user is locked and has a queue, and for every user the messages processed
     * followed by the messages waiting are exactly the messages pushed, in order.
     */
    ghost predicate Valid()
      reads this
    {
      (forall u :: u in draining ==> Locked(u) && u in queues) && Accounted(processed, queues, arrived)
    }

    constructor ()
      ensures Valid()
      ensures queues == map[] && locks == map[] && processed == [] && failed == [] && draining == {} && arrived == []
    {
      queues := map[];
      locks := map[];
      processed := [];
      failed := [];
      draining := {};
      arrived := [];
    }

    /** `userLocks.get(user)` is truthy. */
    predicate Locked(user: string)
      reads this
    {
      user in locks && locks[user]
    }

    /**
     * A message for `user` joins the tail of the user's queue, which is created if missing.
     * It may come at any time, also while that user's queue is being drained.
     */
    method Push(user: string, m: M)
      requires Valid()
      modifies this`queues, this`arrived
      ensures Valid()
      ensures queues == old(queues)[user := WaitingIn(old(queues), user) + [m]]
      ensures arrived == old(arrived) + [(user, m)]
    {
      PushAccounted(processed, queues, arrived, user, m);
      queues := queues[user := WaitingIn(queues, user) + [m]];
      arrived := arrived + [(user, m)];
    }

    /**
     * The part of `handleQueue(user)` before its loop. A locked user is left alone; this is
     * what keeps a second call out while a drain is suspended. Otherwise the lock is taken,
     * and without a queue on record reading its length throws: the returned promise is
     * rejected and the user stays locked.
     */
    method Begin(user: string) returns (s: Start)
      requires Valid()
      modifies this`locks, this`draining
      ensures Valid()
      ensures user in old(draining) ==> s == Skipped
      ensures old(Locked(user)) ==> s == Skipped && locks == old(locks) && draining == old(draining)
      ensures !old(Locked(user)) && user !in queues ==>
        s == Rejected && locks == old(locks)[user := true] && draining == old(draining)
      ensures !old(Locked(user)) && user in queues ==>
        s == Draining && locks == old(locks)[user := true] && draining == old(draining) + {user}
    {
      if Locked(user) {
        return Skipped;
      }
      locks := locks[user := true];
      if user !in queues {
        return Rejected;
      }
      draining := draining + {user};
      return Draining;
    }

    /**
     * One turn of the `while (queue.length > 0)` loop, or its exit. With messages waiting,
     * the head is shifted off and processed; a throw is caught and logged. With none, the
     * lock is released and the queue deleted: every message pushed for the user, including
     * those pushed while the drain was suspended, has then been processed once, in order.
     */
    method Step(user: string, throws: M -> bool) returns (finished: bool)
      requires Valid() && user in draining
      modifies this`queues, this`locks, this`processed, this`failed, this`draining
      ensures Valid()
      ensures old(queues)[user] != [] ==>
        var head := old(queues)[user][0];
        !finished && queues == old(queues)[user := old(queues)[user][1..]] &&
        processed == old(processed) + [(user, head)] &&
        failed == old(failed) + (if throws(head) then [(user, head)] else []) &&
        locks == old(locks) && draining == old(draining)
      ensures old(queues)[user] == [] ==>
        finished && queues == old(queues) - {user} && locks == old(locks)[user := false] &&
        draining == old(draining) - {user} && processed == old(processed) && failed == old(failed) &&
        Of(processed, user) == Of(arrived, user)
    {
      var q := queues[user];
      if q == [] {
        DeleteAccounted(processed, queues, arrived, user);
        locks := locks[user := false];
        queues := queues - {user};
        draining := draining - {user};
        assert forall u :: u in draining ==> Locked(u) && u in queues;
        assert Accounted(processed, queues, arrived);
        return true;
      }
      ShiftAccounted(processed, queues, arrived, user);
      var head := q[0];
      queues := queues[user := q[1..]];
      processed := processed + [(user, head)];
      if throws(head) {
        failed := failed + [(user, head)];
      }
      assert forall u :: u in draining ==> Locked(u) && u in queues;
      assert Accounted(processed, queues, arrived);
      return false;
    }

    /**
     * `handleQueue(user)` run to its end with nothing pushed meanwhile: `Begin`, then `Step`
     * until the queue is empty.
     */
    method HandleQueue(user: string, throws: M -> bool) returns (rejected: bool)
      requires Valid()
      modifies this`queues, this`locks, this`processed, this`failed, this`draining
      ensures Valid()
      ensures old(Locked(user)) ==>
        !rejected && queues == old(queues) && locks == old(locks) && processed == old(processed) && failed == old(failed)
      ensures !old(Locked(user)) && user !in old(queues) ==>
        rejected && locks == old(locks)[user := true] && queues == old(queues) &&
        processed == old(processed) && failed == old(failed)
      ensures !old(Locked(user)) && user in old(queues) ==>
        !rejected && locks == old(locks)[user := false] && queues == old(queues) - {user} &&
        processed == old(processed) + Tagged(user, old(queues)[user]) &&
        failed == old(failed) + Tagged(user, Throwing(old(queues)[user], throws))
      ensures draining == old(draining)
    {
      var s := Begin(user);
      if s != Draining {
        return s == Rejected;
      }
      Drain(user, throws);
      return false;
    }

    /**
     * The `while (queue.length > 0)` loop with nothing pushed meanwhile: `Step` until the
     * queue is empty, which processes the whole queue in order.
     */
    method Drain(user: string, throws: M -> bool)
      requires Valid() && user in draining
      modifies this`queues, this`locks, this`processed, this`failed, this`draining
      ensures Valid()
      ensures queues == old(queues) - {user} && locks == old(locks)[user := false] && draining == old(draining) - {user}
      ensures processed == old(processed) + Tagged(user, old(queues)[user])
      ensures failed == old(failed) + Tagged(user, Throwing(old(queues)[user], throws))
    {
      var queue := queues[user];
      var n := 0;
      while true
        invariant Valid() && user in draining && 0 <= n <= |queue|
        invariant queues == old(queues)[user := queue[n..]]
        invariant locks == old(locks) && draining == old(draining)
        invariant processed == old(processed) + Tagged(user, queue[..n])
        invariant failed == old(failed) + Tagged(user, Throwing(queue[..n], throws))
        decreases |queue| - n
      {
        var finished := Step(user, throws);
        if finished {
          break;
        }
        TaggedStep(user, queue, n, throws);
        n := n + 1;
      }
      assert n == |queue| && queue[..n] == queue;
    }
  }

  /** The messages of one user, each paired with the user. */
  function Tagged<M>(user: string, ms: seq<M>): (r: seq<(string, M)>)
    ensures |r| == |ms|
    ensures forall i :: 0 <= i < |ms| ==> r[i] == (user, ms[i])
  {
    seq(|ms|, i requires 0 <= i < |ms| => (user, ms[i]))
  }

  /** One more message of a queue, processed and, if it throws, logged. */
  lemma TaggedStep<M(!new)>(user: string, queue: seq<M>, n: nat, throws: M -> bool)
    requires n < |queue|
    ensures queue[n..][1..] == queue[n + 1..]
    ensures Tagged(user, queue[..n + 1]) == Tagged(user, queue[..n]) + [(user, queue[n])]
    ensures Tagged(user, Throwing(queue[..n + 1], throws)) ==
      Tagged(user, Throwing(queue[..n], throws)) + (if throws(queue[n]) then [(user, queue[n])] else [])
  {
    assert queue[..n + 1] == queue[..n] + [queue[n]];
    assert queue[..n + 1][..n] == queue[..n];
    TaggedAppend(user, queue[..n], queue[n]);
    TaggedAppend(user, Throwing(queue[..n], throws), queue[n]);
  }

  lemma TaggedAppend<M>(user: string, ms: seq<M>, m: M)
    ensures Tagged(user, ms + [m]) == Tagged(user, ms) + [(user, m)]
  {
  }
}

=== FILE: webchat_session.dfy ===
/**
 * `WebChatSession`: the per-visitor state of the web chat, a message history that never
 * records the same text twice in a row, the agent's thread id and a bag of key/value data.
 */
module WebChatSession {
  import opened Wrappers
  import opened Json
  import Values = Json

  /** One history line: who said it and what. */
  datatype Entry = Entry(role: string, content: string)

  /** What `get` returns: the history itself, or a value that may be undefined. */
  datatype SessionValue =
    | HistoryValue(entries: seq<Entry>)
    | JsonValue(value: Option<Json>)

  /** No two consecutive entries have the same text. */
  ghost predicate NoRepeats(h: seq<Entry>)
  {
    forall i :: 0 <= i < |h| - 1 ==> h[i].content != h[i + 1].content
  }

  /**
   * The history after a message from `role`: appended unless the history is non-empty and
   * its last entry already has this text, whoever said it.
   */
  function Appended(h: seq<Entry>, role: string, msg: string): (r: seq<Entry>)
    ensures h == [] || h[|h| - 1].content != msg ==> r == h + [Entry(role, msg)]
    ensures h != [] && h[|h| - 1].content == msg ==> r == h
    ensures r != [] && r[|r| - 1].content == msg
    ensures NoRepeats(h) ==> NoRepeats(r)
  {
    if h == [] || h[|h| - 1].content != msg then h + [Entry(role, msg)] else h
  }

  /** Saying the same thing twice in a row, even under another role, records it once. */
  lemma AppendedTwice(h: seq<Entry>, role: string, other: string, msg: string)
    ensures Appended(Appended(h, role, msg), other, msg) == Appended(h, role, msg)
  {
  }

  class WebChatSession {
    var history: seq<Entry>
    /** `thread_id`; `JNull` until an update brings a truthy one. */
    var threadId: Json
    /** `data`, with its members in insertion order. */
    var data: seq<(string, Json)>

    ghost predicate Valid()
      reads this
    {
      NoRepeats(history)
    }

    constructor ()
      ensures Valid()
      ensures history == [] && threadId == JNull && data == []
    {
      history := [];
      threadId := JNull;
      data := [];
    }

    /** `addUserMessage`. */
    method AddUserMessage(msg: string)
      requires Valid()
      modifies this`history
      ensures Valid()
      ensures history == Appended(old(history), "user", msg)
    {
      if history == [] || history[|history| - 1].content != msg {
        history := history + [Entry("user", msg)];
      }
    }

    /** `addAssistantMessage`. */
    method AddAssistantMessage(msg: string)
      requires Valid()
      modifies this`history
      ensures Valid()
      ensures history == Appended(old(history), "assistant", msg)
    {
      if history == [] || history[|history| - 1].content != msg {
        history := history + [Entry("assistant", msg)];
      }
    }

    /** `get(key)`: the two reserved keys read the fields, every other key reads `data`. */
    function Get(key: string): (r: SessionValue)
      reads this
      ensures r.HistoryValue? <==> key == "history"
      ensures key == "thread_id" ==> r == JsonValue(Some(threadId))
      ensures key != "history" && key != "thread_id" ==> r == JsonValue(Lookup(data, key))
    {
      if key == "history" then HistoryValue(history)
      else if key == "thread_id" then JsonValue(Some(threadId))
      else JsonValue(Lookup(data, key))
    }

    /**
     * `update(obj)`: only for `typeof obj === "object"`. Reading `obj.thread_id` on null
     * throws, so the returned promise is rejected (`failed`) and nothing changes. Otherwise
     * a truthy `thread_id` replaces the thread id and every own member of `obj` is
     * assigned into `data` (`Object.assign`).
     */
    method Update(obj: Json) returns (failed: bool)
      requires Valid()
      modifies this`threadId, this`data
      ensures Valid()
      ensures failed <==> obj.JNull?
      ensures !IsObjectType(obj) || failed ==> threadId == old(threadId) && data == old(data)
      ensures IsObjectType(obj) && !failed ==>
        threadId == (if Truthy(Values.Get(obj, "thread_id")) then Values.Get(obj, "thread_id").value else old(threadId))
      ensures IsObjectType(obj) && !failed ==>
        forall k :: Lookup(data, k) == OrElse(LastValue(Spread(obj), k), Lookup(old(data), k))
      // As `get` then reads it: the history never changes; a rejected or ignored update
      // changes no key; otherwise a key of `obj` reads its last value there, any other key
      // what it read before, and `thread_id` the new id when it was truthy.
      ensures Get("history") == old(Get("history"))
      ensures !IsObjectType(obj) || failed ==> forall k :: Get(k) == old(Get(k))
      ensures IsObjectType(obj) && !failed ==>
        Get("thread_id") == if Truthy(Values.Get(obj, "thread_id")) then JsonValue(Values.Get(obj, "thread_id")) else old(Get("thread_id"))
      ensures IsObjectType(obj) && !failed ==>
        forall k :: k != "history" && k != "thread_id" ==> Get(k) == JsonValue(OrElse(LastValue(Spread(obj), k), old(Get(k)).value))
    {
      failed := obj.JNull?;
      if !IsObjectType(obj) || failed {
        return;
      }
      var t := Values.Get(obj, "thread_id");
      if Truthy(t) {
        threadId := t.value;
      }
      var members := Spread(obj);
      ghost var thread := threadId;
      for i := 0 to |members|
        invariant threadId == thread
        invariant forall k :: Lookup(data, k) == OrElse(LastValue(members[..i], k), Lookup(old(data), k))
      {
        data := Put(data, members[i].0, members[i].1);
        forall k ensures Lookup(data, k) == OrElse(LastValue(members[..i + 1], k), Lookup(old(data), k)) {
          LastValueStep(members, i, k);
        }
      }
      assert members[..|members|] == members;
    }

    /** `clear`. */
    method Clear()
      requires Valid()
      modifies this
      ensures Valid()
      ensures history == [] && threadId == JNull && data == []
      // As `get` then reads it: an empty history, a null thread id, every other key undefined.
      ensures Get("history") == HistoryValue([]) && Get("thread_id") == JsonValue(Some(JNull))
      ensures forall k :: k != "history" && k != "thread_id" ==> Get(k) == JsonValue(None)
    {
      history := [];
      threadId := JNull;
      data := [];
    }
  }

  /** A defined value wins over a fallback; unlike `||`, a falsy defined value wins too. */
  function OrElse(a: Option<Json>, b: Option<Json>): Option<Json>
  {
    if a.Some? then a else b
  }

  /** One more member: it is the last one called `k` when it has that name. */
  lemma LastValueStep(members: seq<(string, Json)>, i: nat, k: string)
    requires i < |members|
    ensures LastValue(members[..i + 1], k) == if members[i].0 == k then Some(members[i].1) else LastValue(members[..i], k)
  {
    assert members[..i + 1][..i] == members[..i];
  }

  /** The value of the last member called `k`: where repeated assignments leave it. */
  function LastValue(members: seq<(string, Json)>, k: string): (r: Option<Json>)
    ensures r.Some? ==> (k, r.value) in members
    ensures r.None? ==> forall i :: 0 <= i < |members| ==> members[i].0 != k
  {
    if members == [] then None
    else if members[|members| - 1].0 == k then Some(members[|members| - 1].1)
    else LastValue(members[..|members| - 1], k)
  }
}

=== FILE: wrappers.dfy ===
/** The optional value and the value-or-error shared by every module of the model. */
module Wrappers {

  /** `undefined` / `null` versus a present value. */
  datatype Option<+T> = None | Some(value: T)

  /** The value of a computation, or the message of the error it throws. */
  datatype Result<+T> = Ok(value: T) | Err(error: string)
}
